=== FILE: README.md ===
# RoWifi command core in Dafny

RoWifi is a Discord bot that links Discord members to Roblox accounts and
gives them roles through "binds": rank binds, asset binds and so on. Each
guild keeps its configuration in a MongoDB document, and its role settings
in a Postgres `guilds` row and an in-memory cache. This project models two
parts of the bot and proves properties of them.

The first part is the command framework:
- `dispatch` takes a message through the event filter, the prefix, the
  command lookup, `run_checks`, the rate-limit gate, the argument count, the
  handler, and the bucket debit or the error reply;
- `run_checks` decides permissions;
- `handle_error` renders a failed command, including the caret underline;
- the error taxonomy is `RoError`, `CommandError` and `DatabaseError`, with
  their `From` conversions and `Display`;
- the id wrappers are stored in Postgres through `as` casts.

The second part is the command handlers that manipulate binds, blacklists,
role lists and settings, together with the model conversions they use:
- asset types, guild and asset-bind backups, and the restore from a backup;
- the `assetbinds` command tree and its 12-per-page view;
- `assetbinds new`, with duplicate rejection, template normalisation and the
  invoker-only undo button;
- `assetbinds modify`, in both the current and the legacy version;
- `rankbinds modify`;
- `blacklist group`, with its undo button;
- the trainer-role and bypass-role settings;
- the update-on-join and update-on-verify toggles.

The model has these parts:
- The store is abstract:
  - MongoDB guild documents are a map from guild id to `RoGuild`;
  - the Postgres binds table is a sequence of rows;
  - the Postgres guild rows are a map;
  - the role caches are maps from guild id to a list of role ids.
- Everything the bot sends (replies, posts, log entries, deferred
  acknowledgements, component clean-ups) is appended to an output log.
- The button interactions a message receives form a finite sequence of
  events; the end of the sequence stands for the wait's timeout.
- Handlers that change the store step by step are methods on the `Bot`
  class. Each is proved equal to a function of the old state, and the
  properties are lemmas about that function.
- Pure code (conversions, parsing, `run_checks`, `handle_error`, the
  settings toggles) is made of functions and lemmas.

Each module corresponds to one source file:

| module | source file |
|---|---|
| `Ids` | models/src/id.rs |
| `DatabaseErrors` | database/src/error.rs |
| `Errors` | src/utils/error.rs |
| `Framework` | src/framework/mod.rs |
| `AssetModel` | src/models/bind/asset.rs |
| `GuildModel` | src/models/guild.rs |
| `AssetbindsCommands` | rowifi/src/commands/assetbinds/mod.rs |
| `AssetbindsNewCommand` | rowifi/src/commands/assetbinds/new.rs |
| `AssetbindsModifyCommand` | rowifi/src/commands/assetbinds/modify.rs |
| `LegacyAssetbindsModify` | src/commands/assetbinds/modify.rs |
| `RankbindsModifyCommand` | rowifi/src/commands/rankbinds/modify.rs |
| `BlacklistGroupCommand` | rowifi/src/commands/blacklists/group.rs |
| `TrainerCommand` | rowifi/src/commands/settings/trainer.rs |
| `BypassCommand` | rowifi/src/commands/settings/bypass.rs |
| `UpdateSettingsCommand` | rowifi/src/commands/settings/update.rs |

Four modules are shared:
- `Wrappers`: Option and Result.
- `Text`: ASCII whitespace splitting, ASCII case, `find`, and decimal
  printing and parsing.
- `Seqs`: Itertools' `unique`, and `retain` with a "not listed" test.
- `BotState` and `RoleSettings`: the `Bot` state, the output log, role
  collection, the undo-button wait, and what the two role-settings files
  share.

## Model

| member | source | states |
|---|---|---|
| Ids.Id.Get | models/src/id.rs:30-32 | the wrapped number is never 0 |
| Ids.New | models/src/id.rs:25-28 | `new(n)` needs a non-zero n (the unwrap) and `new(n).get() == n` |
| Ids.U64AsI64 | models/src/id.rs:95 | `u64 as i64` keeps the value modulo 2^64 |
| Ids.I64AsU64 | models/src/id.rs:155-156 | `i64 as u64` keeps the value modulo 2^64 |
| Ids.FromSql | models/src/id.rs:153-157 | `from_sql` succeeds exactly on a non-zero stored value (0 reaches `new(0)` and panics), and writing the result back gives the stored value |
| Ids.CastsRoundTrip | models/src/id.rs:89-157 | the two casts undo each other in both directions |
| Ids.SqlRoundTrip | models/src/id.rs:89-157 | reading back a written id gives the same id, for every id kind |
| Ids.EqualityAndOrderAreTheNumbers | models/src/id.rs:13-23 | the derived equality and order of a wrapper are those of its number |
| DatabaseErrors.FromSerialization | database/src/error.rs:27-31 | the conversion gives the Serialization variant holding the error unchanged |
| DatabaseErrors.FromDeserialization | database/src/error.rs:33-37 | the conversion gives the Deserialization variant holding the error unchanged |
| DatabaseErrors.FromMongo | database/src/error.rs:39-43 | the conversion gives the Mongo variant holding the error unchanged |
| DatabaseErrors.Display | database/src/error.rs:17-25 | the text is the variant's prefix ("Serialization Error - " and so on) followed by the inner error's text |
| DatabaseErrors.DisplayNamesVariant | database/src/error.rs:17-25 | the variant can be read back from the displayed text: no prefix is mistaken for another |
| Errors.FromDatabase | src/utils/error.rs:40-44 | wraps a DatabaseError unchanged in the Database variant |
| Errors.FromRoblox | src/utils/error.rs:46-50 | wraps the error unchanged in the Roblox variant |
| Errors.FromDiscord | src/utils/error.rs:52-56 | wraps the error unchanged in the Discord variant |
| Errors.FromCommand | src/utils/error.rs:58-62 | wraps a CommandError unchanged in the Command variant |
| Errors.FromPatreon | src/utils/error.rs:64-68 | wraps the error unchanged in the Patreon variant |
| Errors.FromSerialization | src/utils/error.rs:70-74 | a serialisation error becomes `Database(Serialization(err))` |
| Errors.SerializationConversionsAgree | src/utils/error.rs:70-74 | the direct conversion equals converting to DatabaseError first and then to RoError |
| Errors.Display | src/utils/error.rs:28-38 | the text is the variant's fixed prefix ("Database Error - ", "Command Error - ", …) followed by the `Debug` or `Display` text of the inner error |
| Errors.DisplayNamesVariant | src/utils/error.rs:28-38 | the variant can be read back from the displayed text |
| Framework.LeadingWhitespace | src/framework/mod.rs:56-57 | the skipped run is all whitespace and stops at the first non-whitespace character or at the end |
| Framework.ServerPrefix | src/framework/mod.rs:61 | the guild's configured prefix, else the default prefix |
| Framework.RunChecks | src/framework/mod.rs:126-180 | a blocked author or guild is refused; a bot owner is then allowed; a disabled channel refuses commands not named "command-channel"; an uncached guild is refused; a non-owner is allowed only by the guild owner's rule or by the member's level (Normal and Trainer always; Admin through MANAGE_GUILD or the admin role, with a permission error falling through to the role test; Creator never); iff with the whole precedence chain |
| Framework.CommandChannelIgnoresDisabledChannels | src/framework/mod.rs:139-141 | a command named "command-channel" gets the same verdict whichever channels are disabled |
| Framework.CreatorOnlyForOwners | src/framework/mod.rs:135-159 | a Creator command passes only for a bot owner or the guild owner |
| Framework.Underline | src/framework/mod.rs:204-205 | `idx` spaces followed by `size` carets |
| Text.Utf8Length | src/framework/mod.rs:202-203 | the byte length of a string is at least its character count, at most four times it, and equal to it exactly when the string is ASCII |
| Framework.Send | src/framework/mod.rs:207-208 | a reply is sent exactly when its text has at most 2000 characters; otherwise the unwrapped validation error is a panic |
| Framework.ArgumentReply | src/framework/mod.rs:204-206 | the reply is the message, an underline of `idx` spaces and `size` carets, and the expected-type line, 27 characters longer than its parts |
| Framework.HandleError | src/framework/mod.rs:182-222 | every non-command error gets the one generic message; the reply text is absent (the `find` unwrap panics) exactly for a ParseArgument whose fragment does not occur in the message; otherwise the fragment occurs at its first occurrence and the underline starts at the UTF-8 byte length of the message before it, with as many carets as the fragment has bytes |
| Framework.AlignedArgumentReply | src/framework/mod.rs:201-206 | the corrected ParseArgument reply, counted in characters: present exactly when the fragment occurs |
| Framework.AlignedCaretsUnderFragment | src/framework/mod.rs:201-206 | in the corrected reply the carets sit exactly under the first occurrence of the fragment: the character above each caret is the fragment's matching character, and no earlier position starts the fragment |
| Framework.CaretsUnderFragment | src/framework/mod.rs:201-206 | when the message before the fragment and the fragment are ASCII, `handle_error`'s reply is the corrected, aligned one |
| Framework.CaretsMisalignedAfterNonAscii | src/framework/mod.rs:202-203 | for the message "\u{e9} abc" and fragment "abc" the reply underlines from column 3 while the fragment starts at character 2, so it differs from the aligned reply |
| Framework.Framework.constructor | src/framework/mod.rs:27-32 | the default framework has no commands, no buckets and no help |
| Framework.Framework.AddCommand | src/framework/mod.rs:35-39 | appends exactly one command and changes nothing else |
| Framework.Framework.SetHelp | src/framework/mod.rs:41-44 | sets the help command and changes nothing else |
| Framework.Framework.AddBucket | src/framework/mod.rs:46-49 | registers the bucket under its name, replacing an earlier one, and changes nothing else |
| Framework.Framework.RegisteredBucket | src/framework/mod.rs:90-111 | a command has a bucket exactly when it names one that is registered |
| Framework.Framework.Dispatch | src/framework/mod.rs:51-118 | a filtered message has no effect; a bare prefix gets only the server-prefix reply; no prefix, an unrecognised command or failed checks have no effect; the help command runs with the rest of the message when one is registered, and nothing happens otherwise; a guild that must wait gets only the rate-limit reply; too few arguments get only the usage reply; the handler runs only when all gates pass; the bucket is debited only after `Ok`, and an `Err` gets `handle_error`'s reply or the panic; every reply over 2000 characters is a panic instead; at most one reply, always to the message's channel |
| AssetModel.AssetTypeName | src/models/bind/asset.rs:40-48 | every asset type is displayed with a non-empty name |
| AssetModel.ParseAssetType | src/models/bind/asset.rs:50-60 | "asset", "badge" and "gamepass" in any ASCII case give Asset, Badge and Gamepass, each iff the lowered text is that word; anything else is an error |
| AssetModel.ParseDisplayedName | src/models/bind/asset.rs:40-60 | parsing the displayed name of a type gives the type back |
| AssetModel.ParseIgnoresCase | src/models/bind/asset.rs:50-60 | two texts equal up to ASCII case parse to the same result |
| AssetModel.RoleNames | src/models/bind/asset.rs:66-79 | the backup never has more names than the bind has role ids |
| AssetModel.RoleNamesOfOne | src/models/bind/asset.rs:68-71 | one id gives exactly its cached role's name, or nothing when it is not cached |
| AssetModel.RoleNamesConcat | src/models/bind/asset.rs:66-79 | the names of two runs of ids are those of the first followed by those of the second, so unknown ids drop out wherever they stand and the known ids' names keep their order |
| AssetModel.RoleNamesFromKnownRoles | src/models/bind/asset.rs:66-79 | every backed-up name is the name of a cached role of the bind; when every id is cached, the names are exactly those roles' names, one per id, in order |
| AssetModel.ToBackup | src/models/bind/asset.rs:66-79 | the backup keeps the asset id and type and holds the names of the cached roles among the bind's ids |
| AssetModel.FirstMatchIgnoringCase | src/models/bind/asset.rs:84-85 | the index of the first role whose name equals the given one up to ASCII case, or the length when none does |
| AssetModel.FindRoleIgnoringCase | src/models/bind/asset.rs:84-85 | a found role is an existing role whose name matches ignoring ASCII case; nothing is found iff no existing role matches |
| AssetModel.Unmatched | src/models/bind/asset.rs:81-99 | the names for which roles must be created are no more than the names |
| AssetModel.ResolveRoleNames | src/models/bind/asset.rs:81-99 | a restore yields exactly one role id per name |
| AssetModel.CreatedRoles | src/models/bind/asset.rs:81-99 | no more roles are created than fresh ids are available |
| AssetModel.ResolveAndCreated | src/models/bind/asset.rs:81-99 | the restore succeeds iff there is a fresh id for every unmatched name; the k-th created role has the k-th fresh id and the k-th unmatched name |
| AssetModel.UnmatchedAreUnmatched | src/models/bind/asset.rs:81-99 | a role is created only for a name of the backup that no existing role matches |
| AssetModel.ResolvedIdAt | src/models/bind/asset.rs:81-99 | the i-th id is that of the first existing role matching the i-th name ignoring case, or else the fresh id numbered by the unmatched names before it |
| AssetModel.AllMatchedCreatesNothing | src/models/bind/asset.rs:81-99 | when every name matches an existing role, no role is created |
| AssetModel.RoleFactory.constructor | src/models/bind/asset.rs:87-89 | a role factory starts with its fresh ids and no created roles |
| AssetModel.RoleFactory.Create | src/models/bind/asset.rs:87-89 | creating a role takes the next fresh id and records the role under the requested name; without fresh ids it fails and changes nothing |
| AssetModel.FromBackup | src/models/bind/asset.rs:81-99 | the restore keeps the asset id and type, its role ids are ResolveRoleNames's, and the roles it creates are CreatedRoles's, in order |
| AssetModel.RestoreOfBackup | src/models/bind/asset.rs:66-99 | restoring the backup of a bind whose roles are all cached, into a guild with those roles and case-distinct names, gives the bind's ids back and creates no role |
| GuildModel.DisplayIsInjective | src/models/guild.rs:138-156 | different guild types, and different blacklist actions, are displayed differently |
| GuildModel.RoleName | src/models/guild.rs:171-172 | a backup role is the cached role's name, and is None exactly when the id is not in the cache |
| GuildModel.ToBackup | src/models/guild.rs:159-178 | the backup copies the prefix, settings, blacklists, user id and name; it maps each of the four bind lists element by element, keeping length and order; the verification and verified roles are the cached roles' names, present iff their ids are cached |
| GuildModel.RoleBindNamesContain | src/models/guild.rs:184-190 | every role name of a role bind is collected |
| GuildModel.AssetBindNamesContain | src/models/guild.rs:184-190 | every role name of an asset bind is collected |
| GuildModel.AllRoleNames | src/models/guild.rs:184-190 | the collected role names have no repeats (`unique`) |
| GuildModel.AllRoleNamesCoverBinds | src/models/guild.rs:184-190 | every role name of every bind of the four lists is collected |
| GuildModel.NameTable | src/models/guild.rs:184-198 | the name table has exactly the collected names as keys and uses no more fresh ids than are available |
| GuildModel.NameTableResolvesEachName | src/models/guild.rs:184-198 | each name maps to the first existing role that matches it ignoring ASCII case, or else to a role created under that name |
| GuildModel.NameTableCreatesForUnmatched | src/models/guild.rs:184-198 | every created role bears a collected name that no existing role matches, and the table maps that name to it |
| GuildModel.SpecialRole | src/models/guild.rs:205-229 | no verification (or verified) role gives 0 and creates nothing; at most one role is created, with the next fresh id and the role's own name |
| GuildModel.FirstExactMatch | src/models/guild.rs:208-209 | the first existing role whose name is exactly the given one |
| GuildModel.IdsOfNames | src/models/guild.rs:199-203 | when the table knows every name, a bind gets one id per name, in order, each the table's id for it |
| GuildModel.Restore | src/models/guild.rs:181-244 | a restore never uses more fresh ids than are available |
| GuildModel.RestoreKeepsShape | src/models/guild.rs:231-243 | the restored guild takes its id from the guild, copies prefix, settings and blacklists, has no disabled channels, and keeps each bind's details, each list's length and each bind's number of roles |
| GuildModel.FromBackup | src/models/guild.rs:181-244 | the restore succeeds iff Restore does; it then returns Restore's guild, and the roles it creates are Restore's, in order |
| GuildModel.RestoreWhenAllSucceed | src/models/guild.rs:181-244 | the restore is the name table, then the verification role, then the verified role, assembled in that order |
| GuildModel.BuildNameTable | src/models/guild.rs:184-198 | the loop builds NameTable's table and creates NameTable's roles, in order |
| GuildModel.ResolveSpecialRole | src/models/guild.rs:205-229 | the lookup tries the table, then an exact-name existing role, then creation, as SpecialRole says, and creates SpecialRole's roles |
| AssetbindsCommands.AssetbindsCommandShape | rowifi/src/commands/assetbinds/mod.rs:13-75 | the root is ["assetbinds", "ab"] in the Binds group with `assetbinds_view` as handler; its four sub-commands are view, new, ["modify", "m"] and ["delete", "d", "remove"]; modify has no handler and the sub-commands priority, template, add-roles and remove-roles; every command of the tree has level Admin |
| AssetbindsCommands.CommandList.constructor | rowifi/src/commands/assetbinds/mod.rs:13-76 | a command list starts empty |
| AssetbindsCommands.AssetbindsConfig | rowifi/src/commands/assetbinds/mod.rs:13-76 | appends exactly the assetbinds tree to the command list |
| AssetbindsCommands.PageCount | rowifi/src/commands/assetbinds/mod.rs:102-125 | the number of pages is the number of binds divided by 12, rounded up |
| AssetbindsCommands.PageHolds | rowifi/src/commands/assetbinds/mod.rs:102-125 | page k holds the binds from 12k up to 12(k+1) or the end, in query order, and is described with its number |
| AssetbindsCommands.AssetbindsView | rowifi/src/commands/assetbinds/mod.rs:79-129 | no binds get the one failure reply; otherwise the reply is the pages of 12 binds with their count |
| AssetbindsCommands.PageOf | rowifi/src/commands/assetbinds/mod.rs:106-123 | the loop over a chunk builds the page's embed, one field per bind in order |
| AssetbindsNewCommand.NormaliseTemplate | rowifi/src/commands/assetbinds/new.rs:51-62 | "disable" becomes `{discord-name}`, "N/A" becomes `{roblox-username}`; any other template is kept when it has a slug, and otherwise becomes the template followed by " {roblox-username}" |
| AssetbindsNewCommand.NormalisedHasSlug | rowifi/src/commands/assetbinds/new.rs:51-62 | for a slug test that recognises the added slug, the stored template has a slug and normalising it again changes nothing |
| AssetbindsNewCommand.StoredRoles | rowifi/src/commands/assetbinds/new.rs:66-89 | the stored roles have no repeats; without resolved data they are exactly the parsed ids present among the server's roles; with resolved data they are the resolved roles, whenever there is at least one token |
| AssetbindsNewCommand.DuplicateAddsNothing | rowifi/src/commands/assetbinds/new.rs:36-49 | a bind with the same type and asset id already there: the only effect is the failure reply |
| AssetbindsNewCommand.InsertedUnlessUndone | rowifi/src/commands/assetbinds/new.rs:83-145 | without a successful undo, the new row is appended to the binds, and the reply with the delete button comes first and the log entry second |
| AssetbindsNewCommand.UndoRestoresBinds | rowifi/src/commands/assetbinds/new.rs:162-200 | the invoker's press deletes the inserted bind, leaving the binds as they were before the command |
| AssetbindsNewCommand.IgnoreSetBookkeeping | rowifi/src/commands/assetbinds/new.rs:157-224 | the message is ignored while waiting and released after the loop; only an error inside the undo branch leaves it in the set |
| AssetbindsNewCommand.FailsOnlyInUndo | rowifi/src/commands/assetbinds/new.rs:162-200 | the command fails exactly when the invoker presses and one of the undo's three fallible calls (the interaction callback, the DELETE and the followup) fails |
| AssetbindsNewCommand.UndoInsertion | rowifi/src/commands/assetbinds/new.rs:163-200 | the undo clears the buttons, deletes the bind and sends the follow-up, stopping at the first failure, as UndoPress says; nothing else changes |
| AssetbindsNewCommand.AssetbindsNew | rowifi/src/commands/assetbinds/new.rs:23-227 | the handler's effect on the binds, the ignore set and the output log, and its result, are NewOutcome's; nothing else changes |
| AssetbindsNewCommand.InsertAndAwait | rowifi/src/commands/assetbinds/new.rs:94-227 | the insertion, the replies and the wait for the undo button have Added's effect |
| AssetbindsNewCommand.Announce | rowifi/src/commands/assetbinds/new.rs:100-145 | sends the success reply with the delete button, then the log entry, and changes nothing else |
| AssetbindsModifyCommand.ParseModifyOption | rowifi/src/commands/assetbinds/modify.rs:146-151 | "roles-add" and "roles-remove" in any ASCII case give RolesAdd and RolesRemove, each iff the lowered text is that word; anything else is a ParseError naming the two options |
| AssetbindsModifyCommand.ParseIgnoresCase | rowifi/src/commands/assetbinds/modify.rs:146-151 | two arguments equal up to ASCII case parse to the same result |
| AssetbindsModifyCommand.RoleIds | rowifi/src/commands/assetbinds/modify.rs:113-118 | the ids are what `parse_role` accepts among the tokens, one per accepted token (so repeats are kept), in token order by `BotState.CollectedSnoc` |
| AssetbindsModifyCommand.MissingGuildFails | rowifi/src/commands/assetbinds/modify.rs:22-27 | no guild document: NoRoGuild, nothing written, nothing sent |
| AssetbindsModifyCommand.UnknownAssetChangesNothing | rowifi/src/commands/assetbinds/modify.rs:32-50 | an asset id with no bind: only the failure message, nothing written |
| AssetbindsModifyCommand.ModifiesFirstMatchOnly | rowifi/src/commands/assetbinds/modify.rs:107-141 | only the first asset bind with that id changes (the positional `$` update): add appends all the ids to its roles, remove leaves exactly its roles that are not listed; its id and type, the other binds, the guild's other fields and the other guilds stay as they were |
| AssetbindsModifyCommand.ReplyListsTheIds | rowifi/src/commands/assetbinds/modify.rs:52-104 | the message and then the log entry, both with the one field "Added Roles: " or "Removed Roles: " followed by a mention of each parsed id |
| AssetbindsModifyCommand.AssetbindsModify | rowifi/src/commands/assetbinds/modify.rs:20-105 | the handler's effect on the guild documents and the output log, and its result, are ModifyOutcome's; nothing else changes |
| AssetbindsModifyCommand.AddRoles | rowifi/src/commands/assetbinds/modify.rs:107-123 | returns the parsed ids and pushes each of them onto the bind's roles |
| AssetbindsModifyCommand.RemoveRoles | rowifi/src/commands/assetbinds/modify.rs:125-141 | returns the parsed ids and pulls all of them from the bind's roles |
| LegacyAssetbindsModify.SilentCases | src/commands/assetbinds/modify.rs:24-56 | the command fails iff the guild has no document; it sends nothing, and writes nothing, exactly when the field or asset id is missing, the id is not an integer or no bind has it; otherwise it sends the one success message |
| LegacyAssetbindsModify.UnknownFieldStillReportsSuccess | src/commands/assetbinds/modify.rs:43-54 | a field other than roles-add and roles-remove writes nothing yet sends the success message |
| LegacyAssetbindsModify.FieldSelectsEdit | src/commands/assetbinds/modify.rs:43-80 | roles-add, in any ASCII case, pushes every parsed id of the remaining arguments; roles-remove pulls all of them |
| LegacyAssetbindsModify.AssetbindsModify | src/commands/assetbinds/modify.rs:24-56 | the handler's effect on the guild documents and the output log, and its result, are LegacyOutcome's; nothing else changes |
| LegacyAssetbindsModify.EditRoles | src/commands/assetbinds/modify.rs:58-80 | pushes, or pulls, the parsed ids of the remaining arguments on the bind's roles and changes nothing else |
| RankbindsModifyCommand.ParseModifyOption | rowifi/src/commands/rankbinds/modify.rs:246-255 | "priority", "roles-add", "roles-remove" and "template" in any ASCII case give the matching option, each iff the lowered text is that word; anything else is a ParseError naming the four options |
| RankbindsModifyCommand.FindRankBind | rowifi/src/commands/rankbinds/modify.rs:46-50 | a found bind is one of the guild's rank binds with the requested group and rank; none is found iff no bind has them |
| RankbindsModifyCommand.FoundIsFirst | rowifi/src/commands/rankbinds/modify.rs:46-50 | the found bind is the first in query order that has the requested group and rank |
| RankbindsModifyCommand.RankTemplate | rowifi/src/commands/rankbinds/modify.rs:157-188 | "auto" gives `[cap] {roblox-username}` when the rank's name has a prefix capture and `{roblox-username}` otherwise; "disable" gives `{discord-name}`; "N/A" gives `{roblox-username}`; anything else is stored verbatim |
| RankbindsModifyCommand.RequestedRoles | rowifi/src/commands/rankbinds/modify.rs:199-214 | the ids are the parsed or resolved roles of the tokens, each once (`unique`), with no server-role filter |
| RankbindsModifyCommand.RefusalsChangeNothing | rowifi/src/commands/rankbinds/modify.rs:46-114 | no matching bind, a priority that is not a 32-bit integer, or an empty template: only the matching failure reply, no bind changes |
| RankbindsModifyCommand.BoundAt | rowifi/src/commands/rankbinds/modify.rs:142-240 | an update by bind id changes exactly the rows with that id and keeps the row count |
| RankbindsModifyCommand.OnlyTheBindChanges | rowifi/src/commands/rankbinds/modify.rs:142-240 | only the found bind's row changes, and no row changes its id, guild, group or rank |
| RankbindsModifyCommand.UpdatedBy | rowifi/src/commands/rankbinds/modify.rs:68-127 | when the option's input is valid, the found bind's row becomes the option's update applied to it |
| RankbindsModifyCommand.PriorityIsStored | rowifi/src/commands/rankbinds/modify.rs:69-86 | a priority option stores the parsed number as the bind's priority and changes nothing else of it |
| RankbindsModifyCommand.TemplateIsStored | rowifi/src/commands/rankbinds/modify.rs:103-127 | a non-empty template option stores RankTemplate's mapping of it and changes nothing else of the bind |
| RankbindsModifyCommand.RolesAreAppended | rowifi/src/commands/rankbinds/modify.rs:199-214 | roles-add appends the requested ids to the bind's roles, without checking those it already has |
| RankbindsModifyCommand.RolesAreRemoved | rowifi/src/commands/rankbinds/modify.rs:217-240 | roles-remove keeps, in order, exactly the bind's roles that are not requested |
| RankbindsModifyCommand.SuccessReply | rowifi/src/commands/rankbinds/modify.rs:115-138 | a modification sends the reply and then the log entry, both with the one field naming the group, whose text starts with the rank |
| RankbindsModifyCommand.RankbindsModify | rowifi/src/commands/rankbinds/modify.rs:32-139 | the handler's effect on the binds and the output log is ModifiedBinds's and Replies's; nothing else changes |
| RankbindsModifyCommand.ApplyOption | rowifi/src/commands/rankbinds/modify.rs:68-127 | an invalid input changes nothing and gives no line; otherwise the bind is updated as Update says and the line describes the change |
| RankbindsModifyCommand.AddRoles | rowifi/src/commands/rankbinds/modify.rs:199-215 | returns the requested ids and appends them to the bind's roles |
| RankbindsModifyCommand.RemoveRoles | rowifi/src/commands/rankbinds/modify.rs:217-241 | returns the requested ids and stores the bind's roles without them |
| BlacklistGroupCommand.NewBlacklistFields | rowifi/src/commands/blacklists/group.rs:17-26 | the reason is never empty ("N/A" for an empty one, else the given one); the id is the group id's decimal text, read back as the group id; the type is `Group(group_id)` |
| BlacklistGroupCommand.MissingGuildFails | rowifi/src/commands/blacklists/group.rs:13-15 | when the guild lookup fails, its error is returned and nothing is written or sent |
| BlacklistGroupCommand.PushedUnlessUndone | rowifi/src/commands/blacklists/group.rs:27-66 | without a successful undo, only the guild's blacklists change, by the new blacklist pushed at the end, and the reply and the log entry are sent first |
| BlacklistGroupCommand.PullUndoesPush | rowifi/src/commands/blacklists/group.rs:27-30 | pulling after the push removes every entry equal to the blacklist; when it was not there before, the guild is as it was |
| BlacklistGroupCommand.UndoRemovesIt | rowifi/src/commands/blacklists/group.rs:90-124 | the invoker's press leaves no copy of the blacklist in the guild, changes no other guild, and restores the guild when the blacklist was new |
| BlacklistGroupCommand.CleanupOnlyWithoutInvokerPress | rowifi/src/commands/blacklists/group.rs:147-162 | the final component clean-up, through the interaction token or by editing the message, is sent exactly when the invoker never pressed |
| BlacklistGroupCommand.FailsOnlyInUndo | rowifi/src/commands/blacklists/group.rs:13-165 | the command fails exactly when the guild lookup fails or a fallible call of the undo branch fails |
| BlacklistGroupCommand.BlacklistGroup | rowifi/src/commands/blacklists/group.rs:13-165 | the handler's effect on the guild documents and the output log, and its result, are GroupOutcome's; nothing else changes |
| BlacklistGroupCommand.UndoBlacklist | rowifi/src/commands/blacklists/group.rs:90-124 | the undo clears the buttons, pulls the blacklist and sends the follow-up, stopping at the first failure, as UndoPress says |
| BlacklistGroupCommand.Announce | rowifi/src/commands/blacklists/group.rs:32-66 | sends the reply with the delete button, then the log entry, and changes nothing else |
| BotState.DeleteBind | rowifi/src/commands/assetbinds/new.rs:180-183 | `DELETE … WHERE bind_id = $1` keeps exactly the rows with another bind id |
| BotState.DeleteInserted | rowifi/src/commands/assetbinds/new.rs:94-183 | deleting the row just inserted, under a fresh bind id, gives the table back as it was |
| BotState.ApplyEdit | rowifi/src/commands/assetbinds/modify.rs:119-139 | `$push` with `$each` appends all the ids in order; `$pullAll` keeps exactly the roles that are not listed |
| BotState.EditFirst | rowifi/src/commands/assetbinds/modify.rs:119-139 | the positional update keeps the number of asset binds |
| BotState.EditFirstAt | rowifi/src/commands/assetbinds/modify.rs:119-139 | the positional `$` operator edits only the first asset bind with the id; every other bind stays as it was |
| BotState.EditAssetbind | rowifi/src/commands/assetbinds/modify.rs:119-139 | `modify_guild` with the guild filter changes only that guild's asset binds, as EditFirst says; other guilds and fields stay as they were |
| BotState.CollectRoles | rowifi/src/commands/assetbinds/new.rs:71-81 | the loop over the tokens collects Collected's list: every resolved role per token, or else each parsed id the filter allows |
| BotState.CollectedConcat | rowifi/src/commands/assetbinds/new.rs:72-81 | the roles collected from two runs of tokens are those of the first followed by those of the second |
| BotState.CollectedFromResolved | rowifi/src/commands/assetbinds/new.rs:73-75 | with resolved data, every token contributes all the resolved roles, so the list holds them iff there is a token |
| BotState.CollectedFromParsed | rowifi/src/commands/assetbinds/new.rs:76-80 | without resolved data, each token contributes at most one id, the list is exactly as long as the number of accepted tokens, and it holds exactly the parsed ids the filter allows |
| BotState.CollectedSnoc | rowifi/src/commands/assetbinds/new.rs:76-80 | without resolved data, one more token appends exactly its accepted id, if any, at the end |
| BotState.MentionsSnoc | rowifi/src/commands/settings/trainer.rs:96-99 | one more id adds its one mention line at the end of the text |
| BotState.PushMentions | rowifi/src/commands/settings/trainer.rs:96-99 | the `push_str` loop appends one mention per id, in order, to the starting text |
| BotState.RetainAbsent | rowifi/src/commands/settings/trainer.rs:148-152 | `retain` with a "not listed" test keeps Without's list |
| BotState.WaitEnd | rowifi/src/commands/assetbinds/new.rs:158-223 | the wait stops at the first stream error or press by the invoker, after passing over every other event |
| BotState.InvokerPress | rowifi/src/commands/assetbinds/new.rs:158-223 | a press found is the invoker's and comes before any stream error or other invoker press; none is found only when every press by the invoker comes after a stream error |
| BotState.Notices | rowifi/src/commands/assetbinds/new.rs:202-220 | the wait sends only deferred acknowledgements and the "only the original command invoker" notice |
| BotState.NoticesExactlyForPresses | rowifi/src/commands/assetbinds/new.rs:202-220 | something is sent while waiting iff some event is a press |
| BotState.AwaitInvoker | rowifi/src/commands/assetbinds/new.rs:158-223 | the loop stops where WaitEnd says and sends the notices of the presses it passed over; nothing else changes |
| BotState.Bot.constructor | rowifi/src/commands/settings/trainer.rs:84-94 | a bot starts with the given store, empty role caches, no ignored message and nothing sent |
| BotState.Bot.Send | rowifi/src/commands/settings/trainer.rs:108 | a reply is appended to the output log and nothing else changes |
| Seqs.Dedup | rowifi/src/commands/settings/trainer.rs:81 | `unique` keeps the same members, each once, and never lengthens the list |
| Seqs.DedupKeepsFirstOccurrenceOrder | rowifi/src/commands/settings/trainer.rs:81 | `unique` keeps the members in the order of their first occurrences |
| Seqs.DedupOfDistinct | rowifi/src/commands/settings/trainer.rs:81 | a list without repeats is left as it is |
| Seqs.DedupIdempotent | rowifi/src/commands/settings/trainer.rs:81 | applying `unique` twice is applying it once |
| Seqs.Without | rowifi/src/commands/settings/trainer.rs:139 | `retain(not listed)` keeps exactly the members that are not listed, never lengthening the list |
| Seqs.WithoutCounts | rowifi/src/commands/settings/trainer.rs:139 | a listed value disappears entirely, and every other value keeps all its occurrences |
| Seqs.WithoutConcat | rowifi/src/commands/settings/trainer.rs:139 | filtering a concatenation filters each part |
| Seqs.WithoutNothingListed | rowifi/src/commands/settings/trainer.rs:139 | when no member is listed, the list is unchanged |
| Seqs.WithoutKeepsDistinct | rowifi/src/commands/settings/trainer.rs:139 | filtering a list without repeats leaves a list without repeats |
| Seqs.WithoutAllListed | rowifi/src/commands/settings/trainer.rs:139 | when every member is listed, nothing is left |
| RoleSettings.ListingNoneIffEmpty | rowifi/src/commands/settings/trainer.rs:27-34 | the view says "None" exactly when no role is stored, and otherwise starts with the first role's line |
| RoleSettings.Requested | rowifi/src/commands/settings/trainer.rs:66-81 | the ids `add` and `set` read are, each once, exactly the parsed ids among the server's roles or the resolved roles |
| RoleSettings.ToAdd | rowifi/src/commands/settings/trainer.rs:83-86 | what is added is exactly the requested ids that are not cached, without repeats when the request has none |
| RoleSettings.AddingAgainAddsNothing | rowifi/src/commands/settings/trainer.rs:66-94 | adding the same roles to the list the first addition left adds nothing |
| RoleSettings.AdditionKeepsDistinct | rowifi/src/commands/settings/trainer.rs:66-94 | a cached list without repeats has none after the addition |
| RoleSettings.ReadRequested | rowifi/src/commands/settings/trainer.rs:187-202 | the collection loop and `unique` compute Requested's ids |
| RoleSettings.ReadToAdd | rowifi/src/commands/settings/trainer.rs:66-86 | the collection, `unique` and `retain` compute ToAdd's ids |
| RoleSettings.CheckPremium | rowifi/src/commands/settings/trainer.rs:13-25 | a failed guild lookup stops with its error; a Free guild gets the Premium-only reply and stops; a Premium guild goes on; only the output log can change |
| TrainerCommand.RefusedWithoutPremium | rowifi/src/commands/settings/trainer.rs:11-185 | view, add, remove and set all fail with the lookup's error, sending nothing, when the guild has no row, and on a Free guild only send the Premium-only reply; nothing is written in either case |
| TrainerCommand.ViewListsStoredRoles | rowifi/src/commands/settings/trainer.rs:27-45 | the view's one reply is the introduction, a blank line and a line per stored trainer role, or "None" exactly when there is none; nothing changes |
| TrainerCommand.AddAppendsNewRoles | rowifi/src/commands/settings/trainer.rs:66-94 | add appends to the stored trainer roles and to the cache the same list: the requested ids not yet cached, each once; other guilds keep their rows and cache entries, and a cache that agreed with the store, or had no repeats, still does |
| TrainerCommand.AddIsIdempotent | rowifi/src/commands/settings/trainer.rs:66-94 | adding the same roles a second time changes neither the store nor the cache |
| TrainerCommand.RemoveDropsListed | rowifi/src/commands/settings/trainer.rs:129-152 | remove keeps, in order, exactly the cached roles that are not listed, reading the listed ids without server filter or `unique`; the stored trainer roles become the guild's admin roles without the listed ids |
| TrainerCommand.RemoveStoresAdminRoles | rowifi/src/commands/settings/trainer.rs:138-146 | a guild with admin role 1 and trainer role 2, cached, ends with stored trainer roles [1] after an empty remove, so the store no longer agrees with the cache |
| TrainerCommand.CorrectedRemoveKeepsAgreement | rowifi/src/commands/settings/trainer.rs:138-152 | removing from the trainer roles themselves keeps exactly the unlisted trainer roles and keeps a store that agreed with the cache in agreement |
| TrainerCommand.SetAgreesAndIsIdempotent | rowifi/src/commands/settings/trainer.rs:187-212 | set stores and caches the same list, without repeats, of exactly the requested server roles or resolved roles; setting the same roles again changes nothing |
| TrainerCommand.TrainerView | rowifi/src/commands/settings/trainer.rs:11-48 | the handler's effect and result are ViewOutcome's; nothing else changes |
| TrainerCommand.TrainerAdd | rowifi/src/commands/settings/trainer.rs:50-111 | the handler's effect on the rows, the cache and the output log, and its result, are AddOutcome's; nothing else changes |
| TrainerCommand.AddRoles | rowifi/src/commands/settings/trainer.rs:66-111 | the work after the Premium check has Added's effect |
| TrainerCommand.TrainerRemove | rowifi/src/commands/settings/trainer.rs:113-169 | the handler's effect and result are RemoveOutcome's, which stores the admin roles as written; nothing else changes |
| TrainerCommand.RemoveRoles | rowifi/src/commands/settings/trainer.rs:129-169 | stores the given list without the listed ids, retains the unlisted ids in the cache and replies with the listed ids |
| TrainerCommand.TrainerSet | rowifi/src/commands/settings/trainer.rs:171-222 | the handler's effect and result are SetOutcome's; nothing else changes |
| BypassCommand.Chosen | rowifi/src/commands/settings/bypass.rs:34 | the given option, or the default when there is none |
| BypassCommand.Request | rowifi/src/commands/settings/bypass.rs:34-42 | the roles text is the given one, or empty when there is none |
| BypassCommand.RefusedWithoutPremium | rowifi/src/commands/settings/bypass.rs:18-32 | no row: the lookup's error and nothing sent; a Free guild: only the Premium-only reply; nothing is written in either case |
| BypassCommand.MissingOptionTakesDefault | rowifi/src/commands/settings/bypass.rs:34-42 | a missing option does exactly what giving the default option does |
| BypassCommand.AddWithoutRolesAddsNothing | rowifi/src/commands/settings/bypass.rs:34-103 | add with no roles text writes nothing and leaves the cache's lists as they were |
| BypassCommand.ViewListsStoredRoles | rowifi/src/commands/settings/bypass.rs:45-67 | the view's reply is the introduction, a blank line and a line per stored bypass role, or "None" exactly when there is none |
| BypassCommand.AddAppendsNewRoles | rowifi/src/commands/settings/bypass.rs:69-120 | add appends to the stored bypass roles and to the cache the same list: the requested ids not yet cached, each once; other guilds are untouched, and agreement and distinctness of the cache are kept |
| BypassCommand.AddIsIdempotent | rowifi/src/commands/settings/bypass.rs:69-120 | adding the same roles a second time changes neither the store nor the cache |
| BypassCommand.RemoveDropsListed | rowifi/src/commands/settings/bypass.rs:122-163 | the stored bypass roles and the cached ones each keep exactly their unlisted ids; other guilds are untouched; a cache that agreed with the store still does |
| BypassCommand.SetAgreesAndIsIdempotent | rowifi/src/commands/settings/bypass.rs:165-214 | set stores and caches the same list, without repeats, of exactly the requested server roles or resolved roles; setting again changes nothing |
| BypassCommand.Bypass | rowifi/src/commands/settings/bypass.rs:18-43 | the handler's effect on the rows, the cache and the output log, and its result, are BypassOutcome's; nothing else changes |
| BypassCommand.RunOption | rowifi/src/commands/settings/bypass.rs:35-42 | the dispatch runs the chosen operation, with Run's effect |
| BypassCommand.BypassView | rowifi/src/commands/settings/bypass.rs:45-67 | sends ViewReply's reply for the guild's row and changes nothing else |
| BypassCommand.BypassAdd | rowifi/src/commands/settings/bypass.rs:69-120 | has Added's effect on the rows, the cache and the output log |
| BypassCommand.BypassRemove | rowifi/src/commands/settings/bypass.rs:122-163 | has Removed's effect on the rows, the cache and the output log |
| BypassCommand.BypassSet | rowifi/src/commands/settings/bypass.rs:165-214 | has SetTo's effect on the rows, the cache and the output log |
| UpdateSettingsCommand.Toggled | rowifi/src/commands/settings/update.rs:22-25 | the value written is true exactly for Enable |
| UpdateSettingsCommand.WithSetting | rowifi/src/commands/settings/update.rs:27-29 | `$set` writes the one setting and keeps the other setting and the other fields of the settings |
| UpdateSettingsCommand.ChangeIsInjective | rowifi/src/commands/settings/update.rs:48-59 | the `old -> new` text determines both values |
| UpdateSettingsCommand.MissingGuildFails | rowifi/src/commands/settings/update.rs:14-19 | without a guild document the command fails with NoRoGuild, writes nothing and sends nothing |
| UpdateSettingsCommand.OnlyTheSettingChanges | rowifi/src/commands/settings/update.rs:22-29 | with a document, only the chosen setting of that guild changes, to true for Enable and false for Disable; the other setting, the guild's other fields and every other guild are unchanged |
| UpdateSettingsCommand.RepeatingStoresTheSame | rowifi/src/commands/settings/update.rs:12-62 | running a command twice with the same option stores what running it once does |
| UpdateSettingsCommand.RepliesThenLogs | rowifi/src/commands/settings/update.rs:31-59 | the confirmation message comes first and then the log entry, titled with the author's name, recording the old and the new value |
| UpdateSettingsCommand.LogLineRecordsChange | rowifi/src/commands/settings/update.rs:48-59 | two equal log lines for a setting record the same old and new values |

## Left out

- Network, database and Discord calls are not performed: the stores are maps and sequences, and everything sent is appended to an output log.
- A `?` on a store or HTTP call is taken to succeed, except in the undo branches of `assetbinds new` and `blacklist group`, where each press carries the fate of its calls; the other early returns on such failures are not modelled.
- Code the handlers call but that is not part of this model is taken as input: `parse_role` is a function parameter, `Template::has_slug` is a predicate parameter, `PREFIX_REGEX` is a capture function, the guild's Roblox rank name is given, and the framework's prefix finder, `parser::command`, argument splitter, bucket and `guild_wide_permissions` are given by their results.
- The guild lookup `get_guild` is not part of this model: in `blacklist group` and the trainer and bypass handlers its error is the parameter `missing`; in the other handlers a missing document gives NoRoGuild, as they state.
- `FunctionOption`'s default lives in rowifi/src/commands/settings/mod.rs, which is not part of this model: it is the parameter `fallback`. The parsing of `ToggleOption` is not part of this model either.
- The button wait's timeout (60 s in `assetbinds new`, 300 s in `blacklist group`) is the end of the finite event sequence; concurrent interactions and the order in which Discord delivers them are not modelled.
- Role ids in the handlers are plain integers: the `RoleId::new(..).unwrap()` conversions are taken as the identity, so the panic of `RoleId::new(0)` is not modelled there; the casts themselves are modelled in `Ids`.
- A failed `create_role` in a restore (the `expect`) ends the restore with None rather than a panic; the ids Discord gives new roles are the factory's fresh ids.
- `ORDER BY asset_id` is not modelled: the binds are given in query order.
- `Debug` escaping of strings and the embed's `default_data` (footer, timestamp, colour of plain embeds) are not modelled.
- The legacy command's `Arguments` tokeniser is not part of this model: the arguments are given already split.
- In update.rs the `_id` filter is taken to select the guild the command runs in.
- Framework.Framework.Dispatch models `handle_error` as written, with the underline counted in bytes; the corrected, character-counted reply is `Framework.AlignedArgumentReply` (see Findings).
- AssetbindsView (in AssetbindsCommands) does not model the validation of `embed.build()?`: a page whose embed breaks Discord's limits on field, description or total length makes the source return an error, while the model always paginates.
- The `EmbedBuilder::build().unwrap()` calls of the handlers do not validate the embed in the model: the panic on an over-long embed is not modelled. Message text, by contrast, is checked against the 2000-character limit in `Framework.Send`.
- GuildModel.NameTable and GuildModel.BuildNameTable key a created role by the requested name; the source keys it by the name Discord returns for the new role, taken here to be the name it was asked for.
- GuildModel's role binds fold the rank, group and custom binds of a backup into one `RoleBind(details, discordRoles)` shape: only the role names a restore collects from them are modelled, not the binds' other fields.
- AssetModel.ParseAssetType folds ASCII case only, while the source's `to_lowercase` folds every Unicode letter. Unicode lowers only the Kelvin sign and the dotted capital I to text containing ASCII letters ("k" and "i" followed by a combining dot), and neither can spell "asset", "badge" or "gamepass", so the verdict is the same; the full Unicode mapping is not modelled.
- TrainerCommand.TrainerRemove models the source as written, storing the admin roles; the corrected behaviour is stated by `TrainerCommand.CorrectedRemoveOutcome` (see Findings).

## Findings

| source | as written | input that shows it | evidently intended | confidence | as-written member | corrected member |
|---|---|---|---|---|---|---|
| rowifi/src/commands/settings/trainer.rs:138-146 | `trainer remove` stores the guild's admin roles minus the listed ids as its trainer roles | a Premium guild with admin roles [1], trainer roles [2] and the cache [2]; `trainer remove` with no roles stores trainer roles [1], while the cache keeps [2] | store the trainer roles minus the listed ids, as the cache update on lines 148-152 does | high, not executed | TrainerCommand.RemoveStoresAdminRoles | TrainerCommand.CorrectedRemoveKeepsAgreement |
| src/framework/mod.rs:201-208 | the underline of a ParseArgument reply starts after `msg.content.find(&arg)` spaces and has `arg.len()` carets, both counted in UTF-8 bytes, while the message above it is shown in characters | the message "\u{e9} abc" with the fragment "abc": the underline starts at column 3, under the `b`, though the fragment starts at character 2 | count the spaces and carets in characters, so that the carets sit under the fragment | high, not executed | Framework.CaretsMisalignedAfterNonAscii | Framework.AlignedCaretsUnderFragment |

=== FILE: asset.dfy ===
/**
 * Asset binds and their backups (src/models/bind/asset.rs): the asset
 * type with its `Display` and `FromStr`, and the conversion of a bind to a
 * backup (role ids become role names) and back (role names become ids of
 * existing roles, or of roles created for the purpose).
 */
module AssetModel {
  import opened Wrappers
  import opened Text
  import opened Ids

  datatype AssetType = Asset | Badge | Gamepass

  /** `Display`: the variant's name. */
  function AssetTypeName(t: AssetType): (s: string)
    ensures s != []
  {
    match t
    case Asset => "Asset"
    case Badge => "Badge"
    case Gamepass => "Gamepass"
  }

  /**
   * `FromStr`: the lower-cased input must be one of the three lower-case
   * names; anything else is an error (None).
   */
  function ParseAssetType(s: string): (r: Option<AssetType>)
    ensures r == Some(Asset) <==> AsciiLower(s) == "asset"
    ensures r == Some(Badge) <==> AsciiLower(s) == "badge"
    ensures r == Some(Gamepass) <==> AsciiLower(s) == "gamepass"
  {
    var lower := AsciiLower(s);
    if lower == "asset" then Some(Asset)
    else if lower == "badge" then Some(Badge)
    else if lower == "gamepass" then Some(Gamepass)
    else None
  }

  /** Parsing the displayed name gives the type back. */
  lemma ParseDisplayedName(t: AssetType)
    ensures ParseAssetType(AssetTypeName(t)) == Some(t)
  {
    match t
    case Asset => assert AsciiLower("Asset") == "asset";
    case Badge => assert AsciiLower("Badge") == "badge";
    case Gamepass => assert AsciiLower("Gamepass") == "gamepass";
  }

  /** Parsing ignores ASCII case: inputs that differ only in case parse alike. */
  lemma ParseIgnoresCase(s: string, s': string)
    requires EqIgnoreAsciiCase(s, s')
    ensures ParseAssetType(s) == ParseAssetType(s')
  {
  }

  /** A stored asset bind: role ids are the 64-bit ids cast to `i64`. */
  datatype AssetBind = AssetBind(id: I64, assetType: AssetType, discordRoles: seq<I64>)

  /** A backed-up asset bind: roles are kept by name. */
  datatype BackupAssetBind = BackupAssetBind(id: I64, assetType: AssetType, discordRoles: seq<string>)

  /** A role as the cache holds it. */
  datatype CachedRole = CachedRole(id: U64, name: string)

  /**
   * The names of the roles listed by id, in order, skipping ids the role
   * map does not hold. A stored id is looked up as `id as u64`.
   */
  function RoleNames(ids: seq<I64>, roles: map<U64, CachedRole>): (names: seq<string>)
    ensures |names| <= |ids|
    decreases |ids|
  {
    if ids == [] then []
    else
      var rest := RoleNames(ids[..|ids| - 1], roles);
      var key := I64AsU64(ids[|ids| - 1]);
      if key in roles then rest + [roles[key].name] else rest
  }

  /** Every name comes from a known role, and when every id is known the names line up with the ids. */
  lemma {:induction false} RoleNamesFromKnownRoles(ids: seq<I64>, roles: map<U64, CachedRole>)
    ensures forall n :: n in RoleNames(ids, roles) ==>
      exists i :: 0 <= i < |ids| && I64AsU64(ids[i]) in roles && roles[I64AsU64(ids[i])].name == n
    ensures (forall i :: 0 <= i < |ids| ==> I64AsU64(ids[i]) in roles) ==>
      |RoleNames(ids, roles)| == |ids|
      && forall i :: 0 <= i < |ids| ==> RoleNames(ids, roles)[i] == roles[I64AsU64(ids[i])].name
    decreases |ids|
  {
    if ids != [] {
      var init := ids[..|ids| - 1];
      RoleNamesFromKnownRoles(init, roles);
      forall n | n in RoleNames(init, roles)
        ensures exists i :: 0 <= i < |ids| && I64AsU64(ids[i]) in roles && roles[I64AsU64(ids[i])].name == n
      {
        var i :| 0 <= i < |init| && I64AsU64(init[i]) in roles && roles[I64AsU64(init[i])].name == n;
        assert ids[i] == init[i];
      }
    }
  }

  /** One id gives its role's name when the map knows it, and nothing otherwise. */
  lemma RoleNamesOfOne(id: I64, roles: map<U64, CachedRole>)
    ensures RoleNames([id], roles) == (if I64AsU64(id) in roles then [roles[I64AsU64(id)].name] else [])
  {
    assert [id][..0] == [];
  }

  /**
   * The names of a list of ids are the names of its first part followed by
   * those of its second: unknown ids drop out wherever they stand, and the
   * known ids' names keep their order.
   */
  lemma {:induction false} RoleNamesConcat(a: seq<I64>, b: seq<I64>, roles: map<U64, CachedRole>)
    ensures RoleNames(a + b, roles) == RoleNames(a, roles) + RoleNames(b, roles)
    decreases |b|
  {
    if b == [] {
      assert a + b == a;
    } else {
      var init := b[..|b| - 1];
      assert (a + b)[..|a + b| - 1] == a + init;
      assert (a + b)[|a + b| - 1] == b[|b| - 1];
      RoleNamesConcat(a, init, roles);
    }
  }

  /** `to_backup`: keep id and type; replace the role ids by the names of the roles the map knows. */
  method ToBackup(bind: AssetBind, roles: map<U64, CachedRole>) returns (backup: BackupAssetBind)
    ensures backup == BackupAssetBind(bind.id, bind.assetType, RoleNames(bind.discordRoles, roles))
  {
    var names: seq<string> := [];
    var i := 0;
    while i < |bind.discordRoles|
      invariant 0 <= i <= |bind.discordRoles|
      invariant names == RoleNames(bind.discordRoles[..i], roles)
    {
      assert bind.discordRoles[..i + 1][..i] == bind.discordRoles[..i];
      var key := I64AsU64(bind.discordRoles[i]);
      if key in roles {
        names := names + [roles[key].name];
      }
      i := i + 1;
    }
    assert bind.discordRoles[..i] == bind.discordRoles;
    backup := BackupAssetBind(bind.id, bind.assetType, names);
  }

  /** Where the first role whose name equals `name` ignoring ASCII case sits; |roles| when there is none. */
  function FirstMatchIgnoringCase(roles: seq<CachedRole>, name: string): (k: nat)
    ensures k <= |roles|
    ensures forall j :: 0 <= j < k ==> !EqIgnoreAsciiCase(roles[j].name, name)
    ensures k < |roles| ==> EqIgnoreAsciiCase(roles[k].name, name)
    decreases |roles|
  {
    if roles == [] then 0
    else if EqIgnoreAsciiCase(roles[0].name, name) then 0
    else 1 + FirstMatchIgnoringCase(roles[1..], name)
  }

  /** `roles.iter().find(|r| r.name.eq_ignore_ascii_case(name))`. */
  function FindRoleIgnoringCase(roles: seq<CachedRole>, name: string): (r: Option<CachedRole>)
    ensures r.Some? ==> r.value in roles && EqIgnoreAsciiCase(r.value.name, name)
    ensures r.None? <==> forall role :: role in roles ==> !EqIgnoreAsciiCase(role.name, name)
  {
    var k := FirstMatchIgnoringCase(roles, name);
    if k < |roles| then Some(roles[k]) else None
  }

  /** The names, in order and with repeats, that no existing role matches. */
  function Unmatched(names: seq<string>, existing: seq<CachedRole>): (missing: seq<string>)
    ensures |missing| <= |names|
  {
    if names == [] then []
    else
      var rest := Unmatched(names[1..], existing);
      if FindRoleIgnoringCase(existing, names[0]).Some? then rest else [names[0]] + rest
  }

  /** Put one id in front of a resolution that succeeded; a failed one stays failed. */
  function Prepend(id: I64, r: Option<seq<I64>>): Option<seq<I64>> {
    match r
    case Some(ids) => Some([id] + ids)
    case None => None
  }

  /**
   * The ids `from_backup` gives the names when the roles it creates receive
   * the ids `newIds` in turn: for each name, the id of the first existing
   * role that matches it ignoring ASCII case, or else the next new id; each
   * cast to `i64`. None when the new ids run out, that is, when a creation
   * request fails.
   */
  function ResolveRoleNames(names: seq<string>, existing: seq<CachedRole>, newIds: seq<NonZeroU64>): (r: Option<seq<I64>>)
    ensures r.Some? ==> |r.value| == |names|
  {
    if names == [] then Some([])
    else
      match FindRoleIgnoringCase(existing, names[0])
      case Some(role) => Prepend(U64AsI64(role.id), ResolveRoleNames(names[1..], existing, newIds))
      case None =>
        if newIds == [] then None
        else Prepend(U64AsI64(newIds[0]), ResolveRoleNames(names[1..], existing, newIds[1..]))
  }

  /** The roles `from_backup` creates, in order, up to the request that fails. */
  function CreatedRoles(names: seq<string>, existing: seq<CachedRole>, newIds: seq<NonZeroU64>): (roles: seq<CachedRole>)
    ensures |roles| <= |newIds|
  {
    if names == [] then []
    else
      match FindRoleIgnoringCase(existing, names[0])
      case Some(_) => CreatedRoles(names[1..], existing, newIds)
      case None =>
        if newIds == [] then []
        else [CachedRole(newIds[0], names[0])] + CreatedRoles(names[1..], existing, newIds[1..])
  }

  /**
   * Restoring fails exactly when there are more unmatched names than new
   * ids; the roles created are the unmatched names in order, each with the
   * next new id, up to the request that fails.
   */
  lemma {:induction false} ResolveAndCreated(names: seq<string>, existing: seq<CachedRole>, newIds: seq<NonZeroU64>)
    ensures ResolveRoleNames(names, existing, newIds).Some? <==> |Unmatched(names, existing)| <= |newIds|
    ensures var roles := CreatedRoles(names, existing, newIds);
      |roles| <= |Unmatched(names, existing)|
      && (|Unmatched(names, existing)| <= |newIds| ==> |roles| == |Unmatched(names, existing)|)
      && forall k :: 0 <= k < |roles| ==> roles[k] == CachedRole(newIds[k], Unmatched(names, existing)[k])
    decreases |names|
  {
    if names != [] {
      if FindRoleIgnoringCase(existing, names[0]).Some? {
        ResolveAndCreated(names[1..], existing, newIds);
      } else if newIds != [] {
        ResolveAndCreated(names[1..], existing, newIds[1..]);
        var rest := CreatedRoles(names[1..], existing, newIds[1..]);
        assert forall k :: 1 <= k < 1 + |rest| ==> ([CachedRole(newIds[0], names[0])] + rest)[k] == rest[k - 1];
      }
    }
  }

  /** The unmatched names are names of the input that no existing role matches. */
  lemma {:induction false} UnmatchedAreUnmatched(names: seq<string>, existing: seq<CachedRole>)
    ensures forall n :: n in Unmatched(names, existing) ==> n in names && FindRoleIgnoringCase(existing, n).None?
    decreases |names|
  {
    if names != [] {
      UnmatchedAreUnmatched(names[1..], existing);
    }
  }

  /**
   * Position by position: a matched name gets the id of the first existing
   * role that matches it, and the i-th name gets, when unmatched, the new id
   * numbered by how many unmatched names come before it.
   */
  lemma {:induction false} ResolvedIdAt(names: seq<string>, existing: seq<CachedRole>, newIds: seq<NonZeroU64>, i: nat)
    requires ResolveRoleNames(names, existing, newIds).Some?
    requires i < |names|
    ensures FindRoleIgnoringCase(existing, names[i]).Some? ==>
      ResolveRoleNames(names, existing, newIds).value[i] == U64AsI64(FindRoleIgnoringCase(existing, names[i]).value.id)
    ensures FindRoleIgnoringCase(existing, names[i]).None? ==>
      |Unmatched(names[..i], existing)| < |newIds|
      && ResolveRoleNames(names, existing, newIds).value[i] == U64AsI64(newIds[|Unmatched(names[..i], existing)|])
    decreases |names|
  {
    if i > 0 {
      var tail := newIds;
      if FindRoleIgnoringCase(existing, names[0]).None? {
        tail := newIds[1..];
      }
      ResolvedIdAt(names[1..], existing, tail, i - 1);
      assert names[1..][..i - 1] == names[..i][1..];
      assert names[1..][i - 1] == names[i];
    }
  }

  /** When every name matches an existing role, nothing is created and no new id is used. */
  lemma {:induction false} AllMatchedCreatesNothing(names: seq<string>, existing: seq<CachedRole>, newIds: seq<NonZeroU64>)
    requires forall i :: 0 <= i < |names| ==> FindRoleIgnoringCase(existing, names[i]).Some?
    ensures Unmatched(names, existing) == []
    ensures CreatedRoles(names, existing, newIds) == []
    decreases |names|
  {
    if names != [] {
      AllMatchedCreatesNothing(names[1..], existing, newIds);
    }
  }

  /**
   * Discord's role creation as the conversions see it. `pending` are the ids
   * Discord will give the next roles created; when it runs out, a creation
   * request fails. `created` records the roles made so far.
   */
  class RoleFactory {
    var pending: seq<NonZeroU64>
    var created: seq<CachedRole>

    constructor (ids: seq<NonZeroU64>)
      ensures pending == ids && created == []
    {
      pending := ids;
      created := [];
    }

    /** `create_role(guild).name(name)`: None when the request fails. */
    method Create(name: string) returns (role: Option<CachedRole>)
      modifies this
      ensures old(pending) == [] ==> role.None? && pending == old(pending) && created == old(created)
      ensures old(pending) != [] ==>
        role == Some(CachedRole(old(pending)[0], name))
        && pending == old(pending)[1..] && created == old(created) + [role.value]
    {
      if pending == [] {
        return None;
      }
      role := Some(CachedRole(pending[0], name));
      pending := pending[1..];
      created := created + [role.value];
    }
  }

  /**
   * `from_backup`: keep id and type; give every name, in order, the id of
   * the first existing role whose name matches it ignoring ASCII case, or
   * else create a role of that name. The list of existing roles is not
   * updated, so a repeated unmatched name gets a new role each time. A
   * failed creation panics (`expect`); the result is then None.
   */
  method FromBackup(bind: BackupAssetBind, existing: seq<CachedRole>, factory: RoleFactory) returns (r: Option<AssetBind>)
    modifies factory
    ensures r == match ResolveRoleNames(bind.discordRoles, existing, old(factory.pending))
                 case Some(ids) => Some(AssetBind(bind.id, bind.assetType, ids))
                 case None => None
    ensures factory.created == old(factory.created) + CreatedRoles(bind.discordRoles, existing, old(factory.pending))
    ensures factory.pending == old(factory.pending)[|CreatedRoles(bind.discordRoles, existing, old(factory.pending))|..]
  {
    var names := bind.discordRoles;
    ghost var newIds := factory.pending;
    ghost var made: seq<CachedRole> := [];
    var ids: seq<I64> := [];
    var i := 0;
    RestoreStarts(names, existing, newIds);
    while i < |names|
      invariant 0 <= i <= |names|
      invariant factory.created == old(factory.created) + made
      invariant RestoreInvariant(names, existing, newIds, i, ids, made, factory.pending)
    {
      RestoreAdvances(names, existing, newIds, i, ids, made, factory.pending);
      var id := ResolveRoleName(names[i], existing, factory);
      if id.None? {
        return None;
      }
      if FindRoleIgnoringCase(existing, names[i]).None? {
        made := made + [CachedRole(newIds[|made|], names[i])];
      }
      ids := ids + [id.value];
      i := i + 1;
    }
    RestoreFinishes(names, existing, newIds, ids, made, factory.pending);
    r := Some(AssetBind(bind.id, bind.assetType, ids));
  }

  lemma RestoreStarts(names: seq<string>, existing: seq<CachedRole>, newIds: seq<NonZeroU64>)
    ensures RestoreInvariant(names, existing, newIds, 0, [], [], newIds)
  {
    assert names[0..] == names && newIds[0..] == newIds;
    assert forall rest: seq<I64> :: [] + rest == rest;
    assert forall rest: seq<CachedRole> :: [] + rest == rest;
  }

  lemma RestoreFinishes(names: seq<string>, existing: seq<CachedRole>, newIds: seq<NonZeroU64>,
                        ids: seq<I64>, made: seq<CachedRole>, pending: seq<NonZeroU64>)
    requires RestoreInvariant(names, existing, newIds, |names|, ids, made, pending)
    ensures ResolveRoleNames(names, existing, newIds) == Some(ids)
    ensures CreatedRoles(names, existing, newIds) == made && pending == newIds[|made|..]
  {
    assert names[|names|..] == [] && ids + [] == ids && made + [] == made;
  }

  /**
   * Where the restore loop stands after the first i names: `ids` resolved
   * and `made` created so far, `pending` the ids left, and the rest of the
   * names still to give the rest of the result.
   */
  ghost predicate RestoreInvariant(names: seq<string>, existing: seq<CachedRole>, newIds: seq<NonZeroU64>,
                                   i: nat, ids: seq<I64>, made: seq<CachedRole>, pending: seq<NonZeroU64>) {
    i <= |names|
    && |made| <= |newIds| && pending == newIds[|made|..]
    && CreatedRoles(names, existing, newIds) == made + CreatedRoles(names[i..], existing, pending)
    && ResolveRoleNames(names, existing, newIds)
       == match ResolveRoleNames(names[i..], existing, pending)
          case Some(rest) => Some(ids + rest)
          case None => None
  }

  /** One turn of the restore loop keeps RestoreInvariant, or ends the restore with None. */
  lemma RestoreAdvances(names: seq<string>, existing: seq<CachedRole>, newIds: seq<NonZeroU64>,
                        i: nat, ids: seq<I64>, made: seq<CachedRole>, pending: seq<NonZeroU64>)
    requires i < |names| && RestoreInvariant(names, existing, newIds, i, ids, made, pending)
    ensures FindRoleIgnoringCase(existing, names[i]).Some? ==>
      RestoreInvariant(names, existing, newIds, i + 1,
                       ids + [U64AsI64(FindRoleIgnoringCase(existing, names[i]).value.id)], made, pending)
    ensures FindRoleIgnoringCase(existing, names[i]).None? && pending != [] ==>
      RestoreInvariant(names, existing, newIds, i + 1,
                       ids + [U64AsI64(pending[0])], made + [CachedRole(pending[0], names[i])], pending[1..])
    ensures FindRoleIgnoringCase(existing, names[i]).None? && pending == [] ==>
      ResolveRoleNames(names, existing, newIds) == None && CreatedRoles(names, existing, newIds) == made
  {
    RestoreStep(names, existing, pending, i);
    var found := FindRoleIgnoringCase(existing, names[i]);
    var tail := if found.Some? || pending == [] then pending else pending[1..];
    var rest := ResolveRoleNames(names[i + 1..], existing, tail);
    var id := if found.Some? then U64AsI64(found.value.id) else if pending == [] then 0 else U64AsI64(pending[0]);
    if rest.Some? {
      AppendAssociates(ids, id, rest.value);
    }
    if found.None? && pending != [] {
      AppendAssociates(made, CachedRole(pending[0], names[i]), CreatedRoles(names[i + 1..], existing, tail));
      assert pending[1..] == newIds[|made| + 1..];
    }
    if found.None? && pending == [] {
      assert made + [] == made;
    }
  }

  lemma AppendAssociates<T>(done: seq<T>, x: T, rest: seq<T>)
    ensures done + ([x] + rest) == (done + [x]) + rest
  {
  }

  /** How the restore of the names from position i on begins: with the i-th name. */
  lemma RestoreStep(names: seq<string>, existing: seq<CachedRole>, pending: seq<NonZeroU64>, i: nat)
    requires i < |names|
    ensures FindRoleIgnoringCase(existing, names[i]).Some? ==>
      ResolveRoleNames(names[i..], existing, pending)
        == Prepend(U64AsI64(FindRoleIgnoringCase(existing, names[i]).value.id), ResolveRoleNames(names[i + 1..], existing, pending))
      && CreatedRoles(names[i..], existing, pending) == CreatedRoles(names[i + 1..], existing, pending)
    ensures FindRoleIgnoringCase(existing, names[i]).None? && pending != [] ==>
      ResolveRoleNames(names[i..], existing, pending)
        == Prepend(U64AsI64(pending[0]), ResolveRoleNames(names[i + 1..], existing, pending[1..]))
      && CreatedRoles(names[i..], existing, pending)
        == [CachedRole(pending[0], names[i])] + CreatedRoles(names[i + 1..], existing, pending[1..])
    ensures FindRoleIgnoringCase(existing, names[i]).None? && pending == [] ==>
      ResolveRoleNames(names[i..], existing, pending) == None && CreatedRoles(names[i..], existing, pending) == []
  {
    assert names[i..][0] == names[i] && names[i..][1..] == names[i + 1..];
  }

  /** One step of `from_backup`: the id for one name, creating its role when no existing role matches. */
  method ResolveRoleName(name: string, existing: seq<CachedRole>, factory: RoleFactory) returns (id: Option<I64>)
    modifies factory
    ensures FindRoleIgnoringCase(existing, name).Some? ==>
      id == Some(U64AsI64(FindRoleIgnoringCase(existing, name).value.id))
      && factory.pending == old(factory.pending) && factory.created == old(factory.created)
    ensures FindRoleIgnoringCase(existing, name).None? && old(factory.pending) == [] ==>
      id.None? && factory.pending == old(factory.pending) && factory.created == old(factory.created)
    ensures FindRoleIgnoringCase(existing, name).None? && old(factory.pending) != [] ==>
      id == Some(U64AsI64(old(factory.pending)[0]))
      && factory.pending == old(factory.pending)[1..]
      && factory.created == old(factory.created) + [CachedRole(old(factory.pending)[0], name)]
  {
    var found := FindRoleIgnoringCase(existing, name);
    if found.Some? {
      return Some(U64AsI64(found.value.id));
    }
    var created := factory.Create(name);
    if created.None? {
      return None;
    }
    id := Some(U64AsI64(created.value.id));
  }

  /**
   * A backup followed by a restore gives the bind back, when every role of
   * the bind is still there: the role map and the list of existing roles
   * describe the same roles, and no two existing roles have names that are
   * equal ignoring ASCII case. Nothing is created.
   */
  lemma {:induction false} RestoreOfBackup(bind: AssetBind, roles: map<U64, CachedRole>, existing: seq<CachedRole>, newIds: seq<NonZeroU64>)
    requires forall i :: 0 <= i < |bind.discordRoles| ==> I64AsU64(bind.discordRoles[i]) in roles
    requires forall k :: k in roles ==> roles[k] in existing && roles[k].id == k
    requires forall a, b :: 0 <= a < |existing| && 0 <= b < |existing| && EqIgnoreAsciiCase(existing[a].name, existing[b].name) ==> a == b
    ensures CreatedRoles(RoleNames(bind.discordRoles, roles), existing, newIds) == []
    ensures ResolveRoleNames(RoleNames(bind.discordRoles, roles), existing, newIds) == Some(bind.discordRoles)
  {
    var ids := bind.discordRoles;
    var names := RoleNames(ids, roles);
    RoleNamesFromKnownRoles(ids, roles);
    forall i | 0 <= i < |names|
      ensures FindRoleIgnoringCase(existing, names[i]).Some?
      ensures FindRoleIgnoringCase(existing, names[i]).value == roles[I64AsU64(ids[i])]
    {
      var role := roles[I64AsU64(ids[i])];
      var a :| 0 <= a < |existing| && existing[a] == role;
      assert EqIgnoreAsciiCase(role.name, names[i]);
      var found := FindRoleIgnoringCase(existing, names[i]);
      assert found.Some?;
      var b :| 0 <= b < |existing| && existing[b] == found.value;
      assert a == b;
    }
    AllMatchedCreatesNothing(names, existing, newIds);
    ResolveAndCreated(names, existing, newIds);
    var resolved := ResolveRoleNames(names, existing, newIds).value;
    forall i | 0 <= i < |names|
      ensures resolved[i] == ids[i]
    {
      ResolvedIdAt(names, existing, newIds, i);
      CastsRoundTrip(0, ids[i]);
    }
    assert resolved == ids;
  }
}

=== FILE: assetbinds.dfy ===
/**
 * The `assetbinds` command tree and the `assetbinds view` handler
 * (rowifi/src/commands/assetbinds/mod.rs). The view lists the guild's asset
 * binds twelve to a page.
 */
module AssetbindsCommands {
  import opened Wrappers
  import opened Text
  import opened BotState
  import Framework
  import AssetModel

  /**
   * A command as the builder makes it: level Admin, no bucket, no minimum
   * of arguments and no group unless set.
   */
  function AdminCommand(names: seq<string>, description: string, subCommands: seq<Framework.Command>, handler: Option<string>): Framework.Command {
    Framework.Command(names, Framework.Admin, Option.None, 0, description, Option.None, subCommands, handler)
  }

  function ModifyCommand(): Framework.Command {
    AdminCommand(["modify", "m"], "Moduile to modify an existing assetbind", [
      AdminCommand(["priority"], "Command to modify the priority of an assetbind", [], Some("ab_modify_priority")),
      AdminCommand(["template"], "Command to modify the template of an assetbind", [], Some("ab_modify_template")),
      AdminCommand(["add-roles"], "Command to add roles to an assetbind", [], Some("ab_add_roles")),
      AdminCommand(["remove-roles"], "Command to remove roles from an assetbind", [], Some("ab_remove_roles"))
    ], Option.None)
  }

  /** The command `assetbinds_config` registers. */
  function AssetbindsCommand(): Framework.Command {
    var root := AdminCommand(["assetbinds", "ab"], "Module to create, update, delete and view the assetbinds", [
      AdminCommand(["view"], "Command to view the assetbinds of the server", [], Some("assetbinds_view")),
      AdminCommand(["new"], "Command to add a new assetbind", [], Some("assetbinds_new")),
      ModifyCommand(),
      AdminCommand(["delete", "d", "remove"], "Commmand to delete an assetbind", [], Some("assetbinds_delete"))
    ], Some("assetbinds_view"));
    root.(group := Some("Binds"))
  }

  /** Every command in the tree under `c`, `c` included, has level `level`. */
  predicate EveryLevel(c: Framework.Command, level: Framework.RoLevel)
    decreases c
  {
    c.level == level && forall s :: s in c.subCommands ==> EveryLevel(s, level)
  }

  /**
   * The tree's shape: the root and its four sub-commands with their names,
   * the four sub-commands of `modify`, `modify` without a handler, the root
   * handled by the view, and every command at level Admin.
   */
  lemma {:induction false} AssetbindsCommandShape()
    ensures var root := AssetbindsCommand();
      root.names == ["assetbinds", "ab"] && root.group == Some("Binds")
      && root.handler == Some("assetbinds_view")
      && |root.subCommands| == 4
      && root.subCommands[0].names == ["view"] && root.subCommands[1].names == ["new"]
      && root.subCommands[2].names == ["modify", "m"] && root.subCommands[3].names == ["delete", "d", "remove"]
      && root.subCommands[2].handler.None?
      && |root.subCommands[2].subCommands| == 4
      && root.subCommands[2].subCommands[0].names == ["priority"]
      && root.subCommands[2].subCommands[1].names == ["template"]
      && root.subCommands[2].subCommands[2].names == ["add-roles"]
      && root.subCommands[2].subCommands[3].names == ["remove-roles"]
    ensures EveryLevel(AssetbindsCommand(), Framework.Admin)
  {
    var root := AssetbindsCommand();
    var modifyCmd := ModifyCommand();
    forall s | s in modifyCmd.subCommands ensures EveryLevel(s, Framework.Admin) {
      assert s.subCommands == [];
    }
    assert EveryLevel(modifyCmd, Framework.Admin);
    forall s | s in root.subCommands ensures EveryLevel(s, Framework.Admin) {
      if s != modifyCmd {
        assert s.subCommands == [];
      }
    }
  }

  /** The `Vec<Command>` the command configurations push onto. */
  class CommandList {
    var commands: seq<Framework.Command>

    constructor ()
      ensures commands == []
    {
      commands := [];
    }
  }

  /** `assetbinds_config`: push the tree, and nothing else. */
  method AssetbindsConfig(cmds: CommandList)
    modifies cmds
    ensures cmds.commands == old(cmds.commands) + [AssetbindsCommand()]
  {
    cmds.commands := cmds.commands + [AssetbindsCommand()];
  }

  const PAGE_SIZE: nat := 12

  /** The field that shows one bind. */
  function BindField(b: BindRow): Field {
    Field("Id: " + IntToString(b.assetId),
          "Type: " + AssetModel.AssetTypeName(b.assetType) + "\nTemplate: " + b.template
          + "\nPriority: " + IntToString(b.priority) + "\nRoles: " + Mentions(b.discordRoles, "", ""))
  }

  /** The page numbered `number` showing `chunk`. */
  function Page(chunk: seq<BindRow>, number: nat): Embed {
    Embed(Plain, "AssetBinds", "Page " + NatToString(number),
          seq(|chunk|, i requires 0 <= i < |chunk| => BindField(chunk[i])))
  }

  /** The pages for `binds`, numbered from `first`: twelve binds per page, the last page holding the rest. */
  function Pages(binds: seq<BindRow>, first: nat): seq<Embed>
    decreases |binds|
  {
    if binds == [] then []
    else if |binds| <= PAGE_SIZE then [Page(binds, first)]
    else [Page(binds[..PAGE_SIZE], first)] + Pages(binds[PAGE_SIZE..], first + 1)
  }

  /** There are ceil(n / 12) pages. */
  lemma {:induction false} PageCount(binds: seq<BindRow>, first: nat)
    ensures |Pages(binds, first)| == (|binds| + PAGE_SIZE - 1) / PAGE_SIZE
    decreases |binds|
  {
    if |binds| > PAGE_SIZE {
      PageCount(binds[PAGE_SIZE..], first + 1);
    }
  }

  /** Page k, counted from 0, is numbered first + k and shows binds 12k up to 12k + 12, in order. */
  lemma {:induction false} PageHolds(binds: seq<BindRow>, first: nat, k: nat)
    requires k < |Pages(binds, first)|
    ensures PAGE_SIZE * k < |binds|
    ensures Pages(binds, first)[k]
      == Page(binds[PAGE_SIZE * k .. if |binds| <= PAGE_SIZE * (k + 1) then |binds| else PAGE_SIZE * (k + 1)], first + k)
    decreases |binds|
  {
    if k > 0 {
      PageHolds(binds[PAGE_SIZE..], first + 1, k - 1);
      assert binds[PAGE_SIZE..][PAGE_SIZE * (k - 1)..] == binds[PAGE_SIZE * k..];
      var end := if |binds| <= PAGE_SIZE * (k + 1) then |binds| else PAGE_SIZE * (k + 1);
      assert binds[PAGE_SIZE..][PAGE_SIZE * (k - 1) .. end - PAGE_SIZE] == binds[PAGE_SIZE * k .. end];
    } else if |binds| > PAGE_SIZE {
      assert binds[0..PAGE_SIZE] == binds[..PAGE_SIZE];
    } else {
      assert binds[0..|binds|] == binds;
    }
  }

  const NO_BINDS := Failure("Bind Viewing Failed", "No assetbinds were found associated with this server")

  /**
   * `assetbinds_view`, given the guild's asset binds as the query returns
   * them: one failure reply when there are none, otherwise the pages,
   * numbered from 1, with their count.
   */
  method AssetbindsView(binds: seq<BindRow>) returns (out: Output)
    ensures binds == [] ==> out == Respond(NO_BINDS, false)
    ensures binds != [] ==> out == Paginate(Pages(binds, 1), |Pages(binds, 1)|)
  {
    if binds == [] {
      return Respond(NO_BINDS, false);
    }
    var pages: seq<Embed> := [];
    var pageCount: nat := 0;
    var i := 0;
    assert binds[0..] == binds;
    while i < |binds|
      invariant 0 <= i <= |binds|
      invariant |pages| == pageCount
      invariant Pages(binds, 1) == pages + Pages(binds[i..], pageCount + 1)
    {
      var end := if |binds| - i <= PAGE_SIZE then |binds| else i + PAGE_SIZE;
      var page := PageOf(binds[i..end], pageCount + 1);
      assert binds[i..][..end - i] == binds[i..end] && binds[i..][end - i..] == binds[end..];
      PagesStep(binds[i..], pageCount + 1);
      assert pages + ([page] + Pages(binds[end..], pageCount + 2)) == (pages + [page]) + Pages(binds[end..], pageCount + 2);
      pages := pages + [page];
      pageCount := pageCount + 1;
      i := end;
    }
    assert binds[i..] == [];
    out := Paginate(pages, pageCount);
  }

  /** The first page, then the pages of the rest. */
  lemma PagesStep(binds: seq<BindRow>, first: nat)
    requires binds != []
    ensures var end := if |binds| <= PAGE_SIZE then |binds| else PAGE_SIZE;
      Pages(binds, first) == [Page(binds[..end], first)] + Pages(binds[end..], first + 1)
  {
    if |binds| <= PAGE_SIZE {
      assert binds[..|binds|] == binds && binds[|binds|..] == [];
    }
  }

  /** The inner loop of the view: one field per bind of the chunk. */
  method PageOf(chunk: seq<BindRow>, number: nat) returns (page: Embed)
    ensures page == Page(chunk, number)
  {
    var fields: seq<Field> := [];
    var j := 0;
    while j < |chunk|
      invariant 0 <= j <= |chunk|
      invariant fields == seq(j, i requires 0 <= i < j => BindField(chunk[i]))
    {
      fields := fields + [BindField(chunk[j])];
      j := j + 1;
    }
    page := Embed(Plain, "AssetBinds", "Page " + NatToString(number), fields);
  }
}

=== FILE: assetbinds_modify.dfy ===
/**
 * `assetbinds modify` (rowifi/src/commands/assetbinds/modify.rs): add roles
 * to, or remove roles from, an asset bind stored in the guild's MongoDB
 * document.
 */
module AssetbindsModifyCommand {
  import opened Wrappers
  import opened Text
  import opened Ids
  import opened Errors
  import opened BotState
  import GuildModel

  datatype ModifyOption = RolesAdd | RolesRemove

  const MODIFY_OPTIONS := "one of `roles-add` `roles-remove`"

  /** `FromArg`: the option's name, in any ASCII case. */
  function ParseModifyOption(arg: string): (r: Result<ModifyOption, ParseError>)
    ensures r == Ok(RolesAdd) <==> AsciiLower(arg) == "roles-add"
    ensures r == Ok(RolesRemove) <==> AsciiLower(arg) == "roles-remove"
    ensures r.Err? ==> r.error == ParseError(MODIFY_OPTIONS)
  {
    var lower := AsciiLower(arg);
    if lower == "roles-add" then Ok(RolesAdd)
    else if lower == "roles-remove" then Ok(RolesRemove)
    else Err(ParseError(MODIFY_OPTIONS))
  }

  /** Arguments that differ only in ASCII case parse alike. */
  lemma ParseIgnoresCase(arg: string, arg': string)
    requires EqIgnoreAsciiCase(arg, arg')
    ensures ParseModifyOption(arg) == ParseModifyOption(arg')
  {
  }

  datatype ModifyArguments = ModifyArguments(option: ModifyOption, assetId: I64, change: string)

  /** `add_roles` and `remove_roles` keep every id `parse_role` reads. */
  function AnyRole(r: I64): bool {
    true
  }

  /** The ids `add_roles` and `remove_roles` read from `change`, in order, repeats kept. */
  function RoleIds(change: string, parse: string -> Option<I64>): (ids: seq<I64>)
    ensures |ids| <= |SplitAsciiWhitespace(change)|
    ensures |ids| == AcceptedCount(SplitAsciiWhitespace(change), parse, AnyRole)
    ensures forall x :: x in ids <==>
      exists i :: 0 <= i < |SplitAsciiWhitespace(change)| && parse(SplitAsciiWhitespace(change)[i]) == Some(x)
  {
    CollectedFromParsed(SplitAsciiWhitespace(change), parse, AnyRole);
    Collected(SplitAsciiWhitespace(change), Option.None, parse, AnyRole)
  }

  function Edit(option: ModifyOption, ids: seq<I64>): RoleEdit {
    match option
    case RolesAdd => PushEach(ids)
    case RolesRemove => PullAll(ids)
  }

  /** The field of the reply and of the log entry: the asset id, then the ids added or removed. */
  function ChangeField(assetId: int, option: ModifyOption, ids: seq<I64>): Field {
    Field("Id: " + IntToString(assetId),
          (if option == RolesAdd then "Added Roles: " else "Removed Roles: ") + Mentions(ids, "", " "))
  }

  function UnknownAsset(assetId: int): Embed {
    Failure("Asset Modification Failed", "A bind with Asset Id " + IntToString(assetId) + " does not exist")
  }

  /** The guild documents after the handler, what it sent, and its result. */
  datatype Outcome = Outcome(guilds: map<int, GuildModel.RoGuild>, sent: seq<Output>, result: Result<(), RoError>)

  function ModifyOutcome(guilds: map<int, GuildModel.RoGuild>, guildId: int, args: ModifyArguments,
                         parse: string -> Option<I64>, authorName: string): Outcome
  {
    if guildId !in guilds then Outcome(guilds, [], Err(Command(NoRoGuild)))
    else if !exists a :: a in guilds[guildId].assetbinds && a.id == args.assetId then
      Outcome(guilds, [Post(UnknownAsset(args.assetId))], Ok(()))
    else
      var ids := RoleIds(args.change, parse);
      var field := ChangeField(args.assetId, args.option, ids);
      Outcome(EditAssetbind(guilds, guildId, args.assetId, Edit(args.option, ids)),
              [Post(Embed(DarkGreen, "Success!", "The bind was successfully modified", [field])),
               GuildLog(Embed(Plain, "Action by " + authorName, "Asset Bind Modification", [field]))],
              Ok(()))
  }

  /** Without a guild document the handler fails with `NoRoGuild`, sending and storing nothing. */
  lemma MissingGuildFails(guilds: map<int, GuildModel.RoGuild>, guildId: int, args: ModifyArguments,
                          parse: string -> Option<I64>, authorName: string)
    requires guildId !in guilds
    ensures ModifyOutcome(guilds, guildId, args, parse, authorName) == Outcome(guilds, [], Err(Command(NoRoGuild)))
  {
  }

  /** An asset id the guild has no bind for gets one failure message and no update. */
  lemma UnknownAssetChangesNothing(guilds: map<int, GuildModel.RoGuild>, guildId: int, args: ModifyArguments,
                                   parse: string -> Option<I64>, authorName: string)
    requires guildId in guilds && forall a :: a in guilds[guildId].assetbinds ==> a.id != args.assetId
    ensures var o := ModifyOutcome(guilds, guildId, args, parse, authorName);
      o.guilds == guilds && o.result == Ok(()) && o.sent == [Post(UnknownAsset(args.assetId))]
  {
  }

  /**
   * When the bind exists: only its first occurrence in the guild's asset
   * binds changes, and only its roles, which gain the parsed ids at the end
   * (roles-add) or lose every occurrence of them (roles-remove); no other
   * guild document changes.
   */
  lemma {:induction false} ModifiesFirstMatchOnly(guilds: map<int, GuildModel.RoGuild>, guildId: int, args: ModifyArguments,
                                                  parse: string -> Option<I64>, authorName: string, i: nat)
    requires guildId in guilds && i < |guilds[guildId].assetbinds|
    requires exists a :: a in guilds[guildId].assetbinds && a.id == args.assetId
    ensures var o := ModifyOutcome(guilds, guildId, args, parse, authorName);
      var before := guilds[guildId].assetbinds;
      var ids := RoleIds(args.change, parse);
      o.result == Ok(()) && o.guilds.Keys == guilds.Keys
      && (forall g :: g in guilds && g != guildId ==> o.guilds[g] == guilds[g])
      && o.guilds[guildId] == guilds[guildId].(assetbinds := o.guilds[guildId].assetbinds)
      && |o.guilds[guildId].assetbinds| == |before|
      && (!IsFirstWithId(before, args.assetId, i) ==> o.guilds[guildId].assetbinds[i] == before[i])
      && (IsFirstWithId(before, args.assetId, i) ==>
          (o.guilds[guildId].assetbinds[i].id == before[i].id
           && o.guilds[guildId].assetbinds[i].assetType == before[i].assetType
           && (args.option == RolesAdd ==> o.guilds[guildId].assetbinds[i].discordRoles == before[i].discordRoles + ids)
           && (args.option == RolesRemove ==> forall x :: x in o.guilds[guildId].assetbinds[i].discordRoles <==>
                 x in before[i].discordRoles && x !in ids)))
  {
    EditFirstAt(guilds[guildId].assetbinds, args.assetId, Edit(args.option, RoleIds(args.change, parse)), i);
  }

  /** When the bind exists, the reply and the log entry list exactly the ids added or removed, in the order read. */
  lemma ReplyListsTheIds(guilds: map<int, GuildModel.RoGuild>, guildId: int, args: ModifyArguments,
                         parse: string -> Option<I64>, authorName: string)
    requires guildId in guilds && exists a :: a in guilds[guildId].assetbinds && a.id == args.assetId
    ensures var o := ModifyOutcome(guilds, guildId, args, parse, authorName);
      var listed := Mentions(RoleIds(args.change, parse), "", " ");
      |o.sent| == 2 && o.sent[0].Post? && o.sent[1].GuildLog?
      && o.sent[0].embed.fields == o.sent[1].embed.fields == [ChangeField(args.assetId, args.option, RoleIds(args.change, parse))]
      && o.sent[0].embed.fields[0].value == (if args.option == RolesAdd then "Added Roles: " else "Removed Roles: ") + listed
  {
  }

  /** `assetbinds_modify`. */
  method AssetbindsModify(bot: Bot, guildId: int, args: ModifyArguments, parse: string -> Option<I64>, authorName: string)
    returns (r: Result<(), RoError>)
    modifies bot
    ensures var o := ModifyOutcome(old(bot.guilds), guildId, args, parse, authorName);
      bot.guilds == o.guilds && bot.outputs == old(bot.outputs) + o.sent && r == o.result
    ensures bot.binds == old(bot.binds) && bot.guildRows == old(bot.guildRows)
    ensures bot.trainerRoles == old(bot.trainerRoles) && bot.bypassRoles == old(bot.bypassRoles)
    ensures bot.ignoreComponents == old(bot.ignoreComponents)
  {
    if guildId !in bot.guilds {
      return Err(Command(NoRoGuild));
    }
    var guild := bot.guilds[guildId];
    if !exists a :: a in guild.assetbinds && a.id == args.assetId {
      bot.Send(Post(UnknownAsset(args.assetId)));
      return Ok(());
    }
    var ids;
    match args.option {
      case RolesAdd => ids := AddRoles(bot, guildId, args.assetId, args.change, parse);
      case RolesRemove => ids := RemoveRoles(bot, guildId, args.assetId, args.change, parse);
    }
    var field := ChangeField(args.assetId, args.option, ids);
    bot.Send(Post(Embed(DarkGreen, "Success!", "The bind was successfully modified", [field])));
    bot.Send(GuildLog(Embed(Plain, "Action by " + authorName, "Asset Bind Modification", [field])));
    r := Ok(());
  }

  /** `add_roles`: read the ids, then push them all onto the bind's roles. */
  method AddRoles(bot: Bot, guildId: int, assetId: I64, change: string, parse: string -> Option<I64>) returns (ids: seq<I64>)
    modifies bot
    ensures ids == RoleIds(change, parse)
    ensures bot.guilds == EditAssetbind(old(bot.guilds), guildId, assetId, PushEach(ids))
    ensures bot.outputs == old(bot.outputs) && bot.binds == old(bot.binds) && bot.guildRows == old(bot.guildRows)
    ensures bot.trainerRoles == old(bot.trainerRoles) && bot.bypassRoles == old(bot.bypassRoles)
    ensures bot.ignoreComponents == old(bot.ignoreComponents)
  {
    ids := CollectRoles(SplitAsciiWhitespace(change), Option.None, parse, AnyRole);
    bot.guilds := EditAssetbind(bot.guilds, guildId, assetId, PushEach(ids));
  }

  /** `remove_roles`: read the ids, then pull every occurrence of each from the bind's roles. */
  method RemoveRoles(bot: Bot, guildId: int, assetId: I64, change: string, parse: string -> Option<I64>) returns (ids: seq<I64>)
    modifies bot
    ensures ids == RoleIds(change, parse)
    ensures bot.guilds == EditAssetbind(old(bot.guilds), guildId, assetId, PullAll(ids))
    ensures bot.outputs == old(bot.outputs) && bot.binds == old(bot.binds) && bot.guildRows == old(bot.guildRows)
    ensures bot.trainerRoles == old(bot.trainerRoles) && bot.bypassRoles == old(bot.bypassRoles)
    ensures bot.ignoreComponents == old(bot.ignoreComponents)
  {
    ids := CollectRoles(SplitAsciiWhitespace(change), Option.None, parse, AnyRole);
    bot.guilds := EditAssetbind(bot.guilds, guildId, assetId, PullAll(ids));
  }
}

=== FILE: assetbinds_new.dfy ===
/**
 * `assetbinds new` (rowifi/src/commands/assetbinds/new.rs): refuse a second
 * bind for the same asset, normalise the template, collect the roles, insert
 * the row, announce it with an "Oh no! Delete?" button, and let the invoker
 * undo the insertion by pressing it.
 */
module AssetbindsNewCommand {
  import opened Wrappers
  import opened Text
  import opened Seqs
  import opened Errors
  import opened BotState
  import AssetModel

  /** The command's arguments: asset type, asset id, template, then an optional priority and role text. */
  datatype NewArguments = NewArguments(
    option: AssetModel.AssetType,
    assetId: int,
    template: string,
    priority: Option<int>,
    discordRoles: Option<string>)

  /**
   * What the handler is given besides its arguments: the guild and the
   * author, the roles resolved with an interaction, and the guild's roles in
   * the cache.
   */
  datatype NewRequest = NewRequest(
    guildId: int,
    author: int,
    authorName: string,
    args: NewArguments,
    resolved: Option<seq<int>>,
    serverRoles: set<int>)

  /**
   * The stored template: "disable" and "N/A" stand for the two plain slugs;
   * any other text is kept, with " {roblox-username}" appended when
   * `has_slug` finds no slug in it.
   */
  function NormaliseTemplate(template: string, hasSlug: string -> bool): (t: string)
    ensures template == "disable" ==> t == DISCORD_NAME
    ensures template == "N/A" ==> t == ROBLOX_USERNAME
    ensures template != "disable" && template != "N/A" ==>
      (template <= t && (t == template <==> hasSlug(template)))
    ensures template != "disable" && template != "N/A" && !hasSlug(template) ==> t == template + " " + ROBLOX_USERNAME
  {
    if template == "disable" then DISCORD_NAME
    else if template == "N/A" then ROBLOX_USERNAME
    else if hasSlug(template) then template
    else template + " " + ROBLOX_USERNAME
  }

  /**
   * What `has_slug` is taken to recognise: the two slugs, and the text with
   * " {roblox-username}" appended.
   */
  predicate RecognisesSlugs(hasSlug: string -> bool, template: string) {
    hasSlug(DISCORD_NAME) && hasSlug(ROBLOX_USERNAME) && hasSlug(template + " " + ROBLOX_USERNAME)
  }

  /** A normalised template always holds a slug, and normalising it again leaves it as it is. */
  lemma NormalisedHasSlug(template: string, hasSlug: string -> bool)
    requires RecognisesSlugs(hasSlug, template)
    ensures hasSlug(NormaliseTemplate(template, hasSlug))
    ensures NormaliseTemplate(NormaliseTemplate(template, hasSlug), hasSlug) == NormaliseTemplate(template, hasSlug)
  {
    var t := NormaliseTemplate(template, hasSlug);
    if template != "disable" && template != "N/A" && !hasSlug(template) {
      assert |t| > |"disable"| && |t| > |"N/A"|;
    }
  }

  /**
   * The roles stored with the bind: what the loop over the role tokens
   * collects, the parsed ids kept only if the guild has that role, with
   * repeats dropped. Without resolved data these are exactly the server
   * roles some token names; with it, the resolved roles, if any token was
   * given. The list is `Dedup` of the collected ids, so it keeps the order
   * of first occurrences (`Seqs.DedupKeepsFirstOccurrenceOrder`).
   */
  function StoredRoles(text: string, resolved: Option<seq<int>>, parse: string -> Option<int>, serverRoles: set<int>): (roles: seq<int>)
    ensures NoDuplicates(roles)
    ensures resolved.None? ==> forall r :: r in roles <==>
      (r in serverRoles && exists i :: 0 <= i < |SplitAsciiWhitespace(text)| && parse(SplitAsciiWhitespace(text)[i]) == Some(r))
    ensures resolved.Some? ==> forall r :: r in roles <==> SplitAsciiWhitespace(text) != [] && r in resolved.value
  {
    var tokens := SplitAsciiWhitespace(text);
    var allowed := r => r in serverRoles;
    CollectedFromParsed(tokens, parse, allowed);
    if resolved.Some? then CollectedFromResolved(tokens, resolved.value, parse, allowed); Dedup(Collected(tokens, resolved, parse, allowed))
    else Dedup(Collected(tokens, resolved, parse, allowed))
  }

  /** Some asset bind of the guild already binds this asset. */
  predicate Duplicate(rows: seq<BindRow>, guildId: int, assetType: AssetModel.AssetType, assetId: int) {
    exists b :: b in rows && b.guildId == guildId && b.bindType == AssetBind && b.assetType == assetType && b.assetId == assetId
  }

  /** The row inserted under `bindId`: missing priority is 0 and missing role text is empty. */
  function NewRow(bindId: int, req: NewRequest, parse: string -> Option<int>, hasSlug: string -> bool): BindRow {
    BindRow(bindId, req.guildId, AssetBind, req.args.assetId, req.args.option, 0, 0,
      StoredRoles(req.args.discordRoles.GetOr(""), req.resolved, parse, req.serverRoles),
      req.args.priority.GetOr(0), NormaliseTemplate(req.args.template, hasSlug))
  }

  function DuplicateFailure(assetId: int): Embed {
    Failure("Bind Addition Failed", "A bind with asset id " + IntToString(assetId) + " already exists")
  }

  /** The field that shows the new bind in the reply and in the log. */
  function AdditionField(row: BindRow): Field {
    Field("Id: " + IntToString(row.assetId),
          "Type: " + AssetModel.AssetTypeName(row.assetType) + "\nTemplate: `" + row.template
          + "`\nPriority: " + IntToString(row.priority) + "\nRoles: " + Mentions(row.discordRoles, "", " "))
  }

  /** The reply with the delete button, then the guild log entry. */
  function Announcement(row: BindRow, authorName: string): seq<Output> {
    [Respond(Embed(DarkGreen, "Bind Addition Successful", "", [AdditionField(row)]), true),
     GuildLog(Embed(Plain, "Action by " + authorName, "Asset Bind Addition", [AdditionField(row)]))]
  }

  const DELETED := Embed(DarkGreen, "Successful!", "The newly created bind was deleted", [])

  /** The binds table, what was sent, and the result of the invoker's press. */
  datatype Undo = Undo(binds: seq<BindRow>, sent: seq<Output>, result: Result<(), RoError>)

  /**
   * The invoker's press: clear the buttons (step 0), delete the bind
   * (step 1), send the follow-up (step 2); a step that fails ends the
   * handler with its error.
   */
  function UndoPress(binds: seq<BindRow>, bindId: int, fate: Fate): Undo {
    if !Succeeds(fate, 0) then Undo(binds, [], Err(fate.error))
    else if !Succeeds(fate, 1) then Undo(binds, [ClearComponents], Err(fate.error))
    else if !Succeeds(fate, 2) then Undo(DeleteBind(binds, bindId), [ClearComponents], Err(fate.error))
    else Undo(DeleteBind(binds, bindId), [ClearComponents, Followup(DELETED)], Ok(()))
  }

  /** The handler's effect on the binds table and the ignore set, what it sends, and its result. */
  datatype Outcome = Outcome(binds: seq<BindRow>, ignore: set<int>, sent: seq<Output>, result: Result<(), RoError>)

  /**
   * Everything after the insertion of `row`: the announcement, the wait,
   * and the invoker's press if it comes; the reply message `messageId` is
   * in the ignore set while the handler waits.
   */
  function Added(binds: seq<BindRow>, ignore: set<int>, row: BindRow, author: int, authorName: string,
                 messageId: int, events: seq<Event>): Outcome
  {
    var waited := Announcement(row, authorName) + Notices(events[..WaitEnd(events, author)]);
    match InvokerPress(events, author)
    case None => Outcome(binds + [row], ignore - {messageId}, waited, Ok(()))
    case Some(press) =>
      var u := UndoPress(binds + [row], row.bindId, press.fate);
      Outcome(u.binds, if u.result.Ok? then ignore - {messageId} else ignore + {messageId}, waited + u.sent, u.result)
  }

  /** The whole handler, given the `bind_id` the insertion returns and the `id` of the reply message. */
  function NewOutcome(binds: seq<BindRow>, ignore: set<int>, req: NewRequest, parse: string -> Option<int>,
                      hasSlug: string -> bool, bindId: int, messageId: int, events: seq<Event>): Outcome
  {
    if Duplicate(binds, req.guildId, req.args.option, req.args.assetId) then
      Outcome(binds, ignore, [Respond(DuplicateFailure(req.args.assetId), false)], Ok(()))
    else
      Added(binds, ignore, NewRow(bindId, req, parse, hasSlug), req.author, req.authorName, messageId, events)
  }

  /** A second bind for the same asset is refused with one failure reply, and nothing is stored. */
  lemma DuplicateAddsNothing(binds: seq<BindRow>, ignore: set<int>, req: NewRequest, parse: string -> Option<int>,
                             hasSlug: string -> bool, bindId: int, messageId: int, events: seq<Event>)
    requires Duplicate(binds, req.guildId, req.args.option, req.args.assetId)
    ensures var o := NewOutcome(binds, ignore, req, parse, hasSlug, bindId, messageId, events);
      o.binds == binds && o.ignore == ignore && o.result == Ok(())
      && o.sent == [Respond(Failure("Bind Addition Failed", "A bind with asset id " + IntToString(req.args.assetId) + " already exists"), false)]
  {
  }

  /**
   * Unless the invoker's press gets as far as the deletion, the new row
   * stays, after all the rows there were; and the reply with the button
   * and the log entry go out first.
   */
  lemma InsertedUnlessUndone(binds: seq<BindRow>, ignore: set<int>, req: NewRequest, parse: string -> Option<int>,
                             hasSlug: string -> bool, bindId: int, messageId: int, events: seq<Event>)
    requires !Duplicate(binds, req.guildId, req.args.option, req.args.assetId)
    requires InvokerPress(events, req.author).Some? ==> !Succeeds(InvokerPress(events, req.author).value.fate, 1)
    ensures var o := NewOutcome(binds, ignore, req, parse, hasSlug, bindId, messageId, events);
      o.binds == binds + [NewRow(bindId, req, parse, hasSlug)]
      && |o.sent| >= 2 && o.sent[0].Respond? && o.sent[0].deleteButton && o.sent[1].GuildLog?
  {
  }

  /**
   * The invoker's press that gets past the deletion leaves the table as it
   * was before the command: the insertion and the deletion cancel out,
   * because `bind_id` is new.
   */
  lemma {:induction false} UndoRestoresBinds(binds: seq<BindRow>, ignore: set<int>, req: NewRequest, parse: string -> Option<int>,
                                             hasSlug: string -> bool, bindId: int, messageId: int, events: seq<Event>)
    requires forall b :: b in binds ==> b.bindId != bindId
    requires !Duplicate(binds, req.guildId, req.args.option, req.args.assetId)
    requires InvokerPress(events, req.author).Some? && Succeeds(InvokerPress(events, req.author).value.fate, 1)
    ensures NewOutcome(binds, ignore, req, parse, hasSlug, bindId, messageId, events).binds == binds
  {
    DeleteInserted(binds, NewRow(bindId, req, parse, hasSlug));
  }

  /**
   * The reply message is in the ignore set only while the handler waits:
   * afterwards the set is as before, unless an undo step failed, which
   * leaves the message id behind.
   */
  lemma IgnoreSetBookkeeping(binds: seq<BindRow>, ignore: set<int>, req: NewRequest, parse: string -> Option<int>,
                             hasSlug: string -> bool, bindId: int, messageId: int, events: seq<Event>)
    requires messageId !in ignore
    ensures var o := NewOutcome(binds, ignore, req, parse, hasSlug, bindId, messageId, events);
      o.ignore == (if o.result.Ok? then ignore else ignore + {messageId})
  {
  }

  /**
   * An error ends the handler only from a failing undo step, after the
   * invoker's press; presses by others and the end of the stream never do.
   */
  lemma FailsOnlyInUndo(binds: seq<BindRow>, ignore: set<int>, req: NewRequest, parse: string -> Option<int>,
                        hasSlug: string -> bool, bindId: int, messageId: int, events: seq<Event>)
    ensures var o := NewOutcome(binds, ignore, req, parse, hasSlug, bindId, messageId, events);
      o.result.Err? <==>
        (!Duplicate(binds, req.guildId, req.args.option, req.args.assetId)
         && InvokerPress(events, req.author).Some? && !Succeeds(InvokerPress(events, req.author).value.fate, 2))
  {
  }

  /**
   * The invoker's press: each of the three calls may fail, and `?` then
   * returns its error at once.
   */
  method UndoInsertion(bot: Bot, bindId: int, fate: Fate) returns (r: Result<(), RoError>)
    modifies bot
    ensures var u := UndoPress(old(bot.binds), bindId, fate);
      bot.binds == u.binds && bot.outputs == old(bot.outputs) + u.sent && r == u.result
    ensures bot.guilds == old(bot.guilds) && bot.guildRows == old(bot.guildRows)
    ensures bot.trainerRoles == old(bot.trainerRoles) && bot.bypassRoles == old(bot.bypassRoles)
    ensures bot.ignoreComponents == old(bot.ignoreComponents)
  {
    if !Succeeds(fate, 0) {
      return Err(fate.error);
    }
    bot.Send(ClearComponents);
    if !Succeeds(fate, 1) {
      return Err(fate.error);
    }
    bot.binds := DeleteBind(bot.binds, bindId);
    if !Succeeds(fate, 2) {
      return Err(fate.error);
    }
    bot.Send(Followup(DELETED));
    return Ok(());
  }

  /**
   * `assetbinds_new`. `bindId` is the id the insertion returns and
   * `messageId` the id of the reply; `events` is the button stream, its end
   * the 60-second timeout.
   */
  method AssetbindsNew(bot: Bot, req: NewRequest, parse: string -> Option<int>, hasSlug: string -> bool,
                       bindId: int, messageId: int, events: seq<Event>) returns (r: Result<(), RoError>)
    modifies bot
    ensures var o := NewOutcome(old(bot.binds), old(bot.ignoreComponents), req, parse, hasSlug, bindId, messageId, events);
      bot.binds == o.binds && bot.ignoreComponents == o.ignore && bot.outputs == old(bot.outputs) + o.sent && r == o.result
    ensures bot.guilds == old(bot.guilds) && bot.guildRows == old(bot.guildRows)
    ensures bot.trainerRoles == old(bot.trainerRoles) && bot.bypassRoles == old(bot.bypassRoles)
  {
    if exists b :: b in bot.binds && b.guildId == req.guildId && b.bindType == AssetBind
        && b.assetType == req.args.option && b.assetId == req.args.assetId {
      bot.Send(Respond(DuplicateFailure(req.args.assetId), false));
      return Ok(());
    }
    var template := NormaliseTemplate(req.args.template, hasSlug);
    var priority := req.args.priority.GetOr(0);
    var tokens := SplitAsciiWhitespace(req.args.discordRoles.GetOr(""));
    var roles := CollectRoles(tokens, req.resolved, parse, r => r in req.serverRoles);
    var row := BindRow(bindId, req.guildId, AssetBind, req.args.assetId, req.args.option, 0, 0, Dedup(roles), priority, template);
    assert row == NewRow(bindId, req, parse, hasSlug);
    r := InsertAndAwait(bot, row, req.author, req.authorName, messageId, events);
  }

  /** The insertion of `row`, the announcement, the wait and the undo. */
  method InsertAndAwait(bot: Bot, row: BindRow, author: int, authorName: string, messageId: int, events: seq<Event>)
    returns (r: Result<(), RoError>)
    modifies bot
    ensures var o := Added(old(bot.binds), old(bot.ignoreComponents), row, author, authorName, messageId, events);
      bot.binds == o.binds && bot.ignoreComponents == o.ignore && bot.outputs == old(bot.outputs) + o.sent && r == o.result
    ensures bot.guilds == old(bot.guilds) && bot.guildRows == old(bot.guildRows)
    ensures bot.trainerRoles == old(bot.trainerRoles) && bot.bypassRoles == old(bot.bypassRoles)
  {
    bot.binds := bot.binds + [row];
    Announce(bot, row, authorName);
    ghost var before := old(bot.outputs);
    ghost var announced := Announcement(row, authorName);
    bot.ignoreComponents := bot.ignoreComponents + {messageId};
    var k := AwaitInvoker(bot, events, author);
    ghost var waited := announced + Notices(events[..k]);
    ConcatAssociates(before, announced, Notices(events[..k]));
    if k < |events| && events[k].Press? {
      r := UndoInsertion(bot, row.bindId, events[k].fate);
      ghost var u := UndoPress(old(bot.binds) + [row], row.bindId, events[k].fate);
      ConcatAssociates(before, waited, u.sent);
      if r.Err? {
        return;
      }
    }
    bot.ignoreComponents := bot.ignoreComponents - {messageId};
    r := Ok(());
  }

  /** The success reply with the delete button, then the log entry. */
  method Announce(bot: Bot, row: BindRow, authorName: string)
    modifies bot
    ensures bot.outputs == old(bot.outputs) + Announcement(row, authorName)
    ensures bot.guilds == old(bot.guilds) && bot.binds == old(bot.binds) && bot.guildRows == old(bot.guildRows)
    ensures bot.trainerRoles == old(bot.trainerRoles) && bot.bypassRoles == old(bot.bypassRoles)
    ensures bot.ignoreComponents == old(bot.ignoreComponents)
  {
    var field := AdditionField(row);
    bot.Send(Respond(Embed(DarkGreen, "Bind Addition Successful", "", [field]), true));
    bot.Send(GuildLog(Embed(Plain, "Action by " + authorName, "Asset Bind Addition", [field])));
  }
}

=== FILE: blacklist_group.dfy ===
/**
 * `blacklist group` (rowifi/src/commands/blacklists/group.rs): push a group
 * blacklist onto the guild's MongoDB document, announce it with an
 * "Oh no! Delete?" button, and pull it again if the invoker presses the
 * button within the wait.
 */
module BlacklistGroupCommand {
  import opened Wrappers
  import opened Text
  import opened Seqs
  import opened Errors
  import opened BotState
  import GuildModel

  datatype GroupArguments = GroupArguments(groupId: int, reason: string)

  /** The blacklist the handler stores: the group id in decimal, the reason or "N/A", the group type. */
  function NewBlacklist(args: GroupArguments): GuildModel.Blacklist {
    GuildModel.Blacklist(IntToString(args.groupId), if args.reason == [] then "N/A" else args.reason,
                         GuildModel.Group(args.groupId))
  }

  /**
   * The stored blacklist always has a reason, the one given if any; its id
   * reads back as the group id, and its type names the group.
   */
  lemma NewBlacklistFields(args: GroupArguments)
    requires I64_MIN <= args.groupId <= I64_MAX
    ensures var bl := NewBlacklist(args);
      bl.reason != [] && (args.reason != [] ==> bl.reason == args.reason)
      && ParseInt(bl.id, I64_MIN, I64_MAX) == Some(args.groupId)
      && bl.blacklistType == GuildModel.Group(args.groupId)
  {
    ParseIntToString(args.groupId, I64_MIN, I64_MAX);
  }

  /** `{:?}` of a blacklist type; only the group kind occurs here. */
  function TypeDebug(t: GuildModel.BlacklistType): string {
    match t
    case Group(id) => "Group(" + IntToString(id) + ")"
    case OtherBlacklist(description) => description
  }

  /** The field of the reply and of the log entry. */
  function AdditionField(bl: GuildModel.Blacklist): Field {
    Field("Type: " + TypeDebug(bl.blacklistType), "Id: " + bl.id + "\nReason: " + bl.reason)
  }

  /** The reply with the delete button, then the log entry. */
  function Announcement(bl: GuildModel.Blacklist, authorName: string): seq<Output> {
    [Respond(Embed(DarkGreen, "Blacklist Addition Successful", "", [AdditionField(bl)]), true),
     GuildLog(Embed(Plain, "Action by " + authorName, "Blacklist Addition", [AdditionField(bl)]))]
  }

  const DELETED := Embed(DarkGreen, "Successful!", "The newly created blacklist was deleted", [])

  /** `$push` of `bl` onto the guild's Blacklists. */
  function Push(guilds: map<int, GuildModel.RoGuild>, guildId: int, bl: GuildModel.Blacklist): map<int, GuildModel.RoGuild> {
    if guildId in guilds then guilds[guildId := guilds[guildId].(blacklists := guilds[guildId].blacklists + [bl])]
    else guilds
  }

  /** `$pull` of `bl` from the guild's Blacklists: every entry equal to it goes. */
  function Pull(guilds: map<int, GuildModel.RoGuild>, guildId: int, bl: GuildModel.Blacklist): map<int, GuildModel.RoGuild> {
    if guildId in guilds then guilds[guildId := guilds[guildId].(blacklists := Without(guilds[guildId].blacklists, [bl]))]
    else guilds
  }

  /** The guild documents, what was sent, and the result of the invoker's press. */
  datatype Undo = Undo(guilds: map<int, GuildModel.RoGuild>, sent: seq<Output>, result: Result<(), RoError>)

  /**
   * The invoker's press: pull the blacklist (step 0), clear the buttons
   * (step 1), send the follow-up (step 2); a step that fails ends the
   * handler with its error.
   */
  function UndoPress(guilds: map<int, GuildModel.RoGuild>, guildId: int, bl: GuildModel.Blacklist, fate: Fate): Undo {
    if !Succeeds(fate, 0) then Undo(guilds, [], Err(fate.error))
    else if !Succeeds(fate, 1) then Undo(Pull(guilds, guildId, bl), [], Err(fate.error))
    else if !Succeeds(fate, 2) then Undo(Pull(guilds, guildId, bl), [ClearComponents], Err(fate.error))
    else Undo(Pull(guilds, guildId, bl), [ClearComponents, Followup(DELETED)], Ok(()))
  }

  /** How the buttons are removed when the wait ends without the invoker's press. */
  function Cleanup(hasInteractionToken: bool): Output {
    if hasInteractionToken then ClearOriginalComponents else ClearMessageComponents
  }

  /** The handler's effect on the guild documents, what it sends, and its result. */
  datatype Outcome = Outcome(guilds: map<int, GuildModel.RoGuild>, sent: seq<Output>, result: Result<(), RoError>)

  /**
   * The whole handler. `missing` is the error the guild lookup gives when
   * the guild has no document; `events` is the button stream, its end the
   * 300-second timeout.
   */
  function GroupOutcome(guilds: map<int, GuildModel.RoGuild>, guildId: int, args: GroupArguments, author: int,
                        authorName: string, hasInteractionToken: bool, events: seq<Event>, missing: RoError): Outcome
  {
    if guildId !in guilds then Outcome(guilds, [], Err(missing))
    else
      var bl := NewBlacklist(args);
      var waited := Announcement(bl, authorName) + Notices(events[..WaitEnd(events, author)]);
      match InvokerPress(events, author)
      case None => Outcome(Push(guilds, guildId, bl), waited + [Cleanup(hasInteractionToken)], Ok(()))
      case Some(press) =>
        var u := UndoPress(Push(guilds, guildId, bl), guildId, bl, press.fate);
        Outcome(u.guilds, waited + u.sent, u.result)
  }

  /** Without a guild document the handler fails with the lookup's error, sending and storing nothing. */
  lemma MissingGuildFails(guilds: map<int, GuildModel.RoGuild>, guildId: int, args: GroupArguments, author: int,
                          authorName: string, hasInteractionToken: bool, events: seq<Event>, missing: RoError)
    requires guildId !in guilds
    ensures GroupOutcome(guilds, guildId, args, author, authorName, hasInteractionToken, events, missing)
      == Outcome(guilds, [], Err(missing))
  {
  }

  /**
   * Unless the invoker presses the button and the pull goes through, the
   * guild keeps its blacklists with the new one at the end; no other
   * document changes; and the reply with the button and the log entry go
   * out first.
   */
  lemma PushedUnlessUndone(guilds: map<int, GuildModel.RoGuild>, guildId: int, args: GroupArguments, author: int,
                           authorName: string, hasInteractionToken: bool, events: seq<Event>, missing: RoError)
    requires guildId in guilds
    requires InvokerPress(events, author).Some? ==> !Succeeds(InvokerPress(events, author).value.fate, 0)
    ensures var o := GroupOutcome(guilds, guildId, args, author, authorName, hasInteractionToken, events, missing);
      o.guilds.Keys == guilds.Keys
      && (forall g :: g in guilds && g != guildId ==> o.guilds[g] == guilds[g])
      && o.guilds[guildId] == guilds[guildId].(blacklists := guilds[guildId].blacklists + [NewBlacklist(args)])
      && |o.sent| >= 2 && o.sent[..2] == Announcement(NewBlacklist(args), authorName)
  {
  }

  /**
   * Pulling the blacklist just pushed leaves the guild's other blacklists,
   * in order, without any entry equal to it: exactly the list before the
   * push when it held no such entry.
   */
  lemma {:induction false} PullUndoesPush(guilds: map<int, GuildModel.RoGuild>, guildId: int, bl: GuildModel.Blacklist)
    requires guildId in guilds
    ensures var after := Pull(Push(guilds, guildId, bl), guildId, bl);
      after.Keys == guilds.Keys
      && (forall g :: g in guilds && g != guildId ==> after[g] == guilds[g])
      && after[guildId] == guilds[guildId].(blacklists := Without(guilds[guildId].blacklists, [bl]))
      && bl !in after[guildId].blacklists
      && (bl !in guilds[guildId].blacklists ==> after[guildId] == guilds[guildId])
  {
    var before := guilds[guildId].blacklists;
    WithoutConcat(before, [bl], [bl]);
    assert Without([bl], [bl]) == [] by {
      assert [bl][1..] == [];
    }
    assert Without(before, [bl]) + [] == Without(before, [bl]);
    if bl !in before {
      WithoutNothingListed(before, [bl]);
    }
  }

  /**
   * When the invoker's press gets the pull through, no entry equal to the
   * new blacklist is left; if there was none before the command, the
   * guild's blacklists are exactly as they were.
   */
  lemma UndoRemovesIt(guilds: map<int, GuildModel.RoGuild>, guildId: int, args: GroupArguments, author: int,
                      authorName: string, hasInteractionToken: bool, events: seq<Event>, missing: RoError)
    requires guildId in guilds
    requires InvokerPress(events, author).Some? && Succeeds(InvokerPress(events, author).value.fate, 0)
    ensures var o := GroupOutcome(guilds, guildId, args, author, authorName, hasInteractionToken, events, missing);
      var bl := NewBlacklist(args);
      o.guilds.Keys == guilds.Keys && bl !in o.guilds[guildId].blacklists
      && (forall g :: g in guilds && g != guildId ==> o.guilds[g] == guilds[g])
      && (bl !in guilds[guildId].blacklists ==> o.guilds[guildId] == guilds[guildId])
  {
    var bl := NewBlacklist(args);
    assert GroupOutcome(guilds, guildId, args, author, authorName, hasInteractionToken, events, missing).guilds
      == Pull(Push(guilds, guildId, bl), guildId, bl);
    PullUndoesPush(guilds, guildId, bl);
  }

  /**
   * The buttons are cleared at the end of the wait exactly when the
   * invoker did not press: the invoker's press returns straight after the
   * follow-up.
   */
  lemma CleanupOnlyWithoutInvokerPress(guilds: map<int, GuildModel.RoGuild>, guildId: int, args: GroupArguments, author: int,
                                       authorName: string, hasInteractionToken: bool, events: seq<Event>, missing: RoError)
    requires guildId in guilds
    ensures var o := GroupOutcome(guilds, guildId, args, author, authorName, hasInteractionToken, events, missing);
      var cleared := |o.sent| > 0 && o.sent[|o.sent| - 1] == Cleanup(hasInteractionToken);
      cleared <==> InvokerPress(events, author).None?
  {
    var bl := NewBlacklist(args);
    var notices := Notices(events[..WaitEnd(events, author)]);
    var waited := Announcement(bl, authorName) + notices;
    var o := GroupOutcome(guilds, guildId, args, author, authorName, hasInteractionToken, events, missing);
    if InvokerPress(events, author).Some? {
      var u := UndoPress(Push(guilds, guildId, bl), guildId, bl, InvokerPress(events, author).value.fate);
      assert o.sent == waited + u.sent;
      if u.sent == [] {
        assert o.sent[|o.sent| - 1] == waited[|waited| - 1];
        if notices != [] {
          assert waited[|waited| - 1] == notices[|notices| - 1];
          assert notices[|notices| - 1] in notices;
        }
      }
    }
  }

  /**
   * An error ends the handler only from a missing guild document or a
   * failing undo step; presses by others and the end of the stream never do.
   */
  lemma FailsOnlyInUndo(guilds: map<int, GuildModel.RoGuild>, guildId: int, args: GroupArguments, author: int,
                        authorName: string, hasInteractionToken: bool, events: seq<Event>, missing: RoError)
    ensures var o := GroupOutcome(guilds, guildId, args, author, authorName, hasInteractionToken, events, missing);
      o.result.Err? <==>
        (guildId !in guilds
         || (InvokerPress(events, author).Some? && !Succeeds(InvokerPress(events, author).value.fate, 2)))
  {
  }

  /**
   * `blacklist_group`. `events` is the button stream; `hasInteractionToken`
   * tells whether the command came as a slash command.
   */
  method BlacklistGroup(bot: Bot, guildId: int, args: GroupArguments, author: int, authorName: string,
                        hasInteractionToken: bool, events: seq<Event>, missing: RoError) returns (r: Result<(), RoError>)
    modifies bot
    ensures var o := GroupOutcome(old(bot.guilds), guildId, args, author, authorName, hasInteractionToken, events, missing);
      bot.guilds == o.guilds && bot.outputs == old(bot.outputs) + o.sent && r == o.result
    ensures bot.binds == old(bot.binds) && bot.guildRows == old(bot.guildRows)
    ensures bot.trainerRoles == old(bot.trainerRoles) && bot.bypassRoles == old(bot.bypassRoles)
    ensures bot.ignoreComponents == old(bot.ignoreComponents)
  {
    if guildId !in bot.guilds {
      return Err(missing);
    }
    var reason := args.reason;
    if reason == [] {
      reason := "N/A";
    }
    var bl := GuildModel.Blacklist(IntToString(args.groupId), reason, GuildModel.Group(args.groupId));
    assert bl == NewBlacklist(args);
    bot.guilds := Push(bot.guilds, guildId, bl);
    Announce(bot, bl, authorName);
    ghost var before := old(bot.outputs);
    ghost var announced := Announcement(bl, authorName);
    var k := AwaitInvoker(bot, events, author);
    ghost var waited := announced + Notices(events[..k]);
    ConcatAssociates(before, announced, Notices(events[..k]));
    if k < |events| && events[k].Press? {
      r := UndoBlacklist(bot, guildId, bl, events[k].fate);
      ghost var u := UndoPress(Push(old(bot.guilds), guildId, bl), guildId, bl, events[k].fate);
      ConcatAssociates(before, waited, u.sent);
      return;
    }
    ConcatAssociates(before, waited, [Cleanup(hasInteractionToken)]);
    if hasInteractionToken {
      bot.Send(ClearOriginalComponents);
    } else {
      bot.Send(ClearMessageComponents);
    }
    r := Ok(());
  }

  /** The invoker's press: each of the three calls may fail, and `?` then returns its error at once. */
  method UndoBlacklist(bot: Bot, guildId: int, bl: GuildModel.Blacklist, fate: Fate) returns (r: Result<(), RoError>)
    modifies bot
    ensures var u := UndoPress(old(bot.guilds), guildId, bl, fate);
      bot.guilds == u.guilds && bot.outputs == old(bot.outputs) + u.sent && r == u.result
    ensures bot.binds == old(bot.binds) && bot.guildRows == old(bot.guildRows)
    ensures bot.trainerRoles == old(bot.trainerRoles) && bot.bypassRoles == old(bot.bypassRoles)
    ensures bot.ignoreComponents == old(bot.ignoreComponents)
  {
    if !Succeeds(fate, 0) {
      return Err(fate.error);
    }
    bot.guilds := Pull(bot.guilds, guildId, bl);
    if !Succeeds(fate, 1) {
      return Err(fate.error);
    }
    bot.Send(ClearComponents);
    if !Succeeds(fate, 2) {
      return Err(fate.error);
    }
    bot.Send(Followup(DELETED));
    return Ok(());
  }

  /** The success reply with the delete button, then the log entry. */
  method Announce(bot: Bot, bl: GuildModel.Blacklist, authorName: string)
    modifies bot
    ensures bot.outputs == old(bot.outputs) + Announcement(bl, authorName)
    ensures bot.guilds == old(bot.guilds) && bot.binds == old(bot.binds) && bot.guildRows == old(bot.guildRows)
    ensures bot.trainerRoles == old(bot.trainerRoles) && bot.bypassRoles == old(bot.bypassRoles)
    ensures bot.ignoreComponents == old(bot.ignoreComponents)
  {
    var field := AdditionField(bl);
    bot.Send(Respond(Embed(DarkGreen, "Blacklist Addition Successful", "", [field]), true));
    bot.Send(GuildLog(Embed(Plain, "Action by " + authorName, "Blacklist Addition", [field])));
  }
}

=== FILE: bot.dfy ===
/**
 * What the command handlers share: the state they read and change (the
 * MongoDB guild documents, the Postgres `binds` and `guilds` tables, the
 * in-memory trainer and bypass role caches, the set of messages whose
 * button presses the generic interaction handler ignores), the record of
 * what they send to Discord, the role-list collection loop every handler
 * repeats, and the wait for a press of the "Oh no! Delete?" button.
 */
module BotState {
  import opened Wrappers
  import opened Text
  import opened Seqs
  import opened Errors
  import opened Ids
  import AssetModel
  import GuildModel

  datatype Color = Red | DarkGreen | Plain
  datatype Field = Field(name: string, value: string)
  datatype Embed = Embed(color: Color, title: string, description: string, fields: seq<Field>)

  /** What a handler sends to Discord, in the order sent. */
  datatype Output =
    | Respond(embed: Embed, deleteButton: bool)
    | Post(embed: Embed)
    | GuildLog(embed: Embed)
    | ClearComponents
    | DeferredAck
    | Followup(embed: Embed)
    | EphemeralNotice(content: string)
    | ClearOriginalComponents
    | ClearMessageComponents
    | Paginate(pages: seq<Embed>, pageCount: nat)

  /** The nickname template slugs: the member's Discord name and their Roblox username. */
  const DISCORD_NAME := "{discord-name}"
  const ROBLOX_USERNAME := "{roblox-username}"

  /** The failure embed every handler replies with: red, a title and a description. */
  function Failure(title: string, description: string): Embed {
    Embed(Red, title, description, [])
  }

  datatype BindType = RankBind | GroupBind | CustomBind | AssetBind

  /** A row of the Postgres `binds` table; each bind type uses some of the columns. */
  datatype BindRow = BindRow(
    bindId: int,
    guildId: int,
    bindType: BindType,
    assetId: int,
    assetType: AssetModel.AssetType,
    groupId: int,
    groupRankId: int,
    discordRoles: seq<int>,
    priority: int,
    template: string)

  /** `DELETE FROM binds WHERE bind_id = $1`: every row with that id goes, the others stay in order. */
  function DeleteBind(rows: seq<BindRow>, bindId: int): (kept: seq<BindRow>)
    ensures forall row :: row in kept <==> row in rows && row.bindId != bindId
    ensures |kept| <= |rows|
  {
    if rows == [] then []
    else (if rows[0].bindId == bindId then [] else [rows[0]]) + DeleteBind(rows[1..], bindId)
  }

  /** Deleting a row just inserted under a fresh id gives back the table as it was. */
  lemma {:induction false} DeleteInserted(rows: seq<BindRow>, row: BindRow)
    requires forall r :: r in rows ==> r.bindId != row.bindId
    ensures DeleteBind(rows + [row], row.bindId) == rows
    decreases |rows|
  {
    if rows == [] {
      assert [row][1..] == [];
    } else {
      assert (rows + [row])[0] == rows[0] && (rows + [row])[1..] == rows[1..] + [row];
      DeleteInserted(rows[1..], row);
      assert rows == [rows[0]] + rows[1..];
    }
  }

  /** A `SET` of an `UPDATE binds ... WHERE bind_id = $2`. */
  datatype BindUpdate = SetPriority(priority: int) | SetTemplate(template: string) | CatRoles(ids: seq<int>) | SetRoles(roles: seq<int>)

  /** One row after the `SET`: `array_cat` appends to the stored roles, the other forms overwrite a column. */
  function ApplyUpdate(row: BindRow, u: BindUpdate): BindRow {
    match u
    case SetPriority(p) => row.(priority := p)
    case SetTemplate(t) => row.(template := t)
    case CatRoles(ids) => row.(discordRoles := row.discordRoles + ids)
    case SetRoles(roles) => row.(discordRoles := roles)
  }

  /** `UPDATE binds SET ... WHERE bind_id = $2`. */
  function UpdateBind(rows: seq<BindRow>, bindId: int, u: BindUpdate): seq<BindRow> {
    seq(|rows|, i requires 0 <= i < |rows| => if rows[i].bindId == bindId then ApplyUpdate(rows[i], u) else rows[i])
  }

  /** The error `FromArg` gives for an option it does not know, naming what it expects. */
  datatype ParseError = ParseError(expected: string)

  /** A MongoDB update of a role list: `$push` with `$each`, or `$pullAll`. */
  datatype RoleEdit = PushEach(ids: seq<I64>) | PullAll(ids: seq<I64>)

  /** A role list after an edit: pushed ids go to the end; pulled ids are gone, every occurrence, the rest keeping their order. */
  function ApplyEdit(edit: RoleEdit, roles: seq<I64>): (r: seq<I64>)
    ensures edit.PushEach? ==> |r| == |roles| + |edit.ids| && r[..|roles|] == roles && r[|roles|..] == edit.ids
    ensures edit.PullAll? ==> |r| <= |roles| && forall x :: x in r <==> x in roles && x !in edit.ids
  {
    match edit
    case PushEach(ids) => roles + ids
    case PullAll(ids) => Without(roles, ids)
  }

  /** Position i holds the first asset bind with this id. */
  predicate IsFirstWithId(binds: seq<AssetModel.AssetBind>, assetId: int, i: nat) {
    i < |binds| && binds[i].id == assetId && forall j :: 0 <= j < i ==> binds[j].id != assetId
  }

  /**
   * The positional update `AssetBinds.$.DiscordRoles`: the filter
   * `"AssetBinds._id": asset_id` selects the first matching element, and
   * only its role list is edited.
   */
  function EditFirst(binds: seq<AssetModel.AssetBind>, assetId: int, edit: RoleEdit): (r: seq<AssetModel.AssetBind>)
    ensures |r| == |binds|
    decreases |binds|
  {
    if binds == [] then []
    else if binds[0].id == assetId then [binds[0].(discordRoles := ApplyEdit(edit, binds[0].discordRoles))] + binds[1..]
    else [binds[0]] + EditFirst(binds[1..], assetId, edit)
  }

  /** The first bind with the id gets the edit; every other bind, before or after it, is as it was. */
  lemma {:induction false} EditFirstAt(binds: seq<AssetModel.AssetBind>, assetId: int, edit: RoleEdit, i: nat)
    requires i < |binds|
    ensures EditFirst(binds, assetId, edit)[i]
      == if IsFirstWithId(binds, assetId, i) then binds[i].(discordRoles := ApplyEdit(edit, binds[i].discordRoles)) else binds[i]
    decreases |binds|
  {
    if binds[0].id != assetId && i > 0 {
      EditFirstAt(binds[1..], assetId, edit, i - 1);
      if IsFirstWithId(binds[1..], assetId, i - 1) {
        forall j | 0 <= j < i ensures binds[j].id != assetId {
          if j > 0 {
            assert binds[j] == binds[1..][j - 1];
          }
        }
      }
      if IsFirstWithId(binds, assetId, i) {
        forall j | 0 <= j < i - 1 ensures binds[1..][j].id != assetId {
          assert binds[1..][j] == binds[j + 1];
        }
      }
    }
  }

  /** The same update of the guild document `guildId`; with no such document nothing changes. */
  function EditAssetbind(guilds: map<int, GuildModel.RoGuild>, guildId: int, assetId: int, edit: RoleEdit): (r: map<int, GuildModel.RoGuild>)
    ensures r.Keys == guilds.Keys
    ensures forall g :: g in guilds && g != guildId ==> r[g] == guilds[g]
    ensures guildId in guilds ==> r[guildId] == guilds[guildId].(assetbinds := EditFirst(guilds[guildId].assetbinds, assetId, edit))
  {
    if guildId in guilds then guilds[guildId := guilds[guildId].(assetbinds := EditFirst(guilds[guildId].assetbinds, assetId, edit))]
    else guilds
  }

  /** Whether a guild pays; the paid tiers are not told apart here. */
  datatype Tier = Free | Premium

  /** A row of the Postgres `guilds` table, with the columns the handlers use. */
  datatype GuildRow = GuildRow(guildId: int, kind: Tier, adminRoles: seq<int>, trainerRoles: seq<int>, bypassRoles: seq<int>)

  /**
   * How the fallible calls of an undo branch end: all succeed, or the one
   * numbered `step` (from 0) fails with `error` and the handler returns it.
   */
  datatype Fate = Completes | FailsAt(step: nat, error: RoError)

  predicate Succeeds(fate: Fate, step: nat) {
    fate.Completes? || step < fate.step
  }

  /**
   * An item of the button-interaction stream: a press by a user, an event
   * that is not a message-component interaction, or an error item, which
   * ends the wait like the end of the stream (the timeout) does.
   */
  datatype Event = Press(user: int, fate: Fate) | OtherEvent | StreamError

  const ONLY_INVOKER := "This button is only interactable by the original command invoker"

  class Bot {
    /** MongoDB guild documents, by guild id. */
    var guilds: map<int, GuildModel.RoGuild>
    /** The Postgres `binds` table. */
    var binds: seq<BindRow>
    /** The Postgres `guilds` table, by guild id. */
    var guildRows: map<int, GuildRow>
    var trainerRoles: map<int, seq<int>>
    var bypassRoles: map<int, seq<int>>
    /** `ignore_message_components`. */
    var ignoreComponents: set<int>
    /** Everything sent to Discord so far. */
    var outputs: seq<Output>

    constructor (guilds: map<int, GuildModel.RoGuild>, binds: seq<BindRow>, guildRows: map<int, GuildRow>)
      ensures this.guilds == guilds && this.binds == binds && this.guildRows == guildRows
      ensures trainerRoles == map[] && bypassRoles == map[] && ignoreComponents == {} && outputs == []
    {
      this.guilds := guilds;
      this.binds := binds;
      this.guildRows := guildRows;
      trainerRoles := map[];
      bypassRoles := map[];
      ignoreComponents := {};
      outputs := [];
    }

    /** Send something to Discord. */
    method Send(o: Output)
      modifies this
      ensures outputs == old(outputs) + [o]
      ensures guilds == old(guilds) && binds == old(binds) && guildRows == old(guildRows)
      ensures trainerRoles == old(trainerRoles) && bypassRoles == old(bypassRoles)
      ensures ignoreComponents == old(ignoreComponents)
    {
      outputs := outputs + [o];
    }
  }

  /**
   * What one argument token adds to the role list: every resolved role when
   * the command came with resolved data, otherwise the role id `parse`
   * (`parse_role`) reads from it, if there is one and `allowed` accepts it.
   */
  function TokenRoles<T>(token: string, resolved: Option<seq<T>>, parse: string -> Option<T>, allowed: T -> bool): seq<T> {
    if resolved.Some? then resolved.value
    else if parse(token).Some? && allowed(parse(token).value) then [parse(token).value]
    else []
  }

  /** The role list the handlers' loop over the argument tokens builds. */
  function Collected<T>(tokens: seq<string>, resolved: Option<seq<T>>, parse: string -> Option<T>, allowed: T -> bool): seq<T> {
    if tokens == [] then []
    else TokenRoles(tokens[0], resolved, parse, allowed) + Collected(tokens[1..], resolved, parse, allowed)
  }

  /** The loop over the argument tokens that pushes or extends the role list. */
  method CollectRoles<T>(tokens: seq<string>, resolved: Option<seq<T>>, parse: string -> Option<T>, allowed: T -> bool)
    returns (roles: seq<T>)
    ensures roles == Collected(tokens, resolved, parse, allowed)
  {
    roles := [];
    var i := 0;
    assert tokens[0..] == tokens;
    while i < |tokens|
      invariant 0 <= i <= |tokens|
      invariant Collected(tokens, resolved, parse, allowed) == roles + Collected(tokens[i..], resolved, parse, allowed)
    {
      assert tokens[i..][1..] == tokens[i + 1..];
      var added: seq<T> := [];
      if resolved.Some? {
        added := resolved.value;
      } else {
        var id := parse(tokens[i]);
        if id.Some? && allowed(id.value) {
          added := [id.value];
        }
      }
      assert Collected(tokens[i..], resolved, parse, allowed) == added + Collected(tokens[i + 1..], resolved, parse, allowed);
      ConcatAssociates(roles, added, Collected(tokens[i + 1..], resolved, parse, allowed));
      roles := roles + added;
      i := i + 1;
    }
    assert tokens[i..] == [];
  }

  /** How many tokens `parse` reads an id from that `allowed` accepts. */
  function AcceptedCount<T>(tokens: seq<string>, parse: string -> Option<T>, allowed: T -> bool): nat {
    if tokens == [] then 0
    else
      var here := if parse(tokens[0]).Some? && allowed(parse(tokens[0]).value) then 1 else 0;
      here + AcceptedCount(tokens[1..], parse, allowed)
  }

  /**
   * Without resolved data, one more token adds exactly its accepted id, if
   * any, at the end: the ids stay in token order and repeats are kept.
   */
  lemma {:induction false} CollectedSnoc<T>(tokens: seq<string>, t: string, parse: string -> Option<T>, allowed: T -> bool)
    ensures Collected(tokens + [t], Option.None, parse, allowed)
         == Collected(tokens, Option.None, parse, allowed)
            + (if parse(t).Some? && allowed(parse(t).value) then [parse(t).value] else [])
  {
    CollectedConcat(tokens, [t], Option.None, parse, allowed);
    assert [t][1..] == [];
  }

  /** Collecting over two runs of tokens is collecting over each, one after the other. */
  lemma {:induction false} CollectedConcat<T>(a: seq<string>, b: seq<string>, resolved: Option<seq<T>>, parse: string -> Option<T>, allowed: T -> bool)
    ensures Collected(a + b, resolved, parse, allowed) == Collected(a, resolved, parse, allowed) + Collected(b, resolved, parse, allowed)
    decreases |a|
  {
    if a == [] {
      assert a + b == b;
    } else {
      assert (a + b)[0] == a[0] && (a + b)[1..] == a[1..] + b;
      CollectedConcat(a[1..], b, resolved, parse, allowed);
    }
  }

  /**
   * With resolved data, each token adds all the resolved roles: the list
   * holds exactly the resolved roles, once per token.
   */
  lemma {:induction false} CollectedFromResolved<T>(tokens: seq<string>, roles: seq<T>, parse: string -> Option<T>, allowed: T -> bool)
    ensures |Collected(tokens, Some(roles), parse, allowed)| == |tokens| * |roles|
    ensures forall x :: x in Collected(tokens, Some(roles), parse, allowed) <==> tokens != [] && x in roles
    decreases |tokens|
  {
    if tokens != [] {
      CollectedFromResolved(tokens[1..], roles, parse, allowed);
    }
  }

  /**
   * Without resolved data, the list holds exactly the accepted ids `parse`
   * reads from the tokens, at most one per token.
   */
  lemma {:induction false} CollectedFromParsed<T>(tokens: seq<string>, parse: string -> Option<T>, allowed: T -> bool)
    ensures |Collected(tokens, Option.None, parse, allowed)| <= |tokens|
    ensures |Collected(tokens, Option.None, parse, allowed)| == AcceptedCount(tokens, parse, allowed)
    ensures forall x :: x in Collected(tokens, Option.None, parse, allowed) <==>
      exists i :: 0 <= i < |tokens| && parse(tokens[i]) == Some(x) && allowed(x)
    decreases |tokens|
  {
    if tokens != [] {
      CollectedFromParsed(tokens[1..], parse, allowed);
      forall x ensures x in Collected(tokens, Option.None, parse, allowed) <==>
        exists i :: 0 <= i < |tokens| && parse(tokens[i]) == Some(x) && allowed(x)
      {
        if x in Collected(tokens[1..], Option.None, parse, allowed) {
          var i :| 0 <= i < |tokens[1..]| && parse(tokens[1..][i]) == Some(x) && allowed(x);
          assert tokens[i + 1] == tokens[1..][i];
        }
        if exists i :: 0 <= i < |tokens| && parse(tokens[i]) == Some(x) && allowed(x) {
          var i :| 0 <= i < |tokens| && parse(tokens[i]) == Some(x) && allowed(x);
          if i > 0 {
            assert tokens[1..][i - 1] == tokens[i];
          }
        }
      }
    }
  }

  /** `format!("{before}<@&{id}>{after}")` for each id, concatenated. */
  function Mentions(ids: seq<int>, before: string, after: string): string {
    if ids == [] then ""
    else before + "<@&" + IntToString(ids[0]) + ">" + after + Mentions(ids[1..], before, after)
  }

  /** A non-empty list of mentions starts with the first id's mention. */
  lemma MentionsStartWithFirst(ids: seq<int>, before: string, after: string)
    requires ids != []
    ensures before + "<@&" + IntToString(ids[0]) + ">" + after <= Mentions(ids, before, after)
  {
    var first := before + "<@&" + IntToString(ids[0]) + ">" + after;
    assert Mentions(ids, before, after) == first + Mentions(ids[1..], before, after);
  }

  /** One more id at the end adds its mention at the end. */
  lemma {:induction false} MentionsSnoc(ids: seq<int>, id: int, before: string, after: string)
    ensures Mentions(ids + [id], before, after)
      == Mentions(ids, before, after) + (before + "<@&" + IntToString(id) + ">" + after)
    decreases |ids|
  {
    var item := before + "<@&" + IntToString(id) + ">" + after;
    if ids == [] {
      assert [id][1..] == [];
      assert item + "" == item;
    } else {
      assert (ids + [id])[0] == ids[0] && (ids + [id])[1..] == ids[1..] + [id];
      MentionsSnoc(ids[1..], id, before, after);
      var head := before + "<@&" + IntToString(ids[0]) + ">" + after;
      ConcatAssociates(head, Mentions(ids[1..], before, after), item);
    }
  }

  /**
   * The loop that builds a reply's role list: `push_str` of each id's
   * mention onto `start`.
   */
  method PushMentions(start: string, ids: seq<int>, before: string, after: string) returns (s: string)
    ensures s == start + Mentions(ids, before, after)
  {
    s := start;
    var i := 0;
    while i < |ids|
      invariant 0 <= i <= |ids|
      invariant s == start + Mentions(ids[..i], before, after)
    {
      var item := before + "<@&" + IntToString(ids[i]) + ">" + after;
      MentionsSnoc(ids[..i], ids[i], before, after);
      assert ids[..i + 1] == ids[..i] + [ids[i]];
      ConcatAssociates(start, Mentions(ids[..i], before, after), item);
      s := s + item;
      i := i + 1;
    }
    assert ids[..i] == ids;
  }

  /** `retain(|r| !ids.contains(r))` on a copy of `roles`. */
  method RetainAbsent(roles: seq<int>, ids: seq<int>) returns (kept: seq<int>)
    ensures kept == Without(roles, ids)
  {
    kept := [];
    var i := 0;
    assert roles[0..] == roles;
    while i < |roles|
      invariant 0 <= i <= |roles|
      invariant Without(roles, ids) == kept + Without(roles[i..], ids)
    {
      ghost var head := if roles[i] in ids then [] else [roles[i]];
      assert roles[i..][1..] == roles[i + 1..];
      assert Without(roles[i..], ids) == head + Without(roles[i + 1..], ids);
      ConcatAssociates(kept, head, Without(roles[i + 1..], ids));
      if roles[i] !in ids {
        kept := kept + [roles[i]];
      } else {
        assert kept + head == kept;
      }
      assert Without(roles, ids) == kept + Without(roles[i + 1..], ids);
      i := i + 1;
    }
    assert roles[i..] == [];
  }

  /**
   * Where the wait for the delete button stops: at the first press by
   * `author` or the first error item, or at the end of the stream.
   */
  function WaitEnd(events: seq<Event>, author: int): (k: nat)
    ensures k <= |events|
    ensures forall j :: 0 <= j < k ==> events[j].OtherEvent? || (events[j].Press? && events[j].user != author)
    ensures k < |events| ==> events[k].StreamError? || (events[k].Press? && events[k].user == author)
  {
    if events == [] then 0
    else if events[0].StreamError? || (events[0].Press? && events[0].user == author) then 0
    else 1 + WaitEnd(events[1..], author)
  }

  /** The waited-for press by the invoker, if the stream brings one before it ends. */
  function InvokerPress(events: seq<Event>, author: int): (p: Option<Event>)
    ensures p.Some? ==> p.value.Press? && p.value.user == author && p.value in events
    ensures p.None? ==> forall e :: e in events && e.Press? && e.user == author ==> StreamError in events
    ensures p.None? ==> forall i :: 0 <= i < |events| && events[i].Press? && events[i].user == author ==>
      exists j :: 0 <= j < i && events[j].StreamError?
    ensures p.Some? ==> exists k :: (0 <= k < |events| && p.value == events[k]
      && forall j :: 0 <= j < k ==> !events[j].StreamError? && !(events[j].Press? && events[j].user == author))
  {
    var k := WaitEnd(events, author);
    if k < |events| && events[k].Press? then Some(events[k]) else Option.None
  }

  /** What the wait sends for the events before it stops: an acknowledgement and a notice per press by someone else. */
  function Notices(events: seq<Event>): (out: seq<Output>)
    ensures forall o :: o in out ==> o == DeferredAck || o == EphemeralNotice(ONLY_INVOKER)
  {
    if events == [] then []
    else (if events[0].Press? then [DeferredAck, EphemeralNotice(ONLY_INVOKER)] else []) + Notices(events[1..])
  }

  /** The wait sends something exactly when someone other than the invoker pressed before it stopped. */
  lemma {:induction false} NoticesExactlyForPresses(events: seq<Event>)
    ensures Notices(events) == [] <==> forall i :: 0 <= i < |events| ==> !events[i].Press?
    decreases |events|
  {
    if events != [] {
      NoticesExactlyForPresses(events[1..]);
      if forall i :: 0 <= i < |events[1..]| ==> !events[1..][i].Press? {
        if !events[0].Press? {
          forall i | 0 <= i < |events| ensures !events[i].Press? {
            if i > 0 {
              assert events[i] == events[1..][i - 1];
            }
          }
        }
      } else {
        var i :| 0 <= i < |events[1..]| && events[1..][i].Press?;
        assert events[i + 1].Press?;
      }
    }
  }

  /**
   * The `while let` loop over the stream up to the invoker's press: every
   * press by someone else gets a deferred acknowledgement and an ephemeral
   * notice, and nothing else changes. Returns where the wait stopped.
   */
  method AwaitInvoker(bot: Bot, events: seq<Event>, author: int) returns (k: nat)
    modifies bot
    ensures k == WaitEnd(events, author)
    ensures bot.outputs == old(bot.outputs) + Notices(events[..k])
    ensures bot.guilds == old(bot.guilds) && bot.binds == old(bot.binds) && bot.guildRows == old(bot.guildRows)
    ensures bot.trainerRoles == old(bot.trainerRoles) && bot.bypassRoles == old(bot.bypassRoles)
    ensures bot.ignoreComponents == old(bot.ignoreComponents)
  {
    k := 0;
    while k < |events| && !(events[k].StreamError? || (events[k].Press? && events[k].user == author))
      invariant 0 <= k <= |events|
      invariant WaitEnd(events, author) == k + WaitEnd(events[k..], author)
      invariant bot.outputs == old(bot.outputs) + Notices(events[..k])
      invariant bot.guilds == old(bot.guilds) && bot.binds == old(bot.binds) && bot.guildRows == old(bot.guildRows)
      invariant bot.trainerRoles == old(bot.trainerRoles) && bot.bypassRoles == old(bot.bypassRoles)
      invariant bot.ignoreComponents == old(bot.ignoreComponents)
    {
      assert events[k..][1..] == events[k + 1..];
      NoticesSnoc(events[..k], events[k]);
      assert events[..k + 1] == events[..k] + [events[k]];
      if events[k].Press? {
        bot.Send(DeferredAck);
        bot.Send(EphemeralNotice(ONLY_INVOKER));
      }
      k := k + 1;
    }
    if k < |events| {
      assert events[k..][0] == events[k];
    } else {
      assert events[k..] == [];
    }
  }

  lemma {:induction false} NoticesSnoc(events: seq<Event>, e: Event)
    ensures Notices(events + [e]) == Notices(events) + (if e.Press? then [DeferredAck, EphemeralNotice(ONLY_INVOKER)] else [])
    decreases |events|
  {
    if events == [] {
      assert [e][1..] == [];
    } else {
      assert (events + [e])[0] == events[0] && (events + [e])[1..] == events[1..] + [e];
      NoticesSnoc(events[1..], e);
    }
  }
}

=== FILE: bypass.dfy ===
/**
 * `bypass [add|remove|set|view] <roles>` (rowifi/src/commands/settings/bypass.rs):
 * the roles whose members are never updated by the bot, kept both in the
 * `bypass_roles` column of the Postgres `guilds` table and in the bot's
 * in-memory cache. One command checks the guild's tier and then dispatches
 * on its option.
 */
module BypassCommand {
  import opened Wrappers
  import opened Text
  import opened Seqs
  import opened Errors
  import opened BotState
  import opened RoleSettings

  const INTRO := "Users with these roles cannot get updated by RoWifi."

  /** The sub-action a settings command takes. */
  datatype FunctionOption = Add | Remove | Set | View

  /** The command's arguments: an optional sub-action and the optional rest of the line. */
  datatype BypassArguments = BypassArguments(option: Option<FunctionOption>, discordRoles: Option<string>)

  /**
   * The sub-action run: the given one, or `fallback`, the default of
   * `FunctionOption`.
   */
  function Chosen(args: BypassArguments, fallback: FunctionOption): (o: FunctionOption)
    ensures args.option.Some? ==> o == args.option.value
    ensures args.option.None? ==> o == fallback
  {
    if args.option.Some? then args.option.value else fallback
  }

  /** The request the sub-actions read: missing roles text is the empty text. */
  function Request(guildId: int, args: BypassArguments, resolved: Option<seq<int>>, serverRoles: set<int>): (req: RolesRequest)
    ensures req.guildId == guildId && req.resolved == resolved && req.serverRoles == serverRoles
    ensures args.discordRoles.None? ==> req.text == ""
    ensures args.discordRoles.Some? ==> req.text == args.discordRoles.value
  {
    RolesRequest(guildId, if args.discordRoles.Some? then args.discordRoles.value else "", resolved, serverRoles)
  }

  /** The reply of `bypass_view`: the stored bypass roles. */
  function ViewReply(row: GuildRow): Output {
    Respond(Embed(Plain, "RoWifi Bypass Roles", INTRO + "\n\n" + Listing(row.bypassRoles), []), false)
  }

  /** `bypass_add`: append the requested roles not cached yet to the column and to the cache. */
  function Added(rows: map<int, GuildRow>, cache: map<int, seq<int>>, req: RolesRequest, parse: string -> Option<int>): Outcome
    requires req.guildId in rows
  {
    var row := rows[req.guildId];
    var added := ToAdd(Requested(req, parse), Cached(cache, req.guildId));
    Outcome(rows[req.guildId := row.(bypassRoles := row.bypassRoles + added)],
            cache[req.guildId := Cached(cache, req.guildId) + added],
            [Modified("Added Bypass Roles:\n" + RoleLines(added))], Ok(()))
  }

  /** `bypass_remove`: the column and the cache both lose the listed ids. */
  function Removed(rows: map<int, GuildRow>, cache: map<int, seq<int>>, req: RolesRequest, parse: string -> Option<int>): Outcome
    requires req.guildId in rows
  {
    var ids := Listed(req, parse);
    Outcome(rows[req.guildId := rows[req.guildId].(bypassRoles := Without(rows[req.guildId].bypassRoles, ids))],
            cache[req.guildId := Without(Cached(cache, req.guildId), ids)],
            [Modified("Removed Bypass Roles:\n" + RoleLines(ids))], Ok(()))
  }

  /** `bypass_set`: the column and the cache both become the requested roles. */
  function SetTo(rows: map<int, GuildRow>, cache: map<int, seq<int>>, req: RolesRequest, parse: string -> Option<int>): Outcome
    requires req.guildId in rows
  {
    var ids := Requested(req, parse);
    Outcome(rows[req.guildId := rows[req.guildId].(bypassRoles := ids)], cache[req.guildId := ids],
            [Modified("Set Bypass Roles:\n" + RoleLines(ids))], Ok(()))
  }

  /** The whole command: the guild lookup, the Premium check, then the chosen sub-action. */
  function BypassOutcome(rows: map<int, GuildRow>, cache: map<int, seq<int>>, guildId: int, args: BypassArguments,
                         fallback: FunctionOption, resolved: Option<seq<int>>, serverRoles: set<int>,
                         parse: string -> Option<int>, missing: RoError): Outcome
  {
    match Gate(rows, cache, guildId, missing)
    case Some(o) => o
    case None => Run(rows, cache, Request(guildId, args, resolved, serverRoles), Chosen(args, fallback), parse)
  }

  /** The chosen sub-action on a Premium guild that has a row. */
  function Run(rows: map<int, GuildRow>, cache: map<int, seq<int>>, req: RolesRequest, option: FunctionOption,
               parse: string -> Option<int>): Outcome
    requires req.guildId in rows
  {
    match option
    case Add => Added(rows, cache, req, parse)
    case Remove => Removed(rows, cache, req, parse)
    case Set => SetTo(rows, cache, req, parse)
    case View => Outcome(rows, cache, [ViewReply(rows[req.guildId])], Ok(()))
  }

  /** The cache entry of the guild holds what its row stores. */
  predicate CacheAgrees(rows: map<int, GuildRow>, cache: map<int, seq<int>>, guildId: int) {
    guildId in rows ==> Cached(cache, guildId) == rows[guildId].bypassRoles
  }

  /**
   * Without a row the command fails with the lookup's error, and on a Free
   * guild it only replies with the Premium refusal, whatever the option;
   * neither changes the column or the cache.
   */
  lemma RefusedWithoutPremium(rows: map<int, GuildRow>, cache: map<int, seq<int>>, guildId: int, args: BypassArguments,
                              fallback: FunctionOption, resolved: Option<seq<int>>, serverRoles: set<int>,
                              parse: string -> Option<int>, missing: RoError)
    requires guildId !in rows || rows[guildId].kind == Free
    ensures var o := BypassOutcome(rows, cache, guildId, args, fallback, resolved, serverRoles, parse, missing);
      o.rows == rows && o.cache == cache
      && (guildId !in rows ==> o.sent == [] && o.result == Err(missing))
      && (guildId in rows ==> o.sent == [Respond(PREMIUM_ONLY, false)] && o.result == Ok(()))
  {
  }

  /** A missing option runs the default sub-action, exactly as if it had been given. */
  lemma MissingOptionTakesDefault(rows: map<int, GuildRow>, cache: map<int, seq<int>>, guildId: int, discordRoles: Option<string>,
                                  fallback: FunctionOption, other: FunctionOption, resolved: Option<seq<int>>,
                                  serverRoles: set<int>, parse: string -> Option<int>, missing: RoError)
    ensures BypassOutcome(rows, cache, guildId, BypassArguments(Option.None, discordRoles), fallback, resolved, serverRoles, parse, missing)
         == BypassOutcome(rows, cache, guildId, BypassArguments(Some(fallback), discordRoles), other, resolved, serverRoles, parse, missing)
  {
  }

  /**
   * An `add` with no roles text and no resolved roles changes no stored
   * list: the column keeps its roles and the cache entry reads the same.
   */
  lemma AddWithoutRolesAddsNothing(rows: map<int, GuildRow>, cache: map<int, seq<int>>, guildId: int, serverRoles: set<int>,
                                   parse: string -> Option<int>)
    requires guildId in rows
    ensures var o := Added(rows, cache, Request(guildId, BypassArguments(Some(Add), Option.None), Option.None, serverRoles), parse);
      o.rows == rows && Cached(o.cache, guildId) == Cached(cache, guildId)
      && (forall g :: g in cache ==> g in o.cache && o.cache[g] == cache[g])
  {
    var req := Request(guildId, BypassArguments(Some(Add), Option.None), Option.None, serverRoles);
    assert SplitAsciiWhitespace(req.text) == [];
    var added := ToAdd(Requested(req, parse), Cached(cache, guildId));
    assert added == [];
    assert rows[guildId].(bypassRoles := rows[guildId].bypassRoles + added) == rows[guildId];
    assert Cached(cache, guildId) + added == Cached(cache, guildId);
  }

  /** The view lists the stored roles, or says "None" when there are none, and changes nothing. */
  lemma ViewListsStoredRoles(row: GuildRow)
    ensures ViewReply(row).Respond? && ViewReply(row).embed.description == INTRO + "\n\n" + Listing(row.bypassRoles)
    ensures ViewReply(row).embed.description == INTRO + "\n\nNone" <==> row.bypassRoles == []
  {
    ListingNoneIffEmpty(row.bypassRoles);
    if row.bypassRoles != [] {
      var l := Listing(row.bypassRoles);
      assert (INTRO + "\n\n" + l)[|INTRO + "\n\n"|..] == l;
    }
  }

  /**
   * `add` appends to the column exactly the requested roles that were not
   * cached, each once, and the cache gains the same roles; every other
   * guild is untouched. If the cache held what the row stores, it still
   * does; and a cache without repeats stays so.
   */
  lemma AddAppendsNewRoles(rows: map<int, GuildRow>, cache: map<int, seq<int>>, req: RolesRequest, parse: string -> Option<int>)
    requires req.guildId in rows
    ensures var o := Added(rows, cache, req, parse);
      var cached := Cached(cache, req.guildId);
      var added := ToAdd(Requested(req, parse), cached);
      o.result == Ok(()) && o.rows.Keys == rows.Keys
      && (forall g :: g in rows && g != req.guildId ==> o.rows[g] == rows[g])
      && (forall g :: g in cache && g != req.guildId ==> g in o.cache && o.cache[g] == cache[g])
      && o.rows[req.guildId].bypassRoles == rows[req.guildId].bypassRoles + added
      && Cached(o.cache, req.guildId) == cached + added
      && NoDuplicates(added)
      && (forall x :: x in added <==> x in Requested(req, parse) && x !in cached)
      && (CacheAgrees(rows, cache, req.guildId) ==> CacheAgrees(o.rows, o.cache, req.guildId))
      && (NoDuplicates(cached) ==> NoDuplicates(Cached(o.cache, req.guildId)))
  {
    var cached := Cached(cache, req.guildId);
    if NoDuplicates(cached) {
      AdditionKeepsDistinct(Requested(req, parse), cached);
    }
  }

  /** Repeating an `add` changes neither the column nor the cache again. */
  lemma AddIsIdempotent(rows: map<int, GuildRow>, cache: map<int, seq<int>>, req: RolesRequest, parse: string -> Option<int>)
    requires req.guildId in rows
    ensures var once := Added(rows, cache, req, parse);
      var twice := Added(once.rows, once.cache, req, parse);
      twice.rows == once.rows && twice.cache == once.cache
  {
    var once := Added(rows, cache, req, parse);
    var cached := Cached(cache, req.guildId);
    var added := ToAdd(Requested(req, parse), cached);
    AddingAgainAddsNothing(Requested(req, parse), cached);
    assert Cached(once.cache, req.guildId) == cached + added;
    var again := ToAdd(Requested(req, parse), Cached(once.cache, req.guildId));
    assert again == [];
    var twice := Added(once.rows, once.cache, req, parse);
    assert twice.rows[req.guildId] == once.rows[req.guildId] by {
      assert once.rows[req.guildId].bypassRoles + again == once.rows[req.guildId].bypassRoles;
    }
    assert twice.cache[req.guildId] == once.cache[req.guildId] by {
      assert Cached(once.cache, req.guildId) + again == Cached(once.cache, req.guildId);
    }
  }

  /**
   * `remove` drops every listed id from the column and from the cache, keeps
   * the other roles of each, and keeps the cache agreeing with the column.
   */
  lemma RemoveDropsListed(rows: map<int, GuildRow>, cache: map<int, seq<int>>, req: RolesRequest, parse: string -> Option<int>)
    requires req.guildId in rows
    ensures var o := Removed(rows, cache, req, parse);
      var ids := Listed(req, parse);
      o.result == Ok(()) && o.rows.Keys == rows.Keys
      && (forall g :: g in rows && g != req.guildId ==> o.rows[g] == rows[g])
      && (forall x :: x in o.rows[req.guildId].bypassRoles <==> x in rows[req.guildId].bypassRoles && x !in ids)
      && (forall x :: x in Cached(o.cache, req.guildId) <==> x in Cached(cache, req.guildId) && x !in ids)
      && (CacheAgrees(rows, cache, req.guildId) ==> CacheAgrees(o.rows, o.cache, req.guildId))
  {
  }

  /**
   * `set` makes the column and the cache the same list: the requested
   * roles, each once; repeating it changes nothing more.
   */
  lemma SetAgreesAndIsIdempotent(rows: map<int, GuildRow>, cache: map<int, seq<int>>, req: RolesRequest, parse: string -> Option<int>)
    requires req.guildId in rows
    ensures var once := SetTo(rows, cache, req, parse);
      var twice := SetTo(once.rows, once.cache, req, parse);
      CacheAgrees(once.rows, once.cache, req.guildId)
      && NoDuplicates(once.rows[req.guildId].bypassRoles)
      && (forall x :: x in once.rows[req.guildId].bypassRoles <==>
            x in Collected(SplitAsciiWhitespace(req.text), req.resolved, parse, InServer(req.serverRoles)))
      && twice.rows == once.rows && twice.cache == once.cache
  {
  }

  /** `bypass`: the Premium check, then the sub-action the option chooses. */
  method Bypass(bot: Bot, guildId: int, args: BypassArguments, fallback: FunctionOption, resolved: Option<seq<int>>,
                serverRoles: set<int>, parse: string -> Option<int>, missing: RoError) returns (r: Result<(), RoError>)
    modifies bot
    ensures var o := BypassOutcome(old(bot.guildRows), old(bot.bypassRoles), guildId, args, fallback, resolved, serverRoles, parse, missing);
      bot.guildRows == o.rows && bot.bypassRoles == o.cache && bot.outputs == old(bot.outputs) + o.sent && r == o.result
    ensures bot.guilds == old(bot.guilds) && bot.binds == old(bot.binds)
    ensures bot.trainerRoles == old(bot.trainerRoles) && bot.ignoreComponents == old(bot.ignoreComponents)
  {
    ghost var gate := Gate(bot.guildRows, bot.bypassRoles, guildId, missing);
    var stop := CheckPremium(bot, guildId, missing);
    if stop.Some? {
      assert gate.Some? && bot.outputs == old(bot.outputs) + gate.value.sent;
      return stop.value;
    }
    assert gate.None?;
    var option := if args.option.Some? then args.option.value else fallback;
    var req := RolesRequest(guildId, if args.discordRoles.Some? then args.discordRoles.value else "", resolved, serverRoles);
    assert option == Chosen(args, fallback) && req == Request(guildId, args, resolved, serverRoles);
    assert BypassOutcome(bot.guildRows, bot.bypassRoles, guildId, args, fallback, resolved, serverRoles, parse, missing)
        == Run(bot.guildRows, bot.bypassRoles, req, option, parse);
    RunOption(bot, req, option, parse);
    r := Ok(());
  }

  /** The dispatch on the sub-action, once the guild is known to be Premium. */
  method RunOption(bot: Bot, req: RolesRequest, option: FunctionOption, parse: string -> Option<int>)
    requires req.guildId in bot.guildRows
    modifies bot
    ensures var o := Run(old(bot.guildRows), old(bot.bypassRoles), req, option, parse);
      bot.guildRows == o.rows && bot.bypassRoles == o.cache && bot.outputs == old(bot.outputs) + o.sent
    ensures bot.guilds == old(bot.guilds) && bot.binds == old(bot.binds)
    ensures bot.trainerRoles == old(bot.trainerRoles) && bot.ignoreComponents == old(bot.ignoreComponents)
  {
    match option {
      case Add => BypassAdd(bot, req, parse);
      case Remove => BypassRemove(bot, req, parse);
      case Set => BypassSet(bot, req, parse);
      case View => BypassView(bot, req.guildId);
    }
  }

  /** `bypass_view`. */
  method BypassView(bot: Bot, guildId: int)
    requires guildId in bot.guildRows
    modifies bot
    ensures bot.outputs == old(bot.outputs) + [ViewReply(old(bot.guildRows)[guildId])]
    ensures bot.guilds == old(bot.guilds) && bot.binds == old(bot.binds) && bot.guildRows == old(bot.guildRows)
    ensures bot.trainerRoles == old(bot.trainerRoles) && bot.bypassRoles == old(bot.bypassRoles)
    ensures bot.ignoreComponents == old(bot.ignoreComponents)
  {
    var description := PushMentions("", bot.guildRows[guildId].bypassRoles, "- ", "\n");
    assert description == RoleLines(bot.guildRows[guildId].bypassRoles);
    if description == [] {
      description := "None";
    }
    assert description == Listing(bot.guildRows[guildId].bypassRoles);
    bot.Send(Respond(Embed(Plain, "RoWifi Bypass Roles", INTRO + "\n\n" + description, []), false));
  }

  /** `bypass_add`. */
  method BypassAdd(bot: Bot, req: RolesRequest, parse: string -> Option<int>)
    requires req.guildId in bot.guildRows
    modifies bot
    ensures var o := Added(old(bot.guildRows), old(bot.bypassRoles), req, parse);
      bot.guildRows == o.rows && bot.bypassRoles == o.cache && bot.outputs == old(bot.outputs) + o.sent
    ensures bot.guilds == old(bot.guilds) && bot.binds == old(bot.binds)
    ensures bot.trainerRoles == old(bot.trainerRoles) && bot.ignoreComponents == old(bot.ignoreComponents)
  {
    var guild := bot.guildRows[req.guildId];
    var cached := if req.guildId in bot.bypassRoles then bot.bypassRoles[req.guildId] else [];
    bot.bypassRoles := bot.bypassRoles[req.guildId := cached];
    var toAdd := ReadToAdd(req, parse, cached);
    bot.guildRows := bot.guildRows[req.guildId := guild.(bypassRoles := guild.bypassRoles + toAdd)];
    bot.bypassRoles := bot.bypassRoles[req.guildId := bot.bypassRoles[req.guildId] + toAdd];
    assert bot.bypassRoles == old(bot.bypassRoles)[req.guildId := Cached(old(bot.bypassRoles), req.guildId) + toAdd];
    var description := PushMentions("Added Bypass Roles:\n", toAdd, "- ", "\n");
    assert description == "Added Bypass Roles:\n" + RoleLines(toAdd);
    bot.Send(Modified(description));
  }

  /** `bypass_remove`. */
  method BypassRemove(bot: Bot, req: RolesRequest, parse: string -> Option<int>)
    requires req.guildId in bot.guildRows
    modifies bot
    ensures var o := Removed(old(bot.guildRows), old(bot.bypassRoles), req, parse);
      bot.guildRows == o.rows && bot.bypassRoles == o.cache && bot.outputs == old(bot.outputs) + o.sent
    ensures bot.guilds == old(bot.guilds) && bot.binds == old(bot.binds)
    ensures bot.trainerRoles == old(bot.trainerRoles) && bot.ignoreComponents == old(bot.ignoreComponents)
  {
    var guild := bot.guildRows[req.guildId];
    var ids := CollectRoles(SplitAsciiWhitespace(req.text), req.resolved, parse, AnyRole);
    var keep := RetainAbsent(guild.bypassRoles, ids);
    bot.guildRows := bot.guildRows[req.guildId := guild.(bypassRoles := keep)];
    var cached := if req.guildId in bot.bypassRoles then bot.bypassRoles[req.guildId] else [];
    cached := RetainAbsent(cached, ids);
    bot.bypassRoles := bot.bypassRoles[req.guildId := cached];
    var description := PushMentions("Removed Bypass Roles:\n", ids, "- ", "\n");
    bot.Send(Modified(description));
  }

  /** `bypass_set`. */
  method BypassSet(bot: Bot, req: RolesRequest, parse: string -> Option<int>)
    requires req.guildId in bot.guildRows
    modifies bot
    ensures var o := SetTo(old(bot.guildRows), old(bot.bypassRoles), req, parse);
      bot.guildRows == o.rows && bot.bypassRoles == o.cache && bot.outputs == old(bot.outputs) + o.sent
    ensures bot.guilds == old(bot.guilds) && bot.binds == old(bot.binds)
    ensures bot.trainerRoles == old(bot.trainerRoles) && bot.ignoreComponents == old(bot.ignoreComponents)
  {
    var guild := bot.guildRows[req.guildId];
    var ids := ReadRequested(req, parse);
    bot.guildRows := bot.guildRows[req.guildId := guild.(bypassRoles := ids)];
    bot.bypassRoles := bot.bypassRoles[req.guildId := ids];
    var description := PushMentions("Set Bypass Roles:\n", ids, "- ", "\n");
    bot.Send(Modified(description));
  }
}

=== FILE: database_errors.dfy ===
/**
 * The storage layer's error type (database/src/error.rs): one variant per
 * failing library (BSON serialisation, BSON deserialisation, the MongoDB
 * driver), `From` conversions into it, and its `Display`.
 */
module DatabaseErrors {
  import opened Wrappers

  /*
   * The library-owned errors. Their own `Display` and `Debug` text is the
   * libraries' business; the model carries that text as given.
   */
  datatype SerializationError = SerializationError(text: string)
  datatype DeserializationError = DeserializationError(text: string)
  datatype MongoError = MongoError(text: string)

  datatype DatabaseError =
    | Serialization(serialization: SerializationError)
    | Deserialization(deserialization: DeserializationError)
    | Mongo(mongo: MongoError)

  /** The three variants, as a plain tag. */
  datatype Variant = SerializationVariant | DeserializationVariant | MongoVariant

  function VariantOf(e: DatabaseError): Variant {
    match e
    case Serialization(_) => SerializationVariant
    case Deserialization(_) => DeserializationVariant
    case Mongo(_) => MongoVariant
  }

  /** `From<SerializationError>`: wraps the error unchanged. */
  function FromSerialization(err: SerializationError): (r: DatabaseError)
    ensures VariantOf(r) == SerializationVariant && r.serialization == err
  {
    Serialization(err)
  }

  /** `From<DeserializationError>`: wraps the error unchanged. */
  function FromDeserialization(err: DeserializationError): (r: DatabaseError)
    ensures VariantOf(r) == DeserializationVariant && r.deserialization == err
  {
    Deserialization(err)
  }

  /** `From<MongoError>`: wraps the error unchanged. */
  function FromMongo(err: MongoError): (r: DatabaseError)
    ensures VariantOf(r) == MongoVariant && r.mongo == err
  {
    Mongo(err)
  }

  function Prefix(v: Variant): string {
    match v
    case SerializationVariant => "Serialization Error - "
    case DeserializationVariant => "Deserialization Error - "
    case MongoVariant => "Mongo Error - "
  }

  function InnerText(e: DatabaseError): string {
    match e
    case Serialization(err) => err.text
    case Deserialization(err) => err.text
    case Mongo(err) => err.text
  }

  /** `Display`: the variant's fixed prefix, then the inner error's own text. */
  function Display(e: DatabaseError): (s: string)
    ensures |Prefix(VariantOf(e))| <= |s| && s[..|Prefix(VariantOf(e))|] == Prefix(VariantOf(e))
    ensures s[|Prefix(VariantOf(e))|..] == InnerText(e)
  {
    Prefix(VariantOf(e)) + InnerText(e)
  }

  /** Which variant's prefix a string starts with, if any. */
  function VariantOfText(s: string): Option<Variant> {
    if |s| >= 22 && s[..22] == "Serialization Error - " then Some(SerializationVariant)
    else if |s| >= 24 && s[..24] == "Deserialization Error - " then Some(DeserializationVariant)
    else if |s| >= 14 && s[..14] == "Mongo Error - " then Some(MongoVariant)
    else None
  }

  /** The displayed text names the variant it came from: no prefix is mistaken for another. */
  lemma DisplayNamesVariant(e: DatabaseError)
    ensures VariantOfText(Display(e)) == Some(VariantOf(e))
  {
    var s := Display(e);
    match e
    case Serialization(_) =>
      assert s[..22] == "Serialization Error - ";
    case Deserialization(_) =>
      assert s[0] == 'D';
      assert s[..24] == "Deserialization Error - ";
    case Mongo(_) =>
      assert s[0] == 'M';
      assert s[..14] == "Mongo Error - ";
  }
}

=== FILE: errors.dfy ===
/**
 * The bot's error type (src/utils/error.rs): `RoError`, with one variant
 * per failing subsystem, the command-level errors `CommandError`, the `From`
 * conversions that let `?` lift each error into `RoError`, and `Display`.
 */
module Errors {
  import opened Wrappers
  import DatabaseErrors

  /*
   * Errors owned by other libraries (the Roblox client, the Discord HTTP
   * client, the Patreon client). The model carries each one's rendering as
   * given; it is used for both `Display` and `Debug`.
   */
  datatype RobloxError = RobloxError(text: string)
  datatype DiscordHttpError = DiscordHttpError(text: string)
  datatype PatreonError = PatreonError(text: string)

  /**
   * The five command errors. `ParseArgument` carries the offending fragment
   * of the message, the parameter's name and the expected type's name.
   */
  datatype CommandError =
    | NicknameTooLong(nickname: string)
    | Blacklist(reason: string)
    | NoRoGuild
    | ParseArgument(fragment: string, parameter: string, expected: string)
    | Timeout

  datatype RoError =
    | Database(database: DatabaseErrors.DatabaseError)
    | Roblox(roblox: RobloxError)
    | Discord(discord: DiscordHttpError)
    | Command(command: CommandError)
    | Patreon(patreon: PatreonError)

  /** The five variants of RoError, as a plain tag. */
  datatype Variant = DatabaseVariant | RobloxVariant | DiscordVariant | CommandVariant | PatreonVariant

  function VariantOf(e: RoError): Variant {
    match e
    case Database(_) => DatabaseVariant
    case Roblox(_) => RobloxVariant
    case Discord(_) => DiscordVariant
    case Command(_) => CommandVariant
    case Patreon(_) => PatreonVariant
  }

  /** `From<DatabaseError>`. */
  function FromDatabase(err: DatabaseErrors.DatabaseError): (r: RoError)
    ensures VariantOf(r) == DatabaseVariant && r.database == err
  {
    Database(err)
  }

  /** `From<RobloxError>`. */
  function FromRoblox(err: RobloxError): (r: RoError)
    ensures VariantOf(r) == RobloxVariant && r.roblox == err
  {
    Roblox(err)
  }

  /** `From<DiscordHttpError>`. */
  function FromDiscord(err: DiscordHttpError): (r: RoError)
    ensures VariantOf(r) == DiscordVariant && r.discord == err
  {
    Discord(err)
  }

  /** `From<CommandError>`. */
  function FromCommand(err: CommandError): (r: RoError)
    ensures VariantOf(r) == CommandVariant && r.command == err
  {
    Command(err)
  }

  /** `From<PatreonError>`. */
  function FromPatreon(err: PatreonError): (r: RoError)
    ensures VariantOf(r) == PatreonVariant && r.patreon == err
  {
    Patreon(err)
  }

  /** `From<SerializationError>`: two levels of wrapping at once. */
  function FromSerialization(err: DatabaseErrors.SerializationError): (r: RoError)
    ensures r.Database? && r.database.Serialization? && r.database.serialization == err
  {
    Database(DatabaseErrors.Serialization(err))
  }

  /** Converting through DatabaseError first gives the same error as converting directly. */
  lemma SerializationConversionsAgree(err: DatabaseErrors.SerializationError)
    ensures FromSerialization(err) == FromDatabase(DatabaseErrors.FromSerialization(err))
  {
  }

  /** A string as the derived `Debug` shows it (quoted; escapes are not modelled). */
  function Quoted(s: string): string {
    "\"" + s + "\""
  }

  /** The derived `Debug` of DatabaseError: the variant name around the inner error. */
  function DatabaseDebug(e: DatabaseErrors.DatabaseError): string {
    match e
    case Serialization(err) => "Serialization(" + err.text + ")"
    case Deserialization(err) => "Deserialization(" + err.text + ")"
    case Mongo(err) => "Mongo(" + err.text + ")"
  }

  /** The derived `Debug` of CommandError. */
  function CommandDebug(e: CommandError): string {
    match e
    case NicknameTooLong(n) => "NicknameTooLong(" + Quoted(n) + ")"
    case Blacklist(r) => "Blacklist(" + Quoted(r) + ")"
    case NoRoGuild => "NoRoGuild"
    case ParseArgument(a, p, t) => "ParseArgument(" + Quoted(a) + ", " + Quoted(p) + ", " + Quoted(t) + ")"
    case Timeout => "Timeout"
  }

  function Prefix(v: Variant): string {
    match v
    case DatabaseVariant => "Database Error - "
    case RobloxVariant => "Roblox Error - "
    case DiscordVariant => "Discord Http Error - "
    case CommandVariant => "Command Error - "
    case PatreonVariant => "Patreon Error - "
  }

  /** What follows the prefix: `Debug` for database, Roblox and command errors, `Display` for the others. */
  function Detail(e: RoError): string {
    match e
    case Database(err) => DatabaseDebug(err)
    case Roblox(err) => err.text
    case Discord(err) => err.text
    case Command(err) => CommandDebug(err)
    case Patreon(err) => err.text
  }

  /** `Display`: the variant's fixed prefix, then the detail. */
  function Display(e: RoError): (s: string)
    ensures |Prefix(VariantOf(e))| <= |s| && s[..|Prefix(VariantOf(e))|] == Prefix(VariantOf(e))
    ensures s[|Prefix(VariantOf(e))|..] == Detail(e)
  {
    Prefix(VariantOf(e)) + Detail(e)
  }

  /** Which variant's prefix a string starts with, if any. */
  function VariantOfText(s: string): Option<Variant> {
    if |s| >= 17 && s[..17] == "Database Error - " then Some(DatabaseVariant)
    else if |s| >= 15 && s[..15] == "Roblox Error - " then Some(RobloxVariant)
    else if |s| >= 21 && s[..21] == "Discord Http Error - " then Some(DiscordVariant)
    else if |s| >= 16 && s[..16] == "Command Error - " then Some(CommandVariant)
    else if |s| >= 16 && s[..16] == "Patreon Error - " then Some(PatreonVariant)
    else None
  }

  /** The displayed text names the variant it came from: no prefix is mistaken for another. */
  lemma DisplayNamesVariant(e: RoError)
    ensures VariantOfText(Display(e)) == Some(VariantOf(e))
  {
    var s := Display(e);
    match e
    case Database(_) =>
      assert s[..17] == "Database Error - ";
    case Roblox(_) =>
      assert s[0] == 'R';
      assert s[..15] == "Roblox Error - ";
    case Discord(_) =>
      assert s[1] == 'i';
      assert s[..21] == "Discord Http Error - ";
    case Command(_) =>
      assert s[0] == 'C';
      assert s[..16] == "Command Error - ";
    case Patreon(_) =>
      assert s[0] == 'P';
      assert s[..16] == "Patreon Error - ";
  }
}

=== FILE: framework.dfy ===
/**
 * The command framework (src/framework/mod.rs): the registry of commands,
 * rate-limit buckets and the help command; `dispatch`, which takes one
 * incoming message through filter, prefix, command lookup, checks, the
 * rate-limit gate, the argument count and the handler; the permission
 * checks `run_checks`; and `handle_error`, which turns a failed command into
 * a reply.
 *
 * The code this file calls but does not define is taken as input:
 * the prefix finder and command parser report what they matched, the
 * bucket reports whether the guild must wait, the argument splitter is a
 * counting function, the handler's outcome is given, and the permission
 * computation is a table of results.
 */
module Framework {
  import opened Wrappers
  import opened Text
  import opened Errors

  /** Who may run a command. */
  datatype RoLevel = Normal | Creator | Admin | Trainer

  /**
   * A command: its names, level, optional rate-limit bucket, minimum number
   * of arguments, description, group, sub-commands and the name of its
   * handler (None for a command that only groups sub-commands).
   */
  datatype Command = Command(
    names: seq<string>,
    level: RoLevel,
    bucket: Option<string>,
    minArgs: nat,
    description: string,
    group: Option<string>,
    subCommands: seq<Command>,
    handler: Option<string>)

  /** What `bucket` registers: the window and the calls allowed in it. */
  datatype BucketConfig = BucketConfig(seconds: nat, calls: nat)

  /** An incoming message, reduced to what dispatch reads. */
  datatype Message = Message(
    authorId: int,
    authorIsBot: bool,
    webhookId: Option<int>,
    guildId: Option<int>,
    channelId: int,
    content: string)

  /** The bot's configuration. */
  datatype Config = Config(
    blockedUsers: set<int>,
    blockedGuilds: set<int>,
    owners: set<int>,
    disabledChannels: set<int>,
    prefixes: map<int, string>,
    defaultPrefix: string)

  datatype CachedGuild = CachedGuild(id: int, ownerId: int, adminRole: Option<int>)
  datatype CachedMember = CachedMember(userId: int, roles: seq<int>)

  /**
   * The cache. `permissions` holds what `guild_wide_permissions` returns for
   * a (guild, user) pair; a pair that is absent stands for its error.
   */
  datatype Cache = Cache(
    guilds: map<int, CachedGuild>,
    members: map<(int, int), CachedMember>,
    permissions: map<(int, int), bv64>)

  /** The MANAGE_GUILD permission bit. */
  const MANAGE_GUILD: bv64 := 0x20

  /** What `parser::command` reports, with what it leaves unread. */
  datatype Invocation =
    | Unrecognised
    | HelpInvoked(rest: string)
    | Invoked(command: Command, rest: string)

  /** What one dispatch does, in order. */
  datatype Effect =
    | Reply(channel: int, content: string)
    | RunHelp(help: string, args: string)
    | RunHandler(command: Command, args: string)
    | TakeBucket(bucket: string, guild: int)
    /** An `unwrap` panicked: the dispatch task ends here. */
    | Panicked

  /** The message comes from a bot or a webhook, from outside a guild, or is empty. */
  predicate Ignored(msg: Message) {
    msg.authorIsBot || msg.webhookId.Some? || msg.guildId.None? || msg.content == []
  }

  /** Length of the run of whitespace that starts `s`. */
  function LeadingWhitespace(s: string): (n: nat)
    ensures n <= |s|
    ensures forall i :: 0 <= i < n ==> IsWhitespace(s[i])
    ensures n == |s| || !IsWhitespace(s[n])
  {
    if s == [] || !IsWhitespace(s[0]) then 0
    else
      var m := LeadingWhitespace(s[1..]);
      assert forall i :: 1 <= i < 1 + m ==> s[i] == s[1..][i - 1];
      1 + m
  }

  /** A prefix matched and nothing follows it. */
  predicate BarePrefix(msg: Message, prefixLength: Option<nat>) {
    !Ignored(msg) && prefixLength.Some? && LeadingWhitespace(msg.content) + prefixLength.value == |msg.content|
  }

  /** A prefix matched and something follows it. */
  predicate AfterPrefix(msg: Message, prefixLength: Option<nat>) {
    !Ignored(msg) && prefixLength.Some? && LeadingWhitespace(msg.content) + prefixLength.value != |msg.content|
  }

  /** The reply to a command given too few arguments: the message, then the expected and actual counts. */
  function UsageReply(content: string, minArgs: nat, count: nat): string {
    "```" + content + "\n\n Expected atleast " + NatToString(minArgs) + " arguments, got only " + NatToString(count) + "```"
  }

  /** The prefix a guild is told about: its own, or else the default. */
  function ServerPrefix(config: Config, guild: int): (p: string)
    ensures guild in config.prefixes ==> p == config.prefixes[guild]
    ensures guild !in config.prefixes ==> p == config.defaultPrefix
  {
    if guild in config.prefixes then config.prefixes[guild] else config.defaultPrefix
  }

  /** Whether a cached member's level lets them run a command, once the earlier checks have passed. */
  predicate LevelGrants(level: RoLevel, cache: Cache, guild: CachedGuild, gid: int, member: CachedMember) {
    match level
    case Normal => true
    case Trainer => true
    case Creator => false
    case Admin =>
      ((gid, member.userId) in cache.permissions
       && cache.permissions[(gid, member.userId)] & MANAGE_GUILD == MANAGE_GUILD)
      || (guild.adminRole.Some? && guild.adminRole.value in member.roles)
  }

  /**
   * `run_checks`. In order: a blocked author or guild is refused; a bot
   * owner is allowed; a disabled channel refuses every command not named
   * "command-channel"; then, with the guild cached, a blocked guild owner
   * is refused, the guild owner is allowed, and a cached member is judged
   * by the command's level. Everything else is refused.
   */
  function RunChecks(config: Config, cache: Cache, author: int, guild: int, channel: int, command: Command): (allowed: bool)
    ensures author in config.blockedUsers || guild in config.blockedGuilds ==> !allowed
    ensures author !in config.blockedUsers && guild !in config.blockedGuilds && author in config.owners ==> allowed
    ensures author !in config.owners && channel in config.disabledChannels && "command-channel" !in command.names ==> !allowed
    ensures author !in config.owners && guild !in cache.guilds ==> !allowed
    ensures allowed && author !in config.owners && author != cache.guilds[guild].ownerId ==>
      (guild, author) in cache.members && command.level != Creator
    ensures allowed <==>
      author !in config.blockedUsers && guild !in config.blockedGuilds
      && (author in config.owners
          || ((channel !in config.disabledChannels || "command-channel" in command.names)
              && guild in cache.guilds
              && cache.guilds[guild].ownerId !in config.blockedUsers
              && (author == cache.guilds[guild].ownerId
                  || ((guild, author) in cache.members
                      && LevelGrants(command.level, cache, cache.guilds[guild], guild, cache.members[(guild, author)])))))
  {
    if author in config.blockedUsers then false
    else if guild in config.blockedGuilds then false
    else if author in config.owners then true
    else if channel in config.disabledChannels && "command-channel" !in command.names then false
    else if guild !in cache.guilds then false
    else
      var g := cache.guilds[guild];
      if g.ownerId in config.blockedUsers then false
      else if author == g.ownerId then true
      else if (guild, author) !in cache.members then false
      else
        var member := cache.members[(guild, author)];
        match command.level
        case Normal => true
        case Trainer => true
        // The source asks again whether the author is a bot owner; owners were allowed above.
        case Creator => author in config.owners
        case Admin =>
          var manage := (guild, member.userId) in cache.permissions
            && cache.permissions[(guild, member.userId)] & MANAGE_GUILD == MANAGE_GUILD;
          if manage then true
          else g.adminRole.Some? && g.adminRole.value in member.roles
  }

  /**
   * A command named "command-channel" is judged the same whichever channels
   * are disabled.
   */
  lemma CommandChannelIgnoresDisabledChannels(config: Config, cache: Cache, author: int, guild: int, channel: int, command: Command, disabled: set<int>)
    requires "command-channel" in command.names
    ensures RunChecks(config.(disabledChannels := disabled), cache, author, guild, channel, command)
         == RunChecks(config, cache, author, guild, channel, command)
  {
  }

  /**
   * A Creator command runs only for a bot owner or the guild owner: an
   * ordinary member is refused whatever roles and permissions they have.
   */
  lemma CreatorOnlyForOwners(config: Config, cache: Cache, author: int, guild: int, channel: int, command: Command)
    requires command.level == Creator
    requires RunChecks(config, cache, author, guild, channel, command)
    ensures author in config.owners || (guild in cache.guilds && author == cache.guilds[guild].ownerId)
  {
  }

  /** Discord's limit on the characters of a message, checked by `create_message(..).content(..)`. */
  const MESSAGE_LIMIT := 2000

  /**
   * `create_message(channel).content(text).unwrap()`: the reply when the
   * text fits in a message; otherwise the validation error is unwrapped
   * and the dispatch task panics.
   */
  function Send(channel: int, text: string): (e: Effect)
    ensures e.Reply? <==> |text| <= MESSAGE_LIMIT
    ensures e.Reply? ==> e.channel == channel && e.content == text
    ensures !e.Reply? ==> e == Panicked
  {
    if |text| <= MESSAGE_LIMIT then Reply(channel, text) else Panicked
  }

  /** The reply for every error that is not a command error. */
  const GENERIC_ERROR := "There was an error in executing this command. Please try again. If the issue persists, please contact the support server for more information"

  /** The underline of `handle_error`: `idx` spaces, then `size` carets. */
  function Underline(idx: nat, size: nat): (u: string)
    ensures |u| == idx + size
    ensures forall j :: 0 <= j < idx ==> u[j] == ' '
    ensures forall j :: idx <= j < idx + size ==> u[j] == '^'
  {
    Repeat(' ', idx) + Repeat('^', size)
  }

  /** A ParseArgument reply: the message, an underline from column `idx` of `size` carets, then what was expected. */
  function ArgumentReply(content: string, idx: nat, size: nat, param: string, paramType: string): (reply: string)
    ensures |reply| == |content| + idx + size + |param| + |paramType| + 27
  {
    "```" + content + "\n" + Underline(idx, size) + "\n\nExpected " + param + " to be a " + paramType + "```"
  }

  /**
   * `handle_error`: the text of the reply for an error a handler returned.
   * Every error other than a command error gets the one generic message.
   * For `ParseArgument` the code unwraps the position of the fragment in
   * the message; when the fragment does not occur, that unwrap panics and
   * the result is None. The position and the width of the underline are
   * `str::find` and `str::len`, both counted in UTF-8 bytes.
   */
  function HandleError(error: RoError, content: string): (reply: Option<string>)
    ensures !error.Command? ==> reply == Some(GENERIC_ERROR)
    ensures reply.None? <==> error.Command? && error.command.ParseArgument? && Find(content, error.command.fragment).None?
    ensures error.Command? && error.command.ParseArgument? && reply.Some? ==>
      var idx := Find(content, error.command.fragment).value;
      OccursAt(content, error.command.fragment, idx)
      && reply.value == ArgumentReply(content, Utf8Length(content[..idx]), Utf8Length(error.command.fragment),
                                      error.command.parameter, error.command.expected)
  {
    match error
    case Command(commandError) =>
      (match commandError
       case Blacklist(reason) => Some("User was found on the server blacklist. Reason: " + reason)
       case NicknameTooLong(nick) => Some("The supposed nickname " + nick + " was found to be longer than 32 characters")
       case NoRoGuild => Some("This server was not set up. Please ask the server owner to run `setup`")
       case ParseArgument(arg, param, paramType) =>
         (match Find(content, arg)
          case None => None
          case Some(idx) => Some(ArgumentReply(content, Utf8Length(content[..idx]), Utf8Length(arg), param, paramType)))
       case Timeout => Some("Timeout reached. Please try again"))
    case _ => Some(GENERIC_ERROR)
  }

  /**
   * The ParseArgument reply with the underline counted in characters, so
   * that the carets line up with the fragment whatever the message holds.
   */
  function AlignedArgumentReply(content: string, arg: string, param: string, paramType: string): (reply: Option<string>)
    ensures reply.Some? <==> Find(content, arg).Some?
  {
    match Find(content, arg)
    case None => None
    case Some(idx) => Some(ArgumentReply(content, idx, |arg|, param, paramType))
  }

  /**
   * With the underline counted in characters, the carets sit exactly under
   * the first occurrence of the fragment: the characters above them spell
   * the fragment, and no earlier position of the message starts it.
   */
  lemma {:induction false} AlignedCaretsUnderFragment(content: string, arg: string, param: string, paramType: string)
    requires Find(content, arg).Some?
    ensures var idx := Find(content, arg).value;
      var u := Underline(idx, |arg|);
      AlignedArgumentReply(content, arg, param, paramType) == Some(ArgumentReply(content, idx, |arg|, param, paramType))
      && |u| <= |content|
      && (forall j :: 0 <= j < |u| ==> (u[j] == '^' <==> idx <= j) && (u[j] == '^' ==> content[j] == arg[j - idx]))
      && (forall j: nat :: j < idx ==> !OccursAt(content, arg, j))
  {
    var idx := Find(content, arg).value;
    assert content[idx..idx + |arg|] == arg;
    forall j | idx <= j < idx + |arg| ensures content[j] == arg[j - idx] {
      assert content[idx..idx + |arg|][j - idx] == content[j];
    }
  }

  /**
   * When the message up to the fragment and the fragment itself are ASCII,
   * bytes and characters agree, and `handle_error`'s reply is the aligned one.
   */
  lemma CaretsUnderFragment(content: string, arg: string, param: string, paramType: string)
    requires Find(content, arg).Some?
    requires AllAscii(content[..Find(content, arg).value]) && AllAscii(arg)
    ensures HandleError(RoError.Command(ParseArgument(arg, param, paramType)), content)
         == AlignedArgumentReply(content, arg, param, paramType)
  {
  }

  /**
   * The message "\u{e9} abc" with the fragment "abc": the fragment starts at
   * character 2, but `str::find` reports byte 3, so the reply puts a space
   * under the `a` and its carets one column to the right of the fragment.
   */
  lemma CaretsMisalignedAfterNonAscii()
    ensures var content := ['\U{E9}', ' ', 'a', 'b', 'c'];
      var reply := HandleError(RoError.Command(ParseArgument("abc", "p", "t")), content);
      Find(content, "abc") == Some(2)
      && reply == Some(ArgumentReply(content, 3, 3, "p", "t"))
      && Underline(3, 3)[2] == ' ' && Underline(3, 3)[5] == '^'
      && reply != AlignedArgumentReply(content, "abc", "p", "t")
  {
    var content := ['\U{E9}', ' ', 'a', 'b', 'c'];
    assert !OccursAt(content, "abc", 0) && !OccursAt(content, "abc", 1);
    assert OccursAt(content, "abc", 2);
    assert Find(content, "abc") == Some(2);
    assert content[..2] == ['\U{E9}'] + [' '];
    assert Utf8Length(['\U{E9}'] + [' ']) == 3 by {
      assert (['\U{E9}'] + [' '])[1..] == [' '];
      assert [' '][1..] == [];
    }
    assert Utf8Length("abc") == 3;
  }

  /**
   * The framework under construction: the commands, buckets and help
   * command registered so far.
   */
  class Framework {
    var commands: seq<Command>
    var buckets: map<string, BucketConfig>
    var help: Option<string>

    /** `Framework::default()`: nothing registered. */
    constructor ()
      ensures commands == [] && buckets == map[] && help == None
    {
      commands := [];
      buckets := map[];
      help := None;
    }

    /** `command`: register one more top-level command. */
    method AddCommand(command: Command)
      modifies this
      ensures commands == old(commands) + [command]
      ensures buckets == old(buckets) && help == old(help)
    {
      commands := commands + [command];
    }

    /** `help`: set the help command, replacing any earlier one. */
    method SetHelp(name: string)
      modifies this
      ensures help == Some(name)
      ensures commands == old(commands) && buckets == old(buckets)
    {
      help := Some(name);
    }

    /** `bucket`: register a bucket under a name, replacing any earlier one of that name. */
    method AddBucket(name: string, seconds: nat, calls: nat)
      modifies this
      ensures buckets == old(buckets)[name := BucketConfig(seconds, calls)]
      ensures commands == old(commands) && help == old(help)
    {
      buckets := buckets[name := BucketConfig(seconds, calls)];
    }

    /** The bucket a command is rate-limited by: its bucket's name, when that name is registered. */
    function RegisteredBucket(command: Command): (b: Option<string>)
      reads this
      ensures b.Some? <==> command.bucket.Some? && command.bucket.value in buckets
      ensures b.Some? ==> b == command.bucket
    {
      if command.bucket.Some? && command.bucket.value in buckets then command.bucket else None
    }

    /** A command was recognised after the prefix and passed the checks. */
    predicate Checked(msg: Message, config: Config, cache: Cache, prefixLength: Option<nat>, invocation: Invocation)
      requires !Ignored(msg)
    {
      AfterPrefix(msg, prefixLength) && invocation.Invoked?
      && RunChecks(config, cache, msg.authorId, msg.guildId.value, msg.channelId, invocation.command)
    }

    /** The command passed the checks and its registered bucket makes the guild wait. */
    predicate RateLimited(msg: Message, config: Config, cache: Cache, prefixLength: Option<nat>,
                          invocation: Invocation, bucketWait: Option<string>)
      reads this
    {
      !Ignored(msg) && Checked(msg, config, cache, prefixLength, invocation)
      && RegisteredBucket(invocation.command).Some? && bucketWait.Some?
    }

    /** The command passed the checks and the rate-limit gate, but has fewer arguments than it needs. */
    predicate TooFewArguments(msg: Message, config: Config, cache: Cache, prefixLength: Option<nat>,
                              invocation: Invocation, bucketWait: Option<string>, countArgs: string -> nat)
      reads this
    {
      !Ignored(msg) && Checked(msg, config, cache, prefixLength, invocation)
      && !RateLimited(msg, config, cache, prefixLength, invocation, bucketWait)
      && countArgs(invocation.rest) < invocation.command.minArgs
    }

    /** Whether a message reaches a command's handler. */
    predicate ReachesHandler(msg: Message, config: Config, cache: Cache, prefixLength: Option<nat>,
                             invocation: Invocation, bucketWait: Option<string>, countArgs: string -> nat)
      reads this
    {
      !Ignored(msg) && Checked(msg, config, cache, prefixLength, invocation)
      && !RateLimited(msg, config, cache, prefixLength, invocation, bucketWait)
      && countArgs(invocation.rest) >= invocation.command.minArgs
    }

    /**
     * `dispatch`. The inputs after `cache` stand for code outside this
     * file: `prefixLength` is how many characters the prefix finder matched
     * after the leading whitespace (None: no prefix); `invocation` is what
     * the command parser found; `bucketWait` is the bucket's answer for this
     * guild (the `Debug` rendering of the wait, None: no wait);
     * `countArgs` is the argument splitter's count; `handlerResult` is what
     * the handler returns.
     */
    method Dispatch(msg: Message, config: Config, cache: Cache, prefixLength: Option<nat>,
                    invocation: Invocation, bucketWait: Option<string>, countArgs: string -> nat,
                    handlerResult: Result<(), RoError>) returns (effects: seq<Effect>)
      requires prefixLength.Some? ==> LeadingWhitespace(msg.content) + prefixLength.value <= |msg.content|
      // Filtered messages have no effect at all.
      ensures Ignored(msg) ==> effects == []
      // A bare prefix only gets the server's prefix back.
      ensures BarePrefix(msg, prefixLength) ==>
        effects == [Send(msg.channelId, "The prefix of this server is " + ServerPrefix(config, msg.guildId.value))]
      // No prefix, or no command, ends dispatch silently.
      ensures !Ignored(msg) && prefixLength.None? ==> effects == []
      ensures AfterPrefix(msg, prefixLength) && invocation.Unrecognised? ==> effects == []
      // The help command runs when one is registered, and nothing happens otherwise.
      ensures AfterPrefix(msg, prefixLength) && invocation.HelpInvoked? ==>
        effects == (if help.Some? then [RunHelp(help.value, invocation.rest)] else [])
      // A command that fails its checks has no effect.
      ensures AfterPrefix(msg, prefixLength) && invocation.Invoked? && !Checked(msg, config, cache, prefixLength, invocation) ==>
        effects == []
      // The rate-limit gate and the argument count stop the handler.
      ensures RateLimited(msg, config, cache, prefixLength, invocation, bucketWait) ==>
        effects == [Send(msg.channelId, "Ratelimit reached. You may use this command in " + bucketWait.value)]
      ensures TooFewArguments(msg, config, cache, prefixLength, invocation, bucketWait, countArgs) ==>
        effects == [Send(msg.channelId, UsageReply(msg.content, invocation.command.minArgs, countArgs(invocation.rest)))]
      ensures !ReachesHandler(msg, config, cache, prefixLength, invocation, bucketWait, countArgs) ==>
        forall e :: e in effects ==> !e.RunHandler? && !e.TakeBucket?
      // The handler runs, then the bucket is debited on success or the error is rendered on failure.
      ensures ReachesHandler(msg, config, cache, prefixLength, invocation, bucketWait, countArgs) && handlerResult.Ok? ==>
        effects == [RunHandler(invocation.command, invocation.rest)]
          + (if RegisteredBucket(invocation.command).Some?
             then [TakeBucket(invocation.command.bucket.value, msg.guildId.value)] else [])
      ensures ReachesHandler(msg, config, cache, prefixLength, invocation, bucketWait, countArgs) && handlerResult.Err? ==>
        effects == [RunHandler(invocation.command, invocation.rest)]
          + (match HandleError(handlerResult.error, msg.content)
             case Some(reply) => [Send(msg.channelId, reply)]
             case None => [Panicked])
      // Whatever happens, at most one reply, and only to the message's channel.
      ensures forall i, j :: 0 <= i < j < |effects| ==> !(effects[i].Reply? && effects[j].Reply?)
      ensures forall e :: e in effects && e.Reply? ==> e.channel == msg.channelId
    {
      if Ignored(msg) {
        return [];
      }
      var start := LeadingWhitespace(msg.content);
      var guild := msg.guildId.value;
      if prefixLength.Some? && start + prefixLength.value == |msg.content| {
        return [Send(msg.channelId, "The prefix of this server is " + ServerPrefix(config, guild))];
      }
      if prefixLength.None? {
        return [];
      }
      match invocation {
        case Unrecognised =>
          return [];
        case HelpInvoked(rest) =>
          effects := if help.Some? then [RunHelp(help.value, rest)] else [];
        case Invoked(command, rest) =>
          if !RunChecks(config, cache, msg.authorId, guild, msg.channelId, command) {
            return [];
          }
          var bucket := RegisteredBucket(command);
          if bucket.Some? && bucketWait.Some? {
            return [Send(msg.channelId, "Ratelimit reached. You may use this command in " + bucketWait.value)];
          }
          var argsCount := countArgs(rest);
          if argsCount < command.minArgs {
            return [Send(msg.channelId, UsageReply(msg.content, command.minArgs, argsCount))];
          }
          effects := [RunHandler(command, rest)];
          match handlerResult {
            case Ok(_) =>
              if bucket.Some? {
                effects := effects + [TakeBucket(bucket.value, guild)];
              }
            case Err(error) =>
              var reply := HandleError(error, msg.content);
              if reply.Some? {
                effects := effects + [Send(msg.channelId, reply.value)];
              } else {
                effects := effects + [Panicked];
              }
          }
      }
    }
  }
}

=== FILE: guild.dfy ===
/**
 * A guild's stored record and its backup (src/models/guild.rs): the
 * settings enums with their defaults and `Display`, `to_backup` (role ids
 * become role names) and `from_backup` (every role name the backup mentions
 * is resolved to an existing or newly created role, once).
 *
 * Rank, group and custom binds are defined elsewhere; the model keeps of
 * them only their role lists and an opaque rest (`details`), and takes their
 * conversions to be those of asset binds: `to_backup` names the roles the
 * map knows, `from_backup` looks each name up in the table of resolved names.
 */
module GuildModel {
  import opened Wrappers
  import opened Ids
  import opened Seqs
  import opened AssetModel

  datatype GuildType = Alpha | Beta | Normal
  datatype BlacklistActionType = None | Kick | Ban

  /** `GuildType::default()`. */
  const DEFAULT_GUILD_TYPE: GuildType := Normal
  /** `BlacklistActionType::default()`. */
  const DEFAULT_BLACKLIST_ACTION: BlacklistActionType := BlacklistActionType.None

  /** `Display` for GuildType: the variant's name. */
  function GuildTypeName(t: GuildType): string {
    match t
    case Alpha => "Alpha"
    case Beta => "Beta"
    case Normal => "Normal"
  }

  /** `Display` for BlacklistActionType: the variant's name. */
  function BlacklistActionName(a: BlacklistActionType): string {
    match a
    case None => "None"
    case Kick => "Kick"
    case Ban => "Ban"
  }

  /** Different variants display differently, so the displayed name identifies the variant. */
  lemma DisplayIsInjective(t: GuildType, t': GuildType, a: BlacklistActionType, a': BlacklistActionType)
    ensures GuildTypeName(t) == GuildTypeName(t') ==> t == t'
    ensures BlacklistActionName(a) == BlacklistActionName(a') ==> a == a'
  {
    if GuildTypeName(t) == GuildTypeName(t') {
      assert GuildTypeName(t)[0] == GuildTypeName(t')[0];
    }
    if BlacklistActionName(a) == BlacklistActionName(a') {
      assert BlacklistActionName(a)[0] == BlacklistActionName(a')[0];
    }
  }

  datatype GuildSettings = GuildSettings(
    autoDetection: bool,
    guildType: GuildType,
    blacklistAction: BlacklistActionType,
    updateOnJoin: bool,
    updateOnVerify: bool)

  /** The derived `GuildSettings::default()`. */
  const DEFAULT_SETTINGS := GuildSettings(false, DEFAULT_GUILD_TYPE, DEFAULT_BLACKLIST_ACTION, false, false)

  /** The kinds of blacklist; only the group kind is used by the code this model covers. */
  datatype BlacklistType = Group(groupId: int) | OtherBlacklist(description: string)

  datatype Blacklist = Blacklist(id: string, reason: string, blacklistType: BlacklistType)

  /** A rank, group or custom bind: its role ids and the rest of its fields. */
  datatype RoleBind = RoleBind(details: seq<int>, discordRoles: seq<I64>)
  /** Its backup: the same fields, with roles by name. */
  datatype BackupRoleBind = BackupRoleBind(details: seq<int>, discordRoles: seq<string>)

  datatype RoGuild = RoGuild(
    id: I64,
    commandPrefix: Option<string>,
    settings: GuildSettings,
    verificationRole: I64,
    verifiedRole: I64,
    rankbinds: seq<RoleBind>,
    groupbinds: seq<RoleBind>,
    custombinds: seq<RoleBind>,
    assetbinds: seq<AssetBind>,
    blacklists: seq<Blacklist>,
    disabledChannels: seq<I64>)

  /** A backup. `id` is the document id, made fresh by the caller of `to_backup`. */
  datatype BackupGuild = BackupGuild(
    id: nat,
    userId: I64,
    name: string,
    commandPrefix: Option<string>,
    settings: GuildSettings,
    verificationRole: Option<string>,
    verifiedRole: Option<string>,
    rankbinds: seq<BackupRoleBind>,
    groupbinds: seq<BackupRoleBind>,
    custombinds: seq<BackupRoleBind>,
    assetbinds: seq<BackupAssetBind>,
    blacklists: seq<Blacklist>)

  /** The name of the role an id refers to, when the map knows it. */
  function RoleName(id: I64, roles: map<U64, CachedRole>): (name: Option<string>)
    ensures name.Some? <==> I64AsU64(id) in roles
    ensures name.Some? ==> name.value == roles[I64AsU64(id)].name
  {
    if I64AsU64(id) in roles then Some(roles[I64AsU64(id)].name) else Option.None
  }

  function RoleBindToBackup(b: RoleBind, roles: map<U64, CachedRole>): BackupRoleBind {
    BackupRoleBind(b.details, RoleNames(b.discordRoles, roles))
  }

  function AssetBindToBackup(b: AssetBind, roles: map<U64, CachedRole>): BackupAssetBind {
    BackupAssetBind(b.id, b.assetType, RoleNames(b.discordRoles, roles))
  }

  /**
   * `to_backup`: every bind list converted element by element, in order;
   * prefix, settings and blacklists copied; the verification and verified
   * roles by name, or None when the role map does not know them.
   */
  function ToBackup(guild: RoGuild, userId: I64, name: string, roles: map<U64, CachedRole>, objectId: nat): (b: BackupGuild)
    ensures b.id == objectId && b.userId == userId && b.name == name
    ensures b.commandPrefix == guild.commandPrefix && b.settings == guild.settings && b.blacklists == guild.blacklists
    ensures |b.rankbinds| == |guild.rankbinds| && |b.groupbinds| == |guild.groupbinds|
    ensures |b.custombinds| == |guild.custombinds| && |b.assetbinds| == |guild.assetbinds|
    ensures forall i :: 0 <= i < |guild.rankbinds| ==> b.rankbinds[i] == RoleBindToBackup(guild.rankbinds[i], roles)
    ensures forall i :: 0 <= i < |guild.groupbinds| ==> b.groupbinds[i] == RoleBindToBackup(guild.groupbinds[i], roles)
    ensures forall i :: 0 <= i < |guild.custombinds| ==> b.custombinds[i] == RoleBindToBackup(guild.custombinds[i], roles)
    ensures forall i :: 0 <= i < |guild.assetbinds| ==> b.assetbinds[i] == AssetBindToBackup(guild.assetbinds[i], roles)
    ensures b.verificationRole.Some? <==> I64AsU64(guild.verificationRole) in roles
    ensures b.verifiedRole.Some? <==> I64AsU64(guild.verifiedRole) in roles
    ensures b.verificationRole == RoleName(guild.verificationRole, roles) && b.verifiedRole == RoleName(guild.verifiedRole, roles)
  {
    BackupGuild(
      objectId, userId, name, guild.commandPrefix, guild.settings,
      RoleName(guild.verificationRole, roles),
      RoleName(guild.verifiedRole, roles),
      seq(|guild.rankbinds|, i requires 0 <= i < |guild.rankbinds| => RoleBindToBackup(guild.rankbinds[i], roles)),
      seq(|guild.groupbinds|, i requires 0 <= i < |guild.groupbinds| => RoleBindToBackup(guild.groupbinds[i], roles)),
      seq(|guild.custombinds|, i requires 0 <= i < |guild.custombinds| => RoleBindToBackup(guild.custombinds[i], roles)),
      seq(|guild.assetbinds|, i requires 0 <= i < |guild.assetbinds| => AssetBindToBackup(guild.assetbinds[i], roles)),
      guild.blacklists)
  }

  /** All role names of a list of binds, bind after bind. */
  function RoleBindNames(binds: seq<BackupRoleBind>): seq<string> {
    if binds == [] then [] else binds[0].discordRoles + RoleBindNames(binds[1..])
  }

  function AssetBindNames(binds: seq<BackupAssetBind>): seq<string> {
    if binds == [] then [] else binds[0].discordRoles + AssetBindNames(binds[1..])
  }

  lemma {:induction false} RoleBindNamesContain(binds: seq<BackupRoleBind>, i: nat, n: string)
    requires i < |binds| && n in binds[i].discordRoles
    ensures n in RoleBindNames(binds)
    decreases |binds|
  {
    if i > 0 {
      RoleBindNamesContain(binds[1..], i - 1, n);
    }
  }

  lemma {:induction false} AssetBindNamesContain(binds: seq<BackupAssetBind>, i: nat, n: string)
    requires i < |binds| && n in binds[i].discordRoles
    ensures n in AssetBindNames(binds)
    decreases |binds|
  {
    if i > 0 {
      AssetBindNamesContain(binds[1..], i - 1, n);
    }
  }

  /** Every role name of the four bind lists, each once, in order of first mention. */
  function AllRoleNames(backup: BackupGuild): (names: seq<string>)
    ensures NoDuplicates(names)
  {
    Dedup(RoleBindNames(backup.rankbinds) + RoleBindNames(backup.groupbinds)
          + RoleBindNames(backup.custombinds) + AssetBindNames(backup.assetbinds))
  }

  /** Every name a bind of the backup mentions is among AllRoleNames. */
  lemma AllRoleNamesCoverBinds(backup: BackupGuild)
    ensures forall i, n :: 0 <= i < |backup.rankbinds| && n in backup.rankbinds[i].discordRoles ==> n in AllRoleNames(backup)
    ensures forall i, n :: 0 <= i < |backup.groupbinds| && n in backup.groupbinds[i].discordRoles ==> n in AllRoleNames(backup)
    ensures forall i, n :: 0 <= i < |backup.custombinds| && n in backup.custombinds[i].discordRoles ==> n in AllRoleNames(backup)
    ensures forall i, n :: 0 <= i < |backup.assetbinds| && n in backup.assetbinds[i].discordRoles ==> n in AllRoleNames(backup)
  {
    forall i, n | 0 <= i < |backup.rankbinds| && n in backup.rankbinds[i].discordRoles
      ensures n in AllRoleNames(backup)
    {
      RoleBindNamesContain(backup.rankbinds, i, n);
    }
    forall i, n | 0 <= i < |backup.groupbinds| && n in backup.groupbinds[i].discordRoles
      ensures n in AllRoleNames(backup)
    {
      RoleBindNamesContain(backup.groupbinds, i, n);
    }
    forall i, n | 0 <= i < |backup.custombinds| && n in backup.custombinds[i].discordRoles
      ensures n in AllRoleNames(backup)
    {
      RoleBindNamesContain(backup.custombinds, i, n);
    }
    forall i, n | 0 <= i < |backup.assetbinds| && n in backup.assetbinds[i].discordRoles
      ensures n in AllRoleNames(backup)
    {
      AssetBindNamesContain(backup.assetbinds, i, n);
    }
  }

  /** The table of resolved names, with the roles created while building it. */
  datatype Resolution = Resolution(table: map<string, U64>, created: seq<CachedRole>)

  /**
   * The `names_to_ids` loop of `from_backup`, when created roles receive the
   * ids `newIds` in turn: each name maps to the first existing role whose name
   * matches it ignoring ASCII case, or else to a role created under that
   * name. None when a creation fails.
   */
  function NameTable(names: seq<string>, existing: seq<CachedRole>, newIds: seq<NonZeroU64>): (r: Option<Resolution>)
    ensures r.Some? ==> r.value.table.Keys == set n | n in names
    ensures r.Some? ==> |r.value.created| <= |newIds|
  {
    if names == [] then Some(Resolution(map[], []))
    else
      var found := FindRoleIgnoringCase(existing, names[0]);
      if found.Some? then
        var rest := NameTable(names[1..], existing, newIds);
        if rest.None? then Option.None
        else Some(Resolution(map[names[0] := found.value.id] + rest.value.table, rest.value.created))
      else if newIds == [] then Option.None
      else
        var rest := NameTable(names[1..], existing, newIds[1..]);
        if rest.None? then Option.None
        else Some(Resolution(map[names[0] := newIds[0]] + rest.value.table,
                             [CachedRole(newIds[0], names[0])] + rest.value.created))
  }

  /** The names after the first are distinct too, and differ from the first. */
  lemma DistinctTail(names: seq<string>)
    requires names != [] && NoDuplicates(names)
    ensures NoDuplicates(names[1..]) && names[0] !in names[1..]
  {
    forall i, j | 0 <= i < j < |names[1..]| ensures names[1..][i] != names[1..][j] {
      assert names[1..][i] == names[i + 1] && names[1..][j] == names[j + 1];
    }
    forall k | 0 <= k < |names[1..]| ensures names[1..][k] != names[0] {
      assert names[1..][k] == names[k + 1];
    }
  }

  /**
   * For distinct names, a name matched by an existing role maps to the first
   * such role, and an unmatched one maps to the id of a role created under
   * exactly that name.
   */
  lemma {:induction false} NameTableResolvesEachName(names: seq<string>, existing: seq<CachedRole>, newIds: seq<NonZeroU64>)
    requires NoDuplicates(names)
    requires NameTable(names, existing, newIds).Some?
    ensures var r := NameTable(names, existing, newIds).value;
      forall n :: n in names ==>
        if FindRoleIgnoringCase(existing, n).Some? then r.table[n] == FindRoleIgnoringCase(existing, n).value.id
        else CachedRole(r.table[n], n) in r.created
    decreases |names|
  {
    if names != [] {
      var found := FindRoleIgnoringCase(existing, names[0]);
      var tail := if found.Some? then newIds else newIds[1..];
      DistinctTail(names);
      NameTableResolvesEachName(names[1..], existing, tail);
      var rest := NameTable(names[1..], existing, tail).value;
      var r := NameTable(names, existing, newIds).value;
      if found.Some? {
        assert r == Resolution(map[names[0] := found.value.id] + rest.table, rest.created);
      } else {
        assert r == Resolution(map[names[0] := newIds[0]] + rest.table, [CachedRole(newIds[0], names[0])] + rest.created);
      }
    }
  }

  /** Every created role belongs to one unmatched name, and the table gives that name the role's id. */
  lemma {:induction false} NameTableCreatesForUnmatched(names: seq<string>, existing: seq<CachedRole>, newIds: seq<NonZeroU64>)
    requires NoDuplicates(names)
    requires NameTable(names, existing, newIds).Some?
    ensures var r := NameTable(names, existing, newIds).value;
      forall role :: role in r.created ==>
        role.name in names && FindRoleIgnoringCase(existing, role.name).None? && r.table[role.name] == role.id
    decreases |names|
  {
    if names != [] {
      var found := FindRoleIgnoringCase(existing, names[0]);
      var tail := if found.Some? then newIds else newIds[1..];
      DistinctTail(names);
      NameTableCreatesForUnmatched(names[1..], existing, tail);
      var rest := NameTable(names[1..], existing, tail).value;
      var r := NameTable(names, existing, newIds).value;
      if found.Some? {
        assert r == Resolution(map[names[0] := found.value.id] + rest.table, rest.created);
      } else {
        assert r == Resolution(map[names[0] := newIds[0]] + rest.table, [CachedRole(newIds[0], names[0])] + rest.created);
      }
    }
  }

  /**
   * How `from_backup` resolves the verification or verified role: no name
   * gives 0; otherwise the table of bind role names, then an existing role
   * whose name equals the name exactly, then a new role. The table is not
   * updated, so a name resolved here can be created twice.
   */
  function SpecialRole(name: Option<string>, table: map<string, U64>, existing: seq<CachedRole>, newIds: seq<NonZeroU64>): (r: Option<(I64, seq<CachedRole>)>)
    ensures name.None? ==> r == Some((0, []))
    ensures r.Some? ==> |r.value.1| <= 1 && |r.value.1| <= |newIds|
    ensures r.Some? && r.value.1 != [] ==> r.value.1 == [CachedRole(newIds[0], name.value)]
  {
    if name.None? then Some((0, []))
    else if name.value in table then Some((U64AsI64(table[name.value]), []))
    else if exists k :: 0 <= k < |existing| && existing[k].name == name.value then
      Some((U64AsI64(existing[FirstExactMatch(existing, name.value)].id), []))
    else if newIds == [] then Option.None
    else Some((U64AsI64(newIds[0]), [CachedRole(newIds[0], name.value)]))
  }

  /** Where the first role whose name equals `name` exactly sits. */
  function FirstExactMatch(roles: seq<CachedRole>, name: string): (k: nat)
    requires exists k :: 0 <= k < |roles| && roles[k].name == name
    ensures k < |roles| && roles[k].name == name
    ensures forall j :: 0 <= j < k ==> roles[j].name != name
  {
    if roles[0].name == name then 0
    else
      assert exists k :: 0 <= k < |roles[1..]| && roles[1..][k].name == name by {
        var k :| 0 <= k < |roles| && roles[k].name == name;
        assert roles[1..][k - 1] == roles[k];
      }
      1 + FirstExactMatch(roles[1..], name)
  }

  /** The ids of a list of role names, by the table; a name the table lacks is left out. */
  function IdsOfNames(names: seq<string>, table: map<string, U64>): (ids: seq<I64>)
    ensures (forall n :: n in names ==> n in table) ==>
      |ids| == |names| && forall i :: 0 <= i < |names| ==> ids[i] == U64AsI64(table[names[i]])
  {
    if names == [] then []
    else (if names[0] in table then [U64AsI64(table[names[0]])] else []) + IdsOfNames(names[1..], table)
  }

  function RoleBindFromBackup(b: BackupRoleBind, table: map<string, U64>): RoleBind {
    RoleBind(b.details, IdsOfNames(b.discordRoles, table))
  }

  function AssetBindFromBackup(b: BackupAssetBind, table: map<string, U64>): AssetBind {
    AssetBind(b.id, b.assetType, IdsOfNames(b.discordRoles, table))
  }

  /** The restored record, once the table and the two special roles are known. */
  function Assemble(backup: BackupGuild, guildId: GuildId, table: map<string, U64>, verification: I64, verified: I64): RoGuild {
    RoGuild(
      ToSql(guildId), backup.commandPrefix, backup.settings, verification, verified,
      seq(|backup.rankbinds|, i requires 0 <= i < |backup.rankbinds| => RoleBindFromBackup(backup.rankbinds[i], table)),
      seq(|backup.groupbinds|, i requires 0 <= i < |backup.groupbinds| => RoleBindFromBackup(backup.groupbinds[i], table)),
      seq(|backup.custombinds|, i requires 0 <= i < |backup.custombinds| => RoleBindFromBackup(backup.custombinds[i], table)),
      seq(|backup.assetbinds|, i requires 0 <= i < |backup.assetbinds| => AssetBindFromBackup(backup.assetbinds[i], table)),
      backup.blacklists,
      [])
  }

  /**
   * What `from_backup` computes, when created roles receive the ids `newIds`
   * in turn: the restored record and the roles created, in order. None when
   * a creation fails.
   */
  function Restore(backup: BackupGuild, guildId: GuildId, existing: seq<CachedRole>, newIds: seq<NonZeroU64>): (r: Option<(RoGuild, seq<CachedRole>)>)
    ensures r.Some? ==> |r.value.1| <= |newIds|
  {
    var names := NameTable(AllRoleNames(backup), existing, newIds);
    if names.None? then Option.None
    else
      var rest := newIds[|names.value.created|..];
      var verification := SpecialRole(backup.verificationRole, names.value.table, existing, rest);
      if verification.None? then Option.None
      else
        var rest' := rest[|verification.value.1|..];
        var verified := SpecialRole(backup.verifiedRole, names.value.table, existing, rest');
        if verified.None? then Option.None
        else
          Some((Assemble(backup, guildId, names.value.table, verification.value.0, verified.value.0),
                names.value.created + verification.value.1 + verified.value.1))
  }

  /**
   * The restored record takes its id from the guild, copies prefix, settings
   * and blacklists, has no disabled channels, keeps every bind list's length
   * and order, and gives every bind one role id per role name.
   */
  lemma RestoreKeepsShape(backup: BackupGuild, guildId: GuildId, existing: seq<CachedRole>, newIds: seq<NonZeroU64>)
    requires Restore(backup, guildId, existing, newIds).Some?
    ensures var g := Restore(backup, guildId, existing, newIds).value.0;
      g.id == ToSql(guildId) && g.commandPrefix == backup.commandPrefix && g.settings == backup.settings
      && g.blacklists == backup.blacklists && g.disabledChannels == []
      && |g.rankbinds| == |backup.rankbinds| && |g.groupbinds| == |backup.groupbinds|
      && |g.custombinds| == |backup.custombinds| && |g.assetbinds| == |backup.assetbinds|
      && (forall i :: 0 <= i < |g.rankbinds| ==>
            g.rankbinds[i].details == backup.rankbinds[i].details
            && |g.rankbinds[i].discordRoles| == |backup.rankbinds[i].discordRoles|)
      && (forall i :: 0 <= i < |g.groupbinds| ==>
            g.groupbinds[i].details == backup.groupbinds[i].details
            && |g.groupbinds[i].discordRoles| == |backup.groupbinds[i].discordRoles|)
      && (forall i :: 0 <= i < |g.custombinds| ==>
            g.custombinds[i].details == backup.custombinds[i].details
            && |g.custombinds[i].discordRoles| == |backup.custombinds[i].discordRoles|)
      && (forall i :: 0 <= i < |g.assetbinds| ==>
            g.assetbinds[i].id == backup.assetbinds[i].id && g.assetbinds[i].assetType == backup.assetbinds[i].assetType
            && |g.assetbinds[i].discordRoles| == |backup.assetbinds[i].discordRoles|)
  {
    AllRoleNamesCoverBinds(backup);
  }

  /**
   * `from_backup`. `names_to_ids` is built over the distinct role names of
   * the four bind lists, then the binds are converted through it, then the
   * verification and verified roles are resolved. A failed role creation
   * panics (`expect`); the result is then None.
   */
  method FromBackup(backup: BackupGuild, guildId: GuildId, existing: seq<CachedRole>, factory: RoleFactory) returns (r: Option<RoGuild>)
    modifies factory
    ensures var spec := Restore(backup, guildId, existing, old(factory.pending));
      (r.Some? <==> spec.Some?)
      && (r.Some? ==>
            (r.value == spec.value.0
             && factory.created == old(factory.created) + spec.value.1
             && factory.pending == old(factory.pending)[|spec.value.1|..]))
  {
    ghost var newIds := factory.pending;
    var table := BuildNameTable(AllRoleNames(backup), existing, factory);
    if table.None? {
      return Option.None;
    }
    ghost var afterTable := factory.pending;
    ghost var createdByTable := factory.created;
    var verification := ResolveSpecialRole(backup.verificationRole, table.value, existing, factory);
    if verification.None? {
      return Option.None;
    }
    ghost var afterVerification := factory.pending;
    ghost var createdByVerification := factory.created;
    var verified := ResolveSpecialRole(backup.verifiedRole, table.value, existing, factory);
    if verified.None? {
      return Option.None;
    }
    r := Some(Assemble(backup, guildId, table.value, verification.value, verified.value));
    RestoreWhenAllSucceed(backup, guildId, existing, newIds, afterTable, afterVerification);
    ConcatFour(old(factory.created), createdByTable[|old(factory.created)|..],
               createdByVerification[|createdByTable|..], factory.created[|createdByVerification|..]);
  }

  lemma ConcatFour<T>(a: seq<T>, b: seq<T>, c: seq<T>, d: seq<T>)
    ensures a + ((b + c) + d) == ((a + b) + c) + d
  {
  }

  /**
   * Restore, unfolded for the case where all three steps succeed, with the
   * ids left after each step named.
   */
  lemma RestoreWhenAllSucceed(backup: BackupGuild, guildId: GuildId, existing: seq<CachedRole>,
                              newIds: seq<NonZeroU64>, afterTable: seq<NonZeroU64>, afterVerification: seq<NonZeroU64>)
    requires NameTable(AllRoleNames(backup), existing, newIds).Some?
    requires afterTable == newIds[|NameTable(AllRoleNames(backup), existing, newIds).value.created|..]
    requires SpecialRole(backup.verificationRole, NameTable(AllRoleNames(backup), existing, newIds).value.table, existing, afterTable).Some?
    requires afterVerification == afterTable[|SpecialRole(backup.verificationRole, NameTable(AllRoleNames(backup), existing, newIds).value.table, existing, afterTable).value.1|..]
    ensures var t := NameTable(AllRoleNames(backup), existing, newIds).value;
      var v := SpecialRole(backup.verificationRole, t.table, existing, afterTable).value;
      var w := SpecialRole(backup.verifiedRole, t.table, existing, afterVerification);
      var spec := Restore(backup, guildId, existing, newIds);
      (spec.Some? <==> w.Some?)
      && (w.Some? ==>
            (spec.value == (Assemble(backup, guildId, t.table, v.0, w.value.0), t.created + v.1 + w.value.1)
             && newIds[|spec.value.1|..] == afterVerification[|w.value.1|..]))
  {
    var t := NameTable(AllRoleNames(backup), existing, newIds).value;
    var v := SpecialRole(backup.verificationRole, t.table, existing, afterTable).value;
    var w := SpecialRole(backup.verifiedRole, t.table, existing, afterVerification);
    if w.Some? {
      DropTwice(newIds, |t.created|, |v.1|, |w.value.1|);
    }
  }

  /** Dropping a prefix, then another, drops both at once. */
  lemma DropTwice<T>(s: seq<T>, a: nat, b: nat, c: nat)
    requires a + b + c <= |s|
    ensures s[a..][b..] == s[a + b..]
    ensures s[a..][b..][c..] == s[a + b + c..]
  {
  }

  /**
   * The `names_to_ids` loop: resolve each name, matching existing roles
   * ignoring ASCII case and creating a role for each unmatched name.
   */
  method BuildNameTable(names: seq<string>, existing: seq<CachedRole>, factory: RoleFactory) returns (table: Option<map<string, U64>>)
    modifies factory
    ensures var spec := NameTable(names, existing, old(factory.pending));
      (table.Some? <==> spec.Some?)
      && (table.Some? ==>
            (table.value == spec.value.table
             && factory.created == old(factory.created) + spec.value.created
             && factory.pending == old(factory.pending)[|spec.value.created|..]))
  {
    ghost var newIds := factory.pending;
    var done: map<string, U64> := map[];
    ghost var made: seq<CachedRole> := [];
    var i := 0;
    assert names[0..] == names;
    assert newIds[0..] == newIds;
    assert forall m: map<string, U64> :: map[] + m == m;
    assert forall c: seq<CachedRole> :: [] + c == c;
    while i < |names|
      invariant 0 <= i <= |names|
      invariant |made| <= |newIds| && factory.pending == newIds[|made|..]
      invariant factory.created == old(factory.created) + made
      invariant NameTable(names, existing, newIds)
        == (var rest := NameTable(names[i..], existing, factory.pending);
            if rest.None? then Option.None
            else Some(Resolution(done + rest.value.table, made + rest.value.created)))
    {
      ghost var pending := factory.pending;
      NameTableStep(names, existing, pending, i);
      var found := FindRoleIgnoringCase(existing, names[i]);
      if found.Some? {
        MapUnionStep(done, names[i], found.value.id);
        done := done[names[i] := found.value.id];
      } else {
        var role := factory.Create(names[i]);
        if role.None? {
          return Option.None;
        }
        MapUnionStep(done, names[i], role.value.id);
        CreatedStep(made, role.value);
        done := done[role.value.name := role.value.id];
        made := made + [role.value];
        assert factory.pending == newIds[|made|..];
      }
      i := i + 1;
    }
    assert names[i..] == [] && done + map[] == done && made + [] == made;
    table := Some(done);
  }

  lemma MapUnionStep(table: map<string, U64>, name: string, id: U64)
    ensures forall rest: map<string, U64> :: table + (map[name := id] + rest) == table[name := id] + rest
  {
  }

  lemma CreatedStep(made: seq<CachedRole>, role: CachedRole)
    ensures forall rest: seq<CachedRole> :: made + ([role] + rest) == (made + [role]) + rest
  {
  }

  /** How the table of the names from position i on begins: with the i-th name. */
  lemma NameTableStep(names: seq<string>, existing: seq<CachedRole>, pending: seq<NonZeroU64>, i: nat)
    requires i < |names|
    ensures var found := FindRoleIgnoringCase(existing, names[i]);
      var rest := NameTable(names[i + 1..], existing, if found.Some? || pending == [] then pending else pending[1..]);
      NameTable(names[i..], existing, pending)
        == if found.Some? then
             (if rest.None? then Option.None
              else Some(Resolution(map[names[i] := found.value.id] + rest.value.table, rest.value.created)))
           else if pending == [] then Option.None
           else if rest.None? then Option.None
           else Some(Resolution(map[names[i] := pending[0]] + rest.value.table,
                                [CachedRole(pending[0], names[i])] + rest.value.created))
  {
    assert names[i..][0] == names[i] && names[i..][1..] == names[i + 1..];
  }

  /** Resolve the verification or verified role; None when a role creation fails. */
  method ResolveSpecialRole(name: Option<string>, table: map<string, U64>, existing: seq<CachedRole>, factory: RoleFactory)
    returns (id: Option<I64>)
    modifies factory
    ensures var spec := SpecialRole(name, table, existing, old(factory.pending));
      (id.Some? <==> spec.Some?)
      && (id.Some? ==>
            (id.value == spec.value.0
             && factory.created == old(factory.created) + spec.value.1
             && factory.pending == old(factory.pending)[|spec.value.1|..]))
  {
    if name.None? {
      return Some(0);
    }
    if name.value in table {
      return Some(U64AsI64(table[name.value]));
    }
    var k := 0;
    while k < |existing|
      invariant 0 <= k <= |existing|
      invariant forall j :: 0 <= j < k ==> existing[j].name != name.value
    {
      if existing[k].name == name.value {
        assert FirstExactMatch(existing, name.value) == k;
        return Some(U64AsI64(existing[k].id));
      }
      k := k + 1;
    }
    var role := factory.Create(name.value);
    if role.None? {
      return Option.None;
    }
    id := Some(U64AsI64(role.value.id));
  }
}

=== FILE: ids.dfy ===
/**
 * The four Discord id wrappers (`GuildId`, `UserId`, `RoleId`,
 * `ChannelId`) of models/src/id.rs. Each wraps the id library's non-zero
 * 64-bit snowflake, and each is stored in Postgres as a signed 64-bit
 * integer through an `as` cast. The four wrappers share their code, so the
 * model has one generic wrapper `Id<Kind>` and a marker type per kind.
 */
module Ids {
  import opened Wrappers

  const TWO_63: int := 0x8000_0000_0000_0000
  const TWO_64: int := 0x1_0000_0000_0000_0000

  type U64 = x: int | 0 <= x < TWO_64
  type I64 = x: int | -TWO_63 <= x < TWO_63
  /** The id library's snowflake: a non-zero `u64`. */
  type NonZeroU64 = x: int | 0 < x < TWO_64 witness 1

  datatype GuildKind = GuildKind
  datatype UserKind = UserKind
  datatype RoleKind = RoleKind
  datatype ChannelKind = ChannelKind

  /**
   * A wrapper around one snowflake. Equality and order are derived from the
   * single field, so they are those of the wrapped number.
   */
  datatype Id<Kind> = Id(snowflake: NonZeroU64) {
    /** `get`: the wrapped number. */
    function Get(): (n: U64)
      ensures n != 0
    {
      snowflake
    }

    /** The derived `Ord`. */
    predicate Less(other: Id<Kind>) {
      snowflake < other.snowflake
    }
  }

  type GuildId = Id<GuildKind>
  type UserId = Id<UserKind>
  type RoleId = Id<RoleKind>
  type ChannelId = Id<ChannelKind>

  /**
   * `new(n)`: the id library's constructor, unwrapped. It panics on 0,
   * so callers must pass a non-zero number.
   */
  function New<Kind>(n: U64): (id: Id<Kind>)
    requires n != 0
    ensures id.Get() == n
  {
    Id(n)
  }

  /** Rust's `u64 as i64`: the same 64 bits read as two's complement. */
  function U64AsI64(x: U64): (y: I64)
    ensures (y - x) % TWO_64 == 0
  {
    if x < TWO_63 then x else x - TWO_64
  }

  /** Rust's `i64 as u64`: the same 64 bits read as unsigned. */
  function I64AsU64(y: I64): (x: U64)
    ensures (x - y) % TWO_64 == 0
  {
    if y < 0 then y + TWO_64 else y
  }

  /** `to_sql`: the number written to the database column. */
  function ToSql<Kind>(id: Id<Kind>): I64 {
    U64AsI64(id.Get())
  }

  /**
   * `from_sql`: rebuild the id from the stored `i64`. A stored 0 reaches
   * `new(0)`, whose unwrap panics; the model returns None for that panic.
   */
  function FromSql<Kind>(stored: I64): (r: Option<Id<Kind>>)
    ensures r.Some? <==> stored != 0
    ensures r.Some? ==> ToSql(r.value) == stored
  {
    var n := I64AsU64(stored);
    if n == 0 then None else Some(New(n))
  }

  /** The two casts undo each other. */
  lemma CastsRoundTrip(x: U64, y: I64)
    ensures I64AsU64(U64AsI64(x)) == x
    ensures U64AsI64(I64AsU64(y)) == y
  {
  }

  /** Reading back a written id gives the same id, for every kind of id. */
  lemma SqlRoundTrip<Kind>(id: Id<Kind>)
    ensures FromSql<Kind>(ToSql(id)) == Some(id)
  {
    CastsRoundTrip(id.Get(), 0);
  }

  /** Two ids of a kind are equal exactly when their numbers are, and ordered as their numbers. */
  lemma EqualityAndOrderAreTheNumbers<Kind>(a: Id<Kind>, b: Id<Kind>)
    ensures a == b <==> a.Get() == b.Get()
    ensures a.Less(b) <==> a.Get() < b.Get()
  {
  }
}

=== FILE: legacy_assetbinds_modify.dfy ===
/**
 * The older `assetbinds modify` (src/commands/assetbinds/modify.rs), which
 * reads its arguments one token at a time: the field, the asset id, then
 * the roles. Bad or missing arguments end it silently.
 */
module LegacyAssetbindsModify {
  import opened Wrappers
  import opened Text
  import opened Ids
  import opened Errors
  import opened BotState
  import GuildModel

  const SUCCESS := Embed(DarkGreen, "Success!", "The bind was successfully modified", [])

  /** Every id `parse_role` reads is kept. */
  function AnyRole(r: I64): bool {
    true
  }

  /** The store update the field asks for, if it names one. */
  function FieldEdit(field: string, ids: seq<I64>): Option<RoleEdit> {
    if EqIgnoreAsciiCase(field, "roles-add") then Some(PushEach(ids))
    else if EqIgnoreAsciiCase(field, "roles-remove") then Some(PullAll(ids))
    else Option.None
  }

  /** The guild documents after the handler, what it sent, and its result. */
  datatype Outcome = Outcome(guilds: map<int, GuildModel.RoGuild>, sent: seq<Output>, result: Result<(), RoError>)

  /** The handler on the argument tokens `args`, in order. */
  function LegacyOutcome(guilds: map<int, GuildModel.RoGuild>, guildId: int, args: seq<string>, parse: string -> Option<I64>): Outcome {
    if guildId !in guilds then Outcome(guilds, [], Err(Command(NoRoGuild)))
    else if |args| < 2 then Outcome(guilds, [], Ok(()))
    else match ParseInt(args[1], I64_MIN, I64_MAX)
      case None => Outcome(guilds, [], Ok(()))
      case Some(assetId) =>
        if !exists a :: a in guilds[guildId].assetbinds && a.id == assetId then Outcome(guilds, [], Ok(()))
        else match FieldEdit(args[0], Collected(args[2..], Option.None, parse, AnyRole))
          case None => Outcome(guilds, [Post(SUCCESS)], Ok(()))
          case Some(edit) => Outcome(EditAssetbind(guilds, guildId, assetId, edit), [Post(SUCCESS)], Ok(()))
  }

  /**
   * The handler fails only without a guild document, and it is silent,
   * changing nothing, exactly when the guild document is missing, a token
   * is missing, the asset id is no `i64`, or no asset bind has that id.
   */
  lemma SilentCases(guilds: map<int, GuildModel.RoGuild>, guildId: int, args: seq<string>, parse: string -> Option<I64>)
    ensures var o := LegacyOutcome(guilds, guildId, args, parse);
      (o.result.Err? <==> guildId !in guilds)
      && (o.sent == [] <==>
          (guildId !in guilds || |args| < 2 || ParseInt(args[1], I64_MIN, I64_MAX).None?
           || forall a :: a in guilds[guildId].assetbinds ==> a.id != ParseInt(args[1], I64_MIN, I64_MAX).value))
      && (o.sent == [] ==> o.guilds == guilds)
      && (o.sent != [] ==> o.sent == [Post(SUCCESS)])
  {
  }

  /** A field that is neither "roles-add" nor "roles-remove", in any case, changes nothing but still reports success. */
  lemma UnknownFieldStillReportsSuccess(guilds: map<int, GuildModel.RoGuild>, guildId: int, args: seq<string>, parse: string -> Option<I64>)
    requires guildId in guilds && |args| >= 2 && ParseInt(args[1], I64_MIN, I64_MAX).Some?
    requires exists a :: a in guilds[guildId].assetbinds && a.id == ParseInt(args[1], I64_MIN, I64_MAX).value
    requires !EqIgnoreAsciiCase(args[0], "roles-add") && !EqIgnoreAsciiCase(args[0], "roles-remove")
    ensures LegacyOutcome(guilds, guildId, args, parse) == Outcome(guilds, [Post(SUCCESS)], Ok(()))
  {
  }

  /**
   * "roles-add" in any case pushes every id read from the tokens after the
   * asset id onto the first bind with that id; "roles-remove" pulls them.
   */
  lemma FieldSelectsEdit(guilds: map<int, GuildModel.RoGuild>, guildId: int, args: seq<string>, parse: string -> Option<I64>)
    requires guildId in guilds && |args| >= 2 && ParseInt(args[1], I64_MIN, I64_MAX).Some?
    requires exists a :: a in guilds[guildId].assetbinds && a.id == ParseInt(args[1], I64_MIN, I64_MAX).value
    ensures var ids := Collected(args[2..], Option.None, parse, AnyRole);
      var assetId := ParseInt(args[1], I64_MIN, I64_MAX).value;
      (EqIgnoreAsciiCase(args[0], "roles-add") ==>
         LegacyOutcome(guilds, guildId, args, parse).guilds == EditAssetbind(guilds, guildId, assetId, PushEach(ids)))
      && (EqIgnoreAsciiCase(args[0], "roles-remove") ==>
         LegacyOutcome(guilds, guildId, args, parse).guilds == EditAssetbind(guilds, guildId, assetId, PullAll(ids)))
  {
  }

  /** `assetbinds_modify` over the token sequence `args`. */
  method AssetbindsModify(bot: Bot, guildId: int, args: seq<string>, parse: string -> Option<I64>) returns (r: Result<(), RoError>)
    modifies bot
    ensures var o := LegacyOutcome(old(bot.guilds), guildId, args, parse);
      bot.guilds == o.guilds && bot.outputs == old(bot.outputs) + o.sent && r == o.result
    ensures bot.binds == old(bot.binds) && bot.guildRows == old(bot.guildRows)
    ensures bot.trainerRoles == old(bot.trainerRoles) && bot.bypassRoles == old(bot.bypassRoles)
    ensures bot.ignoreComponents == old(bot.ignoreComponents)
  {
    if guildId !in bot.guilds {
      return Err(Command(NoRoGuild));
    }
    var guild := bot.guilds[guildId];
    if |args| < 1 {
      return Ok(());
    }
    var field := args[0];
    if |args| < 2 {
      return Ok(());
    }
    var parsed := ParseInt(args[1], I64_MIN, I64_MAX);
    if parsed.None? {
      return Ok(());
    }
    var assetId: I64 := parsed.value;
    if !exists a :: a in guild.assetbinds && a.id == assetId {
      return Ok(());
    }
    if EqIgnoreAsciiCase(field, "roles-add") {
      EditRoles(bot, guildId, assetId, args[2..], parse, true);
    } else if EqIgnoreAsciiCase(field, "roles-remove") {
      EditRoles(bot, guildId, assetId, args[2..], parse, false);
    }
    bot.Send(Post(SUCCESS));
    r := Ok(());
  }

  /**
   * `add_roles` (`push`) and `remove_roles` (not `push`): read an id from
   * each remaining token, then push them all onto, or pull them all from,
   * the bind's roles.
   */
  method EditRoles(bot: Bot, guildId: int, assetId: I64, rest: seq<string>, parse: string -> Option<I64>, push: bool)
    modifies bot
    ensures var ids := Collected(rest, Option.None, parse, AnyRole);
      bot.guilds == EditAssetbind(old(bot.guilds), guildId, assetId, if push then PushEach(ids) else PullAll(ids))
    ensures bot.outputs == old(bot.outputs) && bot.binds == old(bot.binds) && bot.guildRows == old(bot.guildRows)
    ensures bot.trainerRoles == old(bot.trainerRoles) && bot.bypassRoles == old(bot.bypassRoles)
    ensures bot.ignoreComponents == old(bot.ignoreComponents)
  {
    var ids := CollectRoles(rest, Option.None, parse, AnyRole);
    bot.guilds := EditAssetbind(bot.guilds, guildId, assetId, if push then PushEach(ids) else PullAll(ids));
  }
}

=== FILE: rankbinds_modify.dfy ===
/**
 * `rankbinds modify` (rowifi/src/commands/rankbinds/modify.rs): change the
 * priority, the template or the roles of the guild's rank bind for a group
 * and rank, in the Postgres `binds` table.
 */
module RankbindsModifyCommand {
  import opened Wrappers
  import opened Text
  import opened Seqs
  import opened BotState

  datatype ModifyOption = Priority | RolesAdd | RolesRemove | Template

  const MODIFY_OPTIONS := "one of `priority` `roles-add` `roles-remove` `template`"

  /** `FromArg`: the option's name, in any ASCII case. */
  function ParseModifyOption(arg: string): (r: Result<ModifyOption, ParseError>)
    ensures r == Ok(Priority) <==> AsciiLower(arg) == "priority"
    ensures r == Ok(RolesAdd) <==> AsciiLower(arg) == "roles-add"
    ensures r == Ok(RolesRemove) <==> AsciiLower(arg) == "roles-remove"
    ensures r == Ok(Template) <==> AsciiLower(arg) == "template"
    ensures r.Err? ==> r.error == ParseError(MODIFY_OPTIONS)
  {
    var lower := AsciiLower(arg);
    if lower == "priority" then Ok(Priority)
    else if lower == "roles-add" then Ok(RolesAdd)
    else if lower == "roles-remove" then Ok(RolesRemove)
    else if lower == "template" then Ok(Template)
    else Err(ParseError(MODIFY_OPTIONS))
  }

  /**
   * The handler's inputs: the guild, the author's name, the arguments (the
   * option, the group and rank ids, the rest of the text), and the roles
   * resolved with an interaction.
   */
  datatype RankRequest = RankRequest(
    guildId: int,
    authorName: string,
    option: ModifyOption,
    groupId: int,
    rankId: int,
    change: string,
    resolved: Option<seq<int>>)

  predicate IsRankBindFor(b: BindRow, guildId: int, groupId: int, rankId: int) {
    b.guildId == guildId && b.bindType == RankBind && b.groupId == groupId && b.groupRankId == rankId
  }

  /** The first of the guild's rank binds, in table order, for the group and rank. */
  function FindRankBind(rows: seq<BindRow>, guildId: int, groupId: int, rankId: int): (r: Option<BindRow>)
    ensures r.Some? ==> r.value in rows && IsRankBindFor(r.value, guildId, groupId, rankId)
    ensures r.None? ==> forall b :: b in rows ==> !IsRankBindFor(b, guildId, groupId, rankId)
    decreases |rows|
  {
    if rows == [] then Option.None
    else if IsRankBindFor(rows[0], guildId, groupId, rankId) then Some(rows[0])
    else FindRankBind(rows[1..], guildId, groupId, rankId)
  }

  /** The bind found is the first match: no earlier row is a rank bind for the group and rank. */
  lemma {:induction false} FoundIsFirst(rows: seq<BindRow>, guildId: int, groupId: int, rankId: int)
    requires FindRankBind(rows, guildId, groupId, rankId).Some?
    ensures exists i :: (0 <= i < |rows| && rows[i] == FindRankBind(rows, guildId, groupId, rankId).value
                         && forall j :: 0 <= j < i ==> !IsRankBindFor(rows[j], guildId, groupId, rankId))
    decreases |rows|
  {
    if !IsRankBindFor(rows[0], guildId, groupId, rankId) {
      FoundIsFirst(rows[1..], guildId, groupId, rankId);
      var i :| 0 <= i < |rows[1..]| && rows[1..][i] == FindRankBind(rows, guildId, groupId, rankId).value
               && forall j :: 0 <= j < i ==> !IsRankBindFor(rows[1..][j], guildId, groupId, rankId);
      assert rows[i + 1] == rows[1..][i];
      assert forall j :: 1 <= j < i + 1 ==> rows[j] == rows[1..][j - 1];
    } else {
      assert rows[0] == FindRankBind(rows, guildId, groupId, rankId).value;
    }
  }


  /**
   * The stored template: "auto" makes one from the rank's name, the prefix
   * `PREFIX_REGEX` captures from it in brackets, when the group, the rank
   * and a prefix are all found; "disable" and "N/A" stand for the plain
   * slugs; any other text is stored as it is.
   */
  function RankTemplate(change: string, rankName: Option<string>, prefixCapture: string -> Option<string>): (t: string)
    ensures change == "auto" && rankName.Some? && prefixCapture(rankName.value).Some? ==>
      t == "[" + prefixCapture(rankName.value).value + "] " + ROBLOX_USERNAME
    ensures change == "auto" && (rankName.None? || prefixCapture(rankName.value).None?) ==> t == ROBLOX_USERNAME
    ensures change == "disable" ==> t == DISCORD_NAME
    ensures change == "N/A" ==> t == ROBLOX_USERNAME
    ensures change != "auto" && change != "disable" && change != "N/A" ==> t == change
  {
    if change == "auto" then
      if rankName.Some? && prefixCapture(rankName.value).Some? then "[" + prefixCapture(rankName.value).value + "] " + ROBLOX_USERNAME
      else ROBLOX_USERNAME
    else if change == "disable" then DISCORD_NAME
    else if change == "N/A" then ROBLOX_USERNAME
    else change
  }

  /** The ids the role loops read: all resolved roles per token, or each id `parse_role` reads. */
  function AnyRole(r: int): bool {
    true
  }

  /** The requested ids, each once, in the order first read. */
  function RequestedRoles(change: string, resolved: Option<seq<int>>, parse: string -> Option<int>): (ids: seq<int>)
    ensures NoDuplicates(ids)
    ensures forall x :: x in ids <==> x in Collected(SplitAsciiWhitespace(change), resolved, parse, AnyRole)
  {
    Dedup(Collected(SplitAsciiWhitespace(change), resolved, parse, AnyRole))
  }

  function NoBind(groupId: int, rankId: int): Embed {
    Failure("Rank Bind Modification Failed",
            "There was no bind found with Group Id " + IntToString(groupId) + " and Rank Id " + IntToString(rankId))
  }

  const NOT_A_NUMBER := Failure("Rank Bind Modification Failed", "Priority was not found to be a number")
  const BLANK_TEMPLATE := Failure("Rank Bind Modification Failed", "You have entered a blank template")

  /** The update the option makes to `bind`; None when the change is refused. */
  function Update(req: RankRequest, bind: BindRow, parse: string -> Option<int>, rankName: Option<string>,
                  prefixCapture: string -> Option<string>): Option<BindUpdate>
  {
    match req.option
    case Priority =>
      var p := ParseInt(req.change, I32_MIN, I32_MAX);
      if p.None? then Option.None else Some(SetPriority(p.value))
    case RolesAdd => Some(CatRoles(RequestedRoles(req.change, req.resolved, parse)))
    case RolesRemove => Some(SetRoles(Without(bind.discordRoles, RequestedRoles(req.change, req.resolved, parse))))
    case Template =>
      if req.change == [] then Option.None else Some(SetTemplate(RankTemplate(req.change, rankName, prefixCapture)))
  }

  /** The line of the reply that describes update `u` of `bind`; `ids` are the requested roles. */
  function Line(bind: BindRow, u: BindUpdate, ids: seq<int>): string {
    match u
    case SetPriority(p) => "`Priority`: " + IntToString(bind.priority) + " -> " + IntToString(p)
    case CatRoles(added) => "Added Roles: " + Mentions(added, "", " ")
    case SetRoles(_) => "Removed Roles: " + Mentions(ids, "", " ")
    case SetTemplate(t) => "`New Template`: " + t
  }

  /** The field of the reply and the log entry. */
  function ChangeField(bind: BindRow, line: string): Field {
    Field("Group Id: " + IntToString(bind.groupId), "Rank Id: " + IntToString(bind.groupRankId) + "\n" + line)
  }

  /**
   * The binds table after the handler. `rankName` is the name of the rank in
   * the Roblox group, if the group and the rank are found.
   */
  function ModifiedBinds(binds: seq<BindRow>, req: RankRequest, parse: string -> Option<int>, rankName: Option<string>,
                         prefixCapture: string -> Option<string>): seq<BindRow>
  {
    match FindRankBind(binds, req.guildId, req.groupId, req.rankId)
    case None => binds
    case Some(bind) =>
      match Update(req, bind, parse, rankName, prefixCapture)
      case None => binds
      case Some(u) => UpdateBind(binds, bind.bindId, u)
  }

  /** What the handler sends. */
  function Replies(binds: seq<BindRow>, req: RankRequest, parse: string -> Option<int>, rankName: Option<string>,
                   prefixCapture: string -> Option<string>): seq<Output>
  {
    match FindRankBind(binds, req.guildId, req.groupId, req.rankId)
    case None => [Respond(NoBind(req.groupId, req.rankId), false)]
    case Some(bind) =>
      match Update(req, bind, parse, rankName, prefixCapture)
      case None => [Respond(if req.option == Priority then NOT_A_NUMBER else BLANK_TEMPLATE, false)]
      case Some(u) =>
        var field := ChangeField(bind, Line(bind, u, RequestedRoles(req.change, req.resolved, parse)));
        [Respond(Embed(DarkGreen, "Success!", "The bind was successfully modified", [field]), false),
         GuildLog(Embed(Plain, "Action by " + req.authorName, "Rank Bind Modification", [field]))]
  }

  /**
   * The refusals: no rank bind for the group and rank, a priority that is
   * no `i32`, or an empty template each get one failure reply, and the
   * table is left as it was.
   */
  lemma RefusalsChangeNothing(binds: seq<BindRow>, req: RankRequest, parse: string -> Option<int>,
                              rankName: Option<string>, prefixCapture: string -> Option<string>)
    ensures var found := FindRankBind(binds, req.guildId, req.groupId, req.rankId);
      var after := ModifiedBinds(binds, req, parse, rankName, prefixCapture);
      var sent := Replies(binds, req, parse, rankName, prefixCapture);
      (found.None? ==> after == binds && sent == [Respond(NoBind(req.groupId, req.rankId), false)])
      && (found.Some? && req.option == Priority && ParseInt(req.change, I32_MIN, I32_MAX).None? ==>
          after == binds && sent == [Respond(NOT_A_NUMBER, false)])
      && (found.Some? && req.option == Template && req.change == [] ==>
          after == binds && sent == [Respond(BLANK_TEMPLATE, false)])
  {
  }

  /** The row at i after the update of the rows with `bindId`. */
  lemma BoundAt(rows: seq<BindRow>, bindId: int, u: BindUpdate, i: nat)
    requires i < |rows|
    ensures |UpdateBind(rows, bindId, u)| == |rows|
    ensures UpdateBind(rows, bindId, u)[i] == if rows[i].bindId == bindId then ApplyUpdate(rows[i], u) else rows[i]
  {
  }

  /**
   * Whatever the option, only the rows of the found bind can change
   * (`bind_id` is unique, so that is one row), and they keep their guild,
   * group and rank.
   */
  lemma {:induction false} OnlyTheBindChanges(binds: seq<BindRow>, req: RankRequest, parse: string -> Option<int>,
                                              rankName: Option<string>, prefixCapture: string -> Option<string>, i: nat)
    requires i < |binds|
    requires FindRankBind(binds, req.guildId, req.groupId, req.rankId).Some?
    ensures var after := ModifiedBinds(binds, req, parse, rankName, prefixCapture);
      var bind := FindRankBind(binds, req.guildId, req.groupId, req.rankId).value;
      |after| == |binds|
      && (binds[i].bindId != bind.bindId ==> after[i] == binds[i])
      && after[i].bindId == binds[i].bindId && after[i].guildId == binds[i].guildId
      && after[i].groupId == binds[i].groupId && after[i].groupRankId == binds[i].groupRankId
  {
    var bind := FindRankBind(binds, req.guildId, req.groupId, req.rankId).value;
    var u := Update(req, bind, parse, rankName, prefixCapture);
    if u.Some? {
      BoundAt(binds, bind.bindId, u.value, i);
    }
  }

  /** An accepted change is the update `Update` names, applied to the rows of the found bind. */
  lemma UpdatedBy(binds: seq<BindRow>, req: RankRequest, parse: string -> Option<int>,
                  rankName: Option<string>, prefixCapture: string -> Option<string>, i: nat)
    requires i < |binds|
    requires FindRankBind(binds, req.guildId, req.groupId, req.rankId).Some?
    requires binds[i].bindId == FindRankBind(binds, req.guildId, req.groupId, req.rankId).value.bindId
    requires Update(req, FindRankBind(binds, req.guildId, req.groupId, req.rankId).value, parse, rankName, prefixCapture).Some?
    ensures var bind := FindRankBind(binds, req.guildId, req.groupId, req.rankId).value;
      var u := Update(req, bind, parse, rankName, prefixCapture).value;
      |ModifiedBinds(binds, req, parse, rankName, prefixCapture)| == |binds|
      && ModifiedBinds(binds, req, parse, rankName, prefixCapture)[i] == ApplyUpdate(binds[i], u)
  {
    var bind := FindRankBind(binds, req.guildId, req.groupId, req.rankId).value;
    BoundAt(binds, bind.bindId, Update(req, bind, parse, rankName, prefixCapture).value, i);
  }

  /** A priority that parses as an `i32` is stored as that number. */
  lemma PriorityIsStored(binds: seq<BindRow>, req: RankRequest, parse: string -> Option<int>,
                         rankName: Option<string>, prefixCapture: string -> Option<string>, i: nat)
    requires i < |binds| && req.option == Priority && ParseInt(req.change, I32_MIN, I32_MAX).Some?
    requires FindRankBind(binds, req.guildId, req.groupId, req.rankId).Some?
    requires binds[i].bindId == FindRankBind(binds, req.guildId, req.groupId, req.rankId).value.bindId
    ensures var after := ModifiedBinds(binds, req, parse, rankName, prefixCapture);
      |after| == |binds| && after[i] == binds[i].(priority := ParseInt(req.change, I32_MIN, I32_MAX).value)
  {
    UpdatedBy(binds, req, parse, rankName, prefixCapture, i);
  }

  /** A template that is not empty is stored as `RankTemplate` maps it. */
  lemma TemplateIsStored(binds: seq<BindRow>, req: RankRequest, parse: string -> Option<int>,
                         rankName: Option<string>, prefixCapture: string -> Option<string>, i: nat)
    requires i < |binds| && req.option == Template && req.change != []
    requires FindRankBind(binds, req.guildId, req.groupId, req.rankId).Some?
    requires binds[i].bindId == FindRankBind(binds, req.guildId, req.groupId, req.rankId).value.bindId
    ensures var after := ModifiedBinds(binds, req, parse, rankName, prefixCapture);
      |after| == |binds| && after[i] == binds[i].(template := RankTemplate(req.change, rankName, prefixCapture))
  {
    UpdatedBy(binds, req, parse, rankName, prefixCapture, i);
  }

  /**
   * roles-add appends the requested ids, each once, to the roles the row
   * holds, without checking which it holds already.
   */
  lemma RolesAreAppended(binds: seq<BindRow>, req: RankRequest, parse: string -> Option<int>,
                         rankName: Option<string>, prefixCapture: string -> Option<string>, i: nat)
    requires i < |binds| && req.option == RolesAdd
    requires FindRankBind(binds, req.guildId, req.groupId, req.rankId).Some?
    requires binds[i].bindId == FindRankBind(binds, req.guildId, req.groupId, req.rankId).value.bindId
    ensures var after := ModifiedBinds(binds, req, parse, rankName, prefixCapture);
      |after| == |binds|
      && after[i] == binds[i].(discordRoles := binds[i].discordRoles + RequestedRoles(req.change, req.resolved, parse))
  {
    UpdatedBy(binds, req, parse, rankName, prefixCapture, i);
  }

  /**
   * roles-remove stores the roles the found bind had, with every requested
   * id gone and the others in their order.
   */
  lemma RolesAreRemoved(binds: seq<BindRow>, req: RankRequest, parse: string -> Option<int>,
                        rankName: Option<string>, prefixCapture: string -> Option<string>, i: nat)
    requires i < |binds| && req.option == RolesRemove
    requires FindRankBind(binds, req.guildId, req.groupId, req.rankId).Some?
    requires binds[i].bindId == FindRankBind(binds, req.guildId, req.groupId, req.rankId).value.bindId
    ensures var bind := FindRankBind(binds, req.guildId, req.groupId, req.rankId).value;
      var ids := RequestedRoles(req.change, req.resolved, parse);
      var after := ModifiedBinds(binds, req, parse, rankName, prefixCapture);
      |after| == |binds| && after[i].discordRoles == Without(bind.discordRoles, ids)
      && forall x :: x in after[i].discordRoles <==> x in bind.discordRoles && x !in ids
  {
    var bind := FindRankBind(binds, req.guildId, req.groupId, req.rankId).value;
    var ids := RequestedRoles(req.change, req.resolved, parse);
    assert Update(req, bind, parse, rankName, prefixCapture) == Some(SetRoles(Without(bind.discordRoles, ids)));
    UpdatedBy(binds, req, parse, rankName, prefixCapture, i);
  }

  /** On success the reply and the log entry carry the same field: the group id, the rank id, and what changed. */
  lemma SuccessReply(binds: seq<BindRow>, req: RankRequest, parse: string -> Option<int>,
                     rankName: Option<string>, prefixCapture: string -> Option<string>)
    requires FindRankBind(binds, req.guildId, req.groupId, req.rankId).Some?
    requires req.option == Priority ==> ParseInt(req.change, I32_MIN, I32_MAX).Some?
    requires req.option == Template ==> req.change != []
    ensures var sent := Replies(binds, req, parse, rankName, prefixCapture);
      |sent| == 2 && sent[0].Respond? && sent[1].GuildLog?
      && sent[0].embed.fields == sent[1].embed.fields
      && |sent[0].embed.fields| == 1
      && sent[0].embed.fields[0].name == "Group Id: " + IntToString(req.groupId)
      && "Rank Id: " + IntToString(req.rankId) + "\n" <= sent[0].embed.fields[0].value
  {
    var bind := FindRankBind(binds, req.guildId, req.groupId, req.rankId).value;
    var u := Update(req, bind, parse, rankName, prefixCapture).value;
    var line := Line(bind, u, RequestedRoles(req.change, req.resolved, parse));
    var prefix := "Rank Id: " + IntToString(req.rankId) + "\n";
    assert prefix + line == ChangeField(bind, line).value;
    assert prefix <= prefix + line;
  }

  /** `rankbinds_modify`. */
  method RankbindsModify(bot: Bot, req: RankRequest, parse: string -> Option<int>, rankName: Option<string>,
                         prefixCapture: string -> Option<string>)
    modifies bot
    ensures bot.binds == ModifiedBinds(old(bot.binds), req, parse, rankName, prefixCapture)
    ensures bot.outputs == old(bot.outputs) + Replies(old(bot.binds), req, parse, rankName, prefixCapture)
    ensures bot.guilds == old(bot.guilds) && bot.guildRows == old(bot.guildRows)
    ensures bot.trainerRoles == old(bot.trainerRoles) && bot.bypassRoles == old(bot.bypassRoles)
    ensures bot.ignoreComponents == old(bot.ignoreComponents)
  {
    var found := FindRankBind(bot.binds, req.guildId, req.groupId, req.rankId);
    if found.None? {
      bot.Send(Respond(NoBind(req.groupId, req.rankId), false));
      return;
    }
    var bind := found.value;
    var line := ApplyOption(bot, bind, req, parse, rankName, prefixCapture);
    if line.None? {
      bot.Send(Respond(if req.option == Priority then NOT_A_NUMBER else BLANK_TEMPLATE, false));
      return;
    }
    var field := ChangeField(bind, line.value);
    bot.Send(Respond(Embed(DarkGreen, "Success!", "The bind was successfully modified", [field]), false));
    bot.Send(GuildLog(Embed(Plain, "Action by " + req.authorName, "Rank Bind Modification", [field])));
  }

  /**
   * The branch of `rankbinds_modify` for the option: store the change to
   * `bind` and return the line that describes it, or None when the change is
   * refused.
   */
  method ApplyOption(bot: Bot, bind: BindRow, req: RankRequest, parse: string -> Option<int>, rankName: Option<string>,
                     prefixCapture: string -> Option<string>) returns (line: Option<string>)
    modifies bot
    ensures var u := Update(req, bind, parse, rankName, prefixCapture);
      (u.None? ==> line.None? && bot.binds == old(bot.binds))
      && (u.Some? ==> (line == Some(Line(bind, u.value, RequestedRoles(req.change, req.resolved, parse)))
                       && bot.binds == UpdateBind(old(bot.binds), bind.bindId, u.value)))
    ensures bot.outputs == old(bot.outputs) && bot.guilds == old(bot.guilds) && bot.guildRows == old(bot.guildRows)
    ensures bot.trainerRoles == old(bot.trainerRoles) && bot.bypassRoles == old(bot.bypassRoles)
    ensures bot.ignoreComponents == old(bot.ignoreComponents)
  {
    ghost var u := Update(req, bind, parse, rankName, prefixCapture);
    match req.option {
      case Priority =>
        var p := ParseInt(req.change, I32_MIN, I32_MAX);
        if p.None? {
          return Option.None;
        }
        assert u == Some(SetPriority(p.value));
        bot.binds := UpdateBind(bot.binds, bind.bindId, SetPriority(p.value));
        line := Some("`Priority`: " + IntToString(bind.priority) + " -> " + IntToString(p.value));
      case RolesAdd =>
        var ids := AddRoles(bot, bind, req.change, req.resolved, parse);
        assert u == Some(CatRoles(ids));
        line := Some("Added Roles: " + Mentions(ids, "", " "));
      case RolesRemove =>
        var ids := RemoveRoles(bot, bind, req.change, req.resolved, parse);
        assert u == Some(SetRoles(Without(bind.discordRoles, ids)));
        line := Some("Removed Roles: " + Mentions(ids, "", " "));
      case Template =>
        if req.change == [] {
          return Option.None;
        }
        var t := RankTemplate(req.change, rankName, prefixCapture);
        assert u == Some(SetTemplate(t));
        bot.binds := UpdateBind(bot.binds, bind.bindId, SetTemplate(t));
        line := Some("`New Template`: " + t);
    }
  }

  /** `add_roles`: read the ids, drop repeats, append them to the bind's roles. */
  method AddRoles(bot: Bot, bind: BindRow, change: string, resolved: Option<seq<int>>, parse: string -> Option<int>)
    returns (ids: seq<int>)
    modifies bot
    ensures ids == RequestedRoles(change, resolved, parse)
    ensures bot.binds == UpdateBind(old(bot.binds), bind.bindId, CatRoles(ids))
    ensures bot.outputs == old(bot.outputs) && bot.guilds == old(bot.guilds) && bot.guildRows == old(bot.guildRows)
    ensures bot.trainerRoles == old(bot.trainerRoles) && bot.bypassRoles == old(bot.bypassRoles)
    ensures bot.ignoreComponents == old(bot.ignoreComponents)
  {
    var read := CollectRoles(SplitAsciiWhitespace(change), resolved, parse, AnyRole);
    ids := Dedup(read);
    bot.binds := UpdateBind(bot.binds, bind.bindId, CatRoles(ids));
  }

  /** `remove_roles`: read the ids, drop repeats, store the roles the bind had without them. */
  method RemoveRoles(bot: Bot, bind: BindRow, change: string, resolved: Option<seq<int>>, parse: string -> Option<int>)
    returns (ids: seq<int>)
    modifies bot
    ensures ids == RequestedRoles(change, resolved, parse)
    ensures bot.binds == UpdateBind(old(bot.binds), bind.bindId, SetRoles(Without(bind.discordRoles, ids)))
    ensures bot.outputs == old(bot.outputs) && bot.guilds == old(bot.guilds) && bot.guildRows == old(bot.guildRows)
    ensures bot.trainerRoles == old(bot.trainerRoles) && bot.bypassRoles == old(bot.bypassRoles)
    ensures bot.ignoreComponents == old(bot.ignoreComponents)
  {
    var read := CollectRoles(SplitAsciiWhitespace(change), resolved, parse, AnyRole);
    ids := Dedup(read);
    var keep := RetainAbsent(bind.discordRoles, ids);
    bot.binds := UpdateBind(bot.binds, bind.bindId, SetRoles(keep));
  }
}

=== FILE: role_settings.dfy ===
/**
 * What the trainer-role and bypass-role settings handlers
 * (rowifi/src/commands/settings/trainer.rs and bypass.rs) have in common:
 * the Premium-only refusal, the role list of their replies, the requested
 * ids, and the in-memory cache entry they read and extend.
 */
module RoleSettings {
  import opened Wrappers
  import opened Text
  import opened Seqs
  import opened Errors
  import opened BotState

  const PREMIUM_ONLY := Failure("Command Failed", "This command is only available on Premium servers")
  const MODIFIED := "Settings Modification Successful"

  /**
   * A handler's inputs: the guild, the roles text, the roles resolved with
   * an interaction, and the ids of the guild's roles in the cache.
   */
  datatype RolesRequest = RolesRequest(guildId: int, text: string, resolved: Option<seq<int>>, serverRoles: set<int>)

  /** `entry(guild_id).or_default()`: the cached list, empty when there is none. */
  function Cached(cache: map<int, seq<int>>, guildId: int): seq<int> {
    if guildId in cache then cache[guildId] else []
  }

  /** A reply's role list: a line `- <@&id>` per id. */
  function RoleLines(ids: seq<int>): string {
    Mentions(ids, "- ", "\n")
  }

  /** The role list of a view reply: the lines, or "None" when there are none. */
  function Listing(ids: seq<int>): string {
    var lines := RoleLines(ids);
    if lines == [] then "None" else lines
  }

  /** A view says "None" exactly when no role is stored, and otherwise starts with the first role's line. */
  lemma ListingNoneIffEmpty(ids: seq<int>)
    ensures Listing(ids) == "None" <==> ids == []
    ensures ids != [] ==> "- <@&" + IntToString(ids[0]) + ">\n" <= Listing(ids)
  {
    if ids != [] {
      var first := "- <@&" + IntToString(ids[0]) + ">\n";
      MentionsStartWithFirst(ids, "- ", "\n");
      assert first[0] == '-';
    }
  }

  /** `add` and `set` keep ids of the guild's roles; resolved roles are taken as they are. */
  function InServer(serverRoles: set<int>): int -> bool {
    r => r in serverRoles
  }

  /** Every id `remove` reads is kept. */
  function AnyRole(r: int): bool {
    true
  }

  /** The ids `add` and `set` read, each once, in the order first read. */
  function Requested(req: RolesRequest, parse: string -> Option<int>): (ids: seq<int>)
    ensures NoDuplicates(ids)
    ensures forall x :: x in ids <==> x in Collected(SplitAsciiWhitespace(req.text), req.resolved, parse, InServer(req.serverRoles))
  {
    Dedup(Collected(SplitAsciiWhitespace(req.text), req.resolved, parse, InServer(req.serverRoles)))
  }

  /** The ids `remove` reads, in order, repeats kept. */
  function Listed(req: RolesRequest, parse: string -> Option<int>): seq<int> {
    Collected(SplitAsciiWhitespace(req.text), req.resolved, parse, AnyRole)
  }

  /** What `add` appends: the requested ids not cached yet, in order, each once. */
  function ToAdd(requested: seq<int>, cached: seq<int>): (r: seq<int>)
    ensures forall x :: x in r <==> x in requested && x !in cached
    ensures NoDuplicates(requested) ==> NoDuplicates(r)
  {
    WithoutKeepsDistinct(requested, cached);
    Without(requested, cached)
  }

  /** Adding the same ids again, to the list the first addition left, adds nothing. */
  lemma AddingAgainAddsNothing(requested: seq<int>, cached: seq<int>)
    ensures ToAdd(requested, cached + ToAdd(requested, cached)) == []
  {
    WithoutAllListed(requested, cached + ToAdd(requested, cached));
  }

  /** A cached list without repeats keeps none after the addition. */
  lemma AdditionKeepsDistinct(requested: seq<int>, cached: seq<int>)
    requires NoDuplicates(requested) && NoDuplicates(cached)
    ensures NoDuplicates(cached + ToAdd(requested, cached))
  {
    DistinctConcat(cached, ToAdd(requested, cached));
  }

  /** The ids `add` and `set` collect: read, deduplicated in order. */
  method ReadRequested(req: RolesRequest, parse: string -> Option<int>) returns (ids: seq<int>)
    ensures ids == Requested(req, parse)
  {
    var read := CollectRoles(SplitAsciiWhitespace(req.text), req.resolved, parse, InServer(req.serverRoles));
    ids := Dedup(read);
  }

  /** What `add` appends: the requested ids, with those already cached retained out. */
  method ReadToAdd(req: RolesRequest, parse: string -> Option<int>, cached: seq<int>) returns (ids: seq<int>)
    ensures ids == ToAdd(Requested(req, parse), cached)
  {
    ids := ReadRequested(req, parse);
    ids := RetainAbsent(ids, cached);
  }

  /** The guild rows, the cache, what was sent, and the result of a handler. */
  datatype Outcome = Outcome(rows: map<int, GuildRow>, cache: map<int, seq<int>>, sent: seq<Output>, result: Result<(), RoError>)

  /**
   * What every handler does before its own work: fail with the lookup's
   * error `missing` when the guild has no row, refuse a Free guild; None
   * when the handler goes on.
   */
  function Gate(rows: map<int, GuildRow>, cache: map<int, seq<int>>, guildId: int, missing: RoError): Option<Outcome> {
    if guildId !in rows then Some(Outcome(rows, cache, [], Err(missing)))
    else if rows[guildId].kind == Free then Some(Outcome(rows, cache, [Respond(PREMIUM_ONLY, false)], Ok(())))
    else Option.None
  }

  function Modified(description: string): Output {
    Respond(Embed(DarkGreen, MODIFIED, description, []), false)
  }

  /**
   * The guild lookup and the Premium check each handler starts with: stop
   * with the lookup's error when the guild has no row, reply with the
   * refusal and stop on a Free guild, go on otherwise.
   */
  method CheckPremium(bot: Bot, guildId: int, missing: RoError) returns (stop: Option<Result<(), RoError>>)
    modifies bot
    ensures guildId !in old(bot.guildRows) ==> stop == Some(Err(missing)) && bot.outputs == old(bot.outputs)
    ensures guildId in old(bot.guildRows) && old(bot.guildRows)[guildId].kind == Free ==>
      stop == Some(Ok(())) && bot.outputs == old(bot.outputs) + [Respond(PREMIUM_ONLY, false)]
    ensures guildId in old(bot.guildRows) && old(bot.guildRows)[guildId].kind == Premium ==>
      stop == Option.None && bot.outputs == old(bot.outputs)
    ensures bot.guilds == old(bot.guilds) && bot.binds == old(bot.binds) && bot.guildRows == old(bot.guildRows)
    ensures bot.trainerRoles == old(bot.trainerRoles) && bot.bypassRoles == old(bot.bypassRoles)
    ensures bot.ignoreComponents == old(bot.ignoreComponents)
  {
    if guildId !in bot.guildRows {
      return Some(Err(missing));
    }
    if bot.guildRows[guildId].kind == Free {
      bot.Send(Respond(PREMIUM_ONLY, false));
      return Some(Ok(()));
    }
    return Option.None;
  }
}

=== FILE: seqs.dfy ===
/**
 * The two list operations the command handlers use over and over:
 * `Itertools::unique` (drop repeats, keeping first occurrences) and
 * `Vec::retain(|r| !ids.contains(r))` (drop every listed element).
 */
module Seqs {

  predicate NoDuplicates<T(==,!new)>(s: seq<T>) {
    forall i, j :: 0 <= i < j < |s| ==> s[i] != s[j]
  }

  /** Index of the first occurrence of `x` in `s`. */
  function FirstIndex<T(==,!new)>(s: seq<T>, x: T): (i: nat)
    requires x in s
    ensures i < |s| && s[i] == x && x !in s[..i]
  {
    if s[0] == x then 0
    else
      var k := FirstIndex(s[1..], x);
      assert s[..1 + k] == [s[0]] + s[1..][..k];
      1 + k
  }

  /**
   * `Itertools::unique`: every element of `s` exactly once, in the order of
   * first occurrences (see DedupKeepsFirstOccurrenceOrder).
   */
  function Dedup<T(==,!new)>(s: seq<T>): (r: seq<T>)
    ensures forall x :: x in r <==> x in s
    ensures NoDuplicates(r)
    ensures |r| <= |s|
    decreases |s|
  {
    if s == [] then []
    else
      var d := Dedup(s[..|s| - 1]);
      assert forall x :: x in s <==> x in s[..|s| - 1] || x == s[|s| - 1] by {
        assert s == s[..|s| - 1] + [s[|s| - 1]];
      }
      if s[|s| - 1] in d then d else d + [s[|s| - 1]]
  }

  lemma {:induction false} FirstIndexAppend<T(!new)>(p: seq<T>, x: T, y: T)
    requires y in p
    ensures y in p + [x] && FirstIndex(p + [x], y) == FirstIndex(p, y)
    decreases |p|
  {
    if p[0] != y {
      assert (p + [x])[1..] == p[1..] + [x];
      FirstIndexAppend(p[1..], x, y);
    }
  }

  lemma FirstIndexOfNew<T(!new)>(p: seq<T>, x: T)
    requires x !in p
    ensures x in p + [x] && FirstIndex(p + [x], x) == |p|
  {
  }

  /**
   * The result of Dedup lists the elements in the order in which they
   * first occur in the input. With the two facts Dedup itself ensures, this
   * determines the result completely.
   */
  lemma {:induction false} DedupKeepsFirstOccurrenceOrder<T(!new)>(s: seq<T>)
    ensures forall i, j :: 0 <= i < j < |Dedup(s)| ==>
      FirstIndex(s, Dedup(s)[i]) < FirstIndex(s, Dedup(s)[j])
    decreases |s|
  {
    if s != [] {
      var p, x := s[..|s| - 1], s[|s| - 1];
      assert s == p + [x];
      DedupKeepsFirstOccurrenceOrder(p);
      var d := Dedup(p);
      forall y | y in d ensures FirstIndex(s, y) == FirstIndex(p, y) {
        FirstIndexAppend(p, x, y);
      }
      if x !in d {
        FirstIndexOfNew(p, x);
        forall i, j | 0 <= i < j < |Dedup(s)|
          ensures FirstIndex(s, Dedup(s)[i]) < FirstIndex(s, Dedup(s)[j])
        {
          if j == |d| {
            assert FirstIndex(s, Dedup(s)[i]) == FirstIndex(p, d[i]) < |p|;
          } else {
            assert Dedup(s)[i] == d[i] && Dedup(s)[j] == d[j];
          }
        }
      }
    }
  }

  /** A list without repeats is left as it is. */
  lemma {:induction false} DedupOfDistinct<T(!new)>(s: seq<T>)
    requires NoDuplicates(s)
    ensures Dedup(s) == s
    decreases |s|
  {
    if s != [] {
      var p := s[..|s| - 1];
      DedupOfDistinct(p);
      assert s[|s| - 1] !in p;
      assert s == p + [s[|s| - 1]];
    }
  }

  /** Applying Dedup twice is the same as applying it once. */
  lemma DedupIdempotent<T(!new)>(s: seq<T>)
    ensures Dedup(Dedup(s)) == Dedup(s)
  {
    DedupOfDistinct(Dedup(s));
  }

  /**
   * `Vec::retain(|r| !xs.contains(r))`, and MongoDB's `$pullAll`: the
   * elements of `s` that are not in `xs`, each kept as often as it occurs.
   */
  function Without<T(==,!new)>(s: seq<T>, xs: seq<T>): (r: seq<T>)
    ensures forall x :: x in r <==> x in s && x !in xs
    ensures |r| <= |s|
    decreases |s|
  {
    if s == [] then []
    else
      (if s[0] in xs then [] else [s[0]]) + Without(s[1..], xs)
  }

  /** Every occurrence of a listed element goes; every other element keeps its count. */
  lemma {:induction false} WithoutCounts<T(!new)>(s: seq<T>, xs: seq<T>, x: T)
    ensures multiset(Without(s, xs))[x] == if x in xs then 0 else multiset(s)[x]
    decreases |s|
  {
    if s != [] {
      WithoutCounts(s[1..], xs, x);
      assert s == [s[0]] + s[1..];
    }
  }

  /** Removing works piecewise: the kept elements stay in their order. */
  lemma {:induction false} WithoutConcat<T(!new)>(a: seq<T>, b: seq<T>, xs: seq<T>)
    ensures Without(a + b, xs) == Without(a, xs) + Without(b, xs)
    decreases |a|
  {
    if a != [] {
      var head := if a[0] in xs then [] else [a[0]];
      assert (a + b)[0] == a[0] && (a + b)[1..] == a[1..] + b;
      assert Without(a + b, xs) == head + Without(a[1..] + b, xs);
      WithoutConcat(a[1..], b, xs);
      assert Without(a, xs) == head + Without(a[1..], xs);
    } else {
      assert a + b == b;
    }
  }

  /** When nothing listed occurs, nothing is removed. */
  lemma {:induction false} WithoutNothingListed<T(!new)>(s: seq<T>, xs: seq<T>)
    requires forall x :: x in s ==> x !in xs
    ensures Without(s, xs) == s
    decreases |s|
  {
    if s != [] {
      WithoutNothingListed(s[1..], xs);
      assert s == [s[0]] + s[1..];
    }
  }

  /** Concatenation is associative; stated once so that long output logs regroup cheaply. */
  lemma ConcatAssociates<T>(a: seq<T>, b: seq<T>, c: seq<T>)
    ensures (a + b) + c == a + (b + c)
  {
  }

  /** Dropping elements keeps a list free of repeats. */
  lemma {:induction false} WithoutKeepsDistinct<T(!new)>(s: seq<T>, xs: seq<T>)
    ensures NoDuplicates(s) ==> NoDuplicates(Without(s, xs))
    decreases |s|
  {
    if s != [] && NoDuplicates(s) {
      assert NoDuplicates(s[1..]) by {
        forall i, j | 0 <= i < j < |s[1..]| ensures s[1..][i] != s[1..][j] {
          assert s[1..][i] == s[i + 1] && s[1..][j] == s[j + 1];
        }
      }
      WithoutKeepsDistinct(s[1..], xs);
      var rest := Without(s[1..], xs);
      if s[0] !in xs {
        assert s[0] !in s[1..];
        assert s[0] !in rest;
        forall i, j | 0 <= i < j < |[s[0]] + rest| ensures ([s[0]] + rest)[i] != ([s[0]] + rest)[j] {
          if i == 0 {
            assert ([s[0]] + rest)[j] == rest[j - 1];
            assert rest[j - 1] in rest;
          } else {
            assert ([s[0]] + rest)[i] == rest[i - 1] && ([s[0]] + rest)[j] == rest[j - 1];
          }
        }
      } else {
        assert [] + rest == rest;
      }
    }
  }

  /** When every element is listed, nothing is left. */
  lemma WithoutAllListed<T(!new)>(s: seq<T>, xs: seq<T>)
    requires forall x :: x in s ==> x in xs
    ensures Without(s, xs) == []
  {
  }

  /** Two lists without repeats and without a common element join into one without repeats. */
  lemma DistinctConcat<T(!new)>(a: seq<T>, b: seq<T>)
    requires NoDuplicates(a) && NoDuplicates(b)
    requires forall x :: x in b ==> x !in a
    ensures NoDuplicates(a + b)
  {
    forall i, j | 0 <= i < j < |a + b| ensures (a + b)[i] != (a + b)[j] {
      if i < |a| && j >= |a| {
        assert (a + b)[j] == b[j - |a|] && b[j - |a|] in b;
      }
    }
  }
}

=== FILE: text.dfy ===
/**
 * The pieces of Rust's string library that the bot's code relies on:
 * ASCII whitespace splitting, ASCII case folding, substring search,
 * integer parsing (`str::parse::<i32>()` and friends) and decimal display.
 */
module Text {
  import opened Wrappers

  /** `u8::is_ascii_whitespace`: space, tab, line feed, form feed and carriage return. */
  predicate IsAsciiWhitespace(c: char) {
    c == ' ' || c == '\t' || c == '\n' || c == 12 as char || c == '\r'
  }

  /**
   * `char::is_whitespace`: the characters with the Unicode White_Space
   * property.
   */
  predicate IsWhitespace(c: char) {
    (9 as char <= c <= 13 as char) || c == ' ' || c == 0x85 as char || c == 0xA0 as char
    || c == 0x1680 as char || (0x2000 as char <= c <= 0x200A as char)
    || c == 0x2028 as char || c == 0x2029 as char || c == 0x202F as char
    || c == 0x205F as char || c == 0x3000 as char
  }

  predicate NoAsciiWhitespace(s: string) {
    forall i :: 0 <= i < |s| ==> !IsAsciiWhitespace(s[i])
  }

  predicate AllAsciiWhitespace(s: string) {
    forall i :: 0 <= i < |s| ==> IsAsciiWhitespace(s[i])
  }

  /** Length of the run of non-whitespace characters that starts `s`. */
  function TokenLength(s: string): (n: nat)
    requires s != [] && !IsAsciiWhitespace(s[0])
    ensures 1 <= n <= |s|
    ensures NoAsciiWhitespace(s[..n])
    ensures n == |s| || IsAsciiWhitespace(s[n])
  {
    if |s| == 1 || IsAsciiWhitespace(s[1]) then 1
    else
      var m := TokenLength(s[1..]);
      assert s[..1 + m] == [s[0]] + s[1..][..m];
      1 + m
  }

  /**
   * `str::split_ascii_whitespace`: the maximal runs of non-whitespace
   * characters of `s`, in order. Every token is non-empty and free of
   * whitespace, and there is no token exactly when `s` is all whitespace.
   */
  function SplitAsciiWhitespace(s: string): (tokens: seq<string>)
    ensures forall i :: 0 <= i < |tokens| ==> tokens[i] != [] && NoAsciiWhitespace(tokens[i])
    ensures tokens == [] <==> AllAsciiWhitespace(s)
    decreases |s|
  {
    if s == [] then []
    else if IsAsciiWhitespace(s[0]) then
      var rest := SplitAsciiWhitespace(s[1..]);
      assert AllAsciiWhitespace(s) <==> AllAsciiWhitespace(s[1..]) by {
        if AllAsciiWhitespace(s[1..]) {
          forall i | 0 <= i < |s| ensures IsAsciiWhitespace(s[i]) {
            if i > 0 { assert s[i] == s[1..][i - 1]; }
          }
        }
      }
      rest
    else
      var n := TokenLength(s);
      [s[..n]] + SplitAsciiWhitespace(s[n..])
  }

  /** `char::to_ascii_lowercase`: only 'A'..'Z' change. */
  function AsciiLowerChar(c: char): char {
    if 'A' <= c <= 'Z' then (c as int + 32) as char else c
  }

  /** `str::to_ascii_lowercase`. */
  function AsciiLower(s: string): (r: string)
    ensures |r| == |s|
    ensures forall i :: 0 <= i < |s| ==> r[i] == AsciiLowerChar(s[i])
  {
    seq(|s|, i requires 0 <= i < |s| => AsciiLowerChar(s[i]))
  }

  /** `str::eq_ignore_ascii_case`. */
  predicate EqIgnoreAsciiCase(a: string, b: string) {
    AsciiLower(a) == AsciiLower(b)
  }

  predicate OccursAt(haystack: string, needle: string, i: nat) {
    i + |needle| <= |haystack| && haystack[i..i + |needle|] == needle
  }

  function FindFrom(haystack: string, needle: string, k: nat): (r: Option<nat>)
    ensures r.Some? ==> k <= r.value && OccursAt(haystack, needle, r.value)
    ensures r.Some? ==> forall j :: k <= j < r.value ==> !OccursAt(haystack, needle, j)
    ensures r.None? ==> forall j :: k <= j ==> !OccursAt(haystack, needle, j)
    decreases |haystack| - k
  {
    if k + |needle| > |haystack| then None
    else if haystack[k..k + |needle|] == needle then Some(k)
    else FindFrom(haystack, needle, k + 1)
  }

  /** `str::find`: the index of the first occurrence of `needle`, if any. */
  function Find(haystack: string, needle: string): (r: Option<nat>)
    ensures r.Some? ==> OccursAt(haystack, needle, r.value)
    ensures r.Some? ==> forall j: nat :: j < r.value ==> !OccursAt(haystack, needle, j)
    ensures r.None? ==> forall j: nat :: !OccursAt(haystack, needle, j)
  {
    FindFrom(haystack, needle, 0)
  }

  /** `str::repeat` of a one-character string. */
  function Repeat(c: char, n: nat): (r: string)
    ensures |r| == n
    ensures forall i :: 0 <= i < n ==> r[i] == c
  {
    seq(n, _ => c)
  }

  predicate AllAscii(s: string) {
    forall i :: 0 <= i < |s| ==> s[i] as int < 0x80
  }

  /** How many bytes the UTF-8 encoding of `c` takes. */
  function Utf8Width(c: char): (w: nat)
    ensures 1 <= w <= 4
    ensures w == 1 <==> c as int < 0x80
  {
    if c as int < 0x80 then 1
    else if c as int < 0x800 then 2
    else if c as int < 0x1_0000 then 3
    else 4
  }

  /**
   * `str::len`: the length of `s` in UTF-8 bytes. It is never less than
   * the number of characters, and equal to it exactly for ASCII text.
   */
  function Utf8Length(s: string): (n: nat)
    ensures |s| <= n <= 4 * |s|
    ensures n == |s| <==> AllAscii(s)
  {
    if s == [] then 0
    else
      assert AllAscii(s) <==> s[0] as int < 0x80 && AllAscii(s[1..]) by {
        assert forall i :: 1 <= i < |s| ==> s[i] == s[1..][i - 1];
      }
      Utf8Width(s[0]) + Utf8Length(s[1..])
  }

  /** `bool`'s `Display`. */
  function BoolToString(b: bool): string {
    if b then "true" else "false"
  }

  predicate IsDigit(c: char) {
    '0' <= c <= '9'
  }

  predicate AllDigits(s: string) {
    forall i :: 0 <= i < |s| ==> IsDigit(s[i])
  }

  function DigitChar(d: nat): (c: char)
    requires d < 10
    ensures IsDigit(c) && c as int - '0' as int == d
  {
    ('0' as int + d) as char
  }

  /** The value of a string of decimal digits. */
  function DigitsValue(s: string): nat
    requires AllDigits(s)
    decreases |s|
  {
    if s == [] then 0
    else DigitsValue(s[..|s| - 1]) * 10 + (s[|s| - 1] as int - '0' as int)
  }

  /** Decimal display of a natural number, without leading zeros. */
  function NatToString(n: nat): (s: string)
    decreases n
  {
    if n < 10 then [DigitChar(n)] else NatToString(n / 10) + [DigitChar(n % 10)]
  }

  /** `Display` of a Rust integer: an optional minus sign, then the digits. */
  function IntToString(n: int): string {
    if n < 0 then "-" + NatToString(-n) else NatToString(n)
  }

  /**
   * `str::parse` for a signed integer type whose values are `lo..=hi`
   * (`i32`, `i64`): an optional '+' or '-', at least one digit and nothing
   * else, and a value in range; anything else is a parse error.
   */
  function ParseInt(s: string, lo: int, hi: int): (r: Option<int>)
    ensures r.Some? ==> lo <= r.value <= hi
    ensures s == [] ==> r.None?
  {
    if s == [] then None
    else
      var digits := if s[0] == '-' || s[0] == '+' then s[1..] else s;
      if digits == [] || !AllDigits(digits) then None
      else
        var v: int := if s[0] == '-' then -(DigitsValue(digits) as int) else DigitsValue(digits);
        if lo <= v <= hi then Some(v) else None
  }

  const I32_MIN := -0x8000_0000
  const I32_MAX := 0x7fff_ffff
  const I64_MIN := -0x8000_0000_0000_0000
  const I64_MAX := 0x7fff_ffff_ffff_ffff

  lemma {:induction false} NatToStringDigits(n: nat)
    ensures NatToString(n) != [] && AllDigits(NatToString(n))
    ensures DigitsValue(NatToString(n)) == n
    decreases n
  {
    if n >= 10 {
      NatToStringDigits(n / 10);
      var s := NatToString(n / 10) + [DigitChar(n % 10)];
      assert s[..|s| - 1] == NatToString(n / 10);
    }
  }

  /** Parsing the decimal display of an in-range integer gives it back. */
  lemma ParseIntToString(n: int, lo: int, hi: int)
    requires lo <= n <= hi
    ensures ParseInt(IntToString(n), lo, hi) == Some(n)
  {
    var s := IntToString(n);
    if n < 0 {
      NatToStringDigits(-n);
      assert s == "-" + NatToString(-n);
      assert s[0] == '-' && s[1..] == NatToString(-n);
    } else {
      NatToStringDigits(n);
      assert IsDigit(s[0]);
    }
  }
}

=== FILE: trainer.dfy ===
/**
 * `trainer view/add/remove/set` (rowifi/src/commands/settings/trainer.rs):
 * the roles allowed to use the trainer commands, kept both in the
 * `trainer_roles` column of the Postgres `guilds` table and in the bot's
 * in-memory cache.
 */
module TrainerCommand {
  import opened Wrappers
  import opened Text
  import opened Seqs
  import opened Errors
  import opened BotState
  import opened RoleSettings

  const INTRO := "These are the roles that can interact with trainer commands."

  /** The reply of `trainer_view`: the stored trainer roles. */
  function ViewReply(row: GuildRow): Output {
    Respond(Embed(Plain, "RoWifi Trainer Roles", INTRO + "\n\n" + Listing(row.trainerRoles), []), false)
  }

  /** `trainer_view`: list the stored trainer roles. */
  function ViewOutcome(rows: map<int, GuildRow>, cache: map<int, seq<int>>, guildId: int, missing: RoError): Outcome {
    match Gate(rows, cache, guildId, missing)
    case Some(o) => o
    case None => Outcome(rows, cache, [ViewReply(rows[guildId])], Ok(()))
  }

  /** `trainer_add`: append the requested roles not cached yet to the column and to the cache. */
  function AddOutcome(rows: map<int, GuildRow>, cache: map<int, seq<int>>, req: RolesRequest, parse: string -> Option<int>,
                      missing: RoError): Outcome
  {
    match Gate(rows, cache, req.guildId, missing)
    case Some(o) => o
    case None => Added(rows, cache, req, parse)
  }

  /** The work of `trainer_add` on a Premium guild that has a row. */
  function Added(rows: map<int, GuildRow>, cache: map<int, seq<int>>, req: RolesRequest, parse: string -> Option<int>): Outcome
    requires req.guildId in rows
  {
    var row := rows[req.guildId];
    var added := ToAdd(Requested(req, parse), Cached(cache, req.guildId));
    Outcome(rows[req.guildId := row.(trainerRoles := row.trainerRoles + added)],
            cache[req.guildId := Cached(cache, req.guildId) + added],
            [Modified("Added Trainer Roles:\n" + RoleLines(added))], Ok(()))
  }

  /**
   * `trainer_remove` as written: the cache loses the listed ids, but the
   * column is set to the guild's admin roles without them.
   */
  function RemoveOutcome(rows: map<int, GuildRow>, cache: map<int, seq<int>>, req: RolesRequest, parse: string -> Option<int>,
                         missing: RoError): Outcome
  {
    match Gate(rows, cache, req.guildId, missing)
    case Some(o) => o
    case None => Removed(rows, cache, req, parse, rows[req.guildId].adminRoles)
  }

  /**
   * The work of `trainer_remove` on a Premium guild that has a row: the
   * column becomes `kept` without the listed ids, the cache loses them.
   */
  function Removed(rows: map<int, GuildRow>, cache: map<int, seq<int>>, req: RolesRequest, parse: string -> Option<int>,
                   kept: seq<int>): Outcome
    requires req.guildId in rows
  {
    var ids := Listed(req, parse);
    Outcome(rows[req.guildId := rows[req.guildId].(trainerRoles := Without(kept, ids))],
            cache[req.guildId := Without(Cached(cache, req.guildId), ids)],
            [Modified("Removed Trainer Roles:\n" + RoleLines(ids))], Ok(()))
  }

  /** `trainer_remove` as evidently intended: the column loses the listed ids from the trainer roles. */
  function CorrectedRemoveOutcome(rows: map<int, GuildRow>, cache: map<int, seq<int>>, req: RolesRequest,
                                  parse: string -> Option<int>, missing: RoError): Outcome
  {
    match Gate(rows, cache, req.guildId, missing)
    case Some(o) => o
    case None => Removed(rows, cache, req, parse, rows[req.guildId].trainerRoles)
  }

  /** `trainer_set`: the column and the cache both become the requested roles. */
  function SetOutcome(rows: map<int, GuildRow>, cache: map<int, seq<int>>, req: RolesRequest, parse: string -> Option<int>,
                      missing: RoError): Outcome
  {
    match Gate(rows, cache, req.guildId, missing)
    case Some(o) => o
    case None => SetTo(rows, cache, req, parse)
  }

  /** The work of `trainer_set` on a Premium guild that has a row. */
  function SetTo(rows: map<int, GuildRow>, cache: map<int, seq<int>>, req: RolesRequest, parse: string -> Option<int>): Outcome
    requires req.guildId in rows
  {
    var ids := Requested(req, parse);
    Outcome(rows[req.guildId := rows[req.guildId].(trainerRoles := ids)], cache[req.guildId := ids],
            [Modified("Set Trainer Roles:\n" + RoleLines(ids))], Ok(()))
  }

  /** The cache entry of the guild holds what its row stores. */
  predicate CacheAgrees(rows: map<int, GuildRow>, cache: map<int, seq<int>>, guildId: int) {
    guildId in rows ==> Cached(cache, guildId) == rows[guildId].trainerRoles
  }

  /**
   * Without a row every handler fails with the lookup's error, and on a Free
   * guild each only replies with the Premium refusal; neither changes the
   * column or the cache.
   */
  lemma RefusedWithoutPremium(rows: map<int, GuildRow>, cache: map<int, seq<int>>, req: RolesRequest,
                              parse: string -> Option<int>, missing: RoError)
    requires req.guildId !in rows || rows[req.guildId].kind == Free
    ensures var expected := if req.guildId !in rows then Outcome(rows, cache, [], Err(missing))
                            else Outcome(rows, cache, [Respond(PREMIUM_ONLY, false)], Ok(()));
      ViewOutcome(rows, cache, req.guildId, missing) == expected
      && AddOutcome(rows, cache, req, parse, missing) == expected
      && RemoveOutcome(rows, cache, req, parse, missing) == expected
      && SetOutcome(rows, cache, req, parse, missing) == expected
  {
  }

  /** The view lists the stored roles, or says "None" when there are none, and changes nothing. */
  lemma ViewListsStoredRoles(rows: map<int, GuildRow>, cache: map<int, seq<int>>, guildId: int, missing: RoError)
    requires guildId in rows && rows[guildId].kind == Premium
    ensures var o := ViewOutcome(rows, cache, guildId, missing);
      o.rows == rows && o.cache == cache && o.result == Ok(()) && |o.sent| == 1 && o.sent[0].Respond?
      && o.sent[0].embed.description == INTRO + "\n\n" + Listing(rows[guildId].trainerRoles)
      && (o.sent[0].embed.description == INTRO + "\n\nNone" <==> rows[guildId].trainerRoles == [])
  {
    ListingNoneIffEmpty(rows[guildId].trainerRoles);
    if rows[guildId].trainerRoles != [] {
      var l := Listing(rows[guildId].trainerRoles);
      assert (INTRO + "\n\n" + l)[|INTRO + "\n\n"|..] == l;
    }
  }

  /**
   * `add` appends to the column exactly the requested roles that were not
   * cached, each once, and the cache gains the same roles; every other
   * guild is untouched. If the cache held what the row stores, it still
   * does; and a cache without repeats stays so.
   */
  lemma AddAppendsNewRoles(rows: map<int, GuildRow>, cache: map<int, seq<int>>, req: RolesRequest,
                           parse: string -> Option<int>, missing: RoError)
    requires req.guildId in rows && rows[req.guildId].kind == Premium
    ensures var o := AddOutcome(rows, cache, req, parse, missing);
      var cached := Cached(cache, req.guildId);
      var added := ToAdd(Requested(req, parse), cached);
      o.result == Ok(()) && o.rows.Keys == rows.Keys
      && (forall g :: g in rows && g != req.guildId ==> o.rows[g] == rows[g])
      && (forall g :: g in cache && g != req.guildId ==> g in o.cache && o.cache[g] == cache[g])
      && o.rows[req.guildId].trainerRoles == rows[req.guildId].trainerRoles + added
      && Cached(o.cache, req.guildId) == cached + added
      && NoDuplicates(added)
      && (forall x :: x in added <==> x in Requested(req, parse) && x !in cached)
      && (CacheAgrees(rows, cache, req.guildId) ==> CacheAgrees(o.rows, o.cache, req.guildId))
      && (NoDuplicates(cached) ==> NoDuplicates(Cached(o.cache, req.guildId)))
  {
    var cached := Cached(cache, req.guildId);
    if NoDuplicates(cached) {
      AdditionKeepsDistinct(Requested(req, parse), cached);
    }
  }

  /** Repeating an `add` changes neither the column nor the cache again. */
  lemma AddIsIdempotent(rows: map<int, GuildRow>, cache: map<int, seq<int>>, req: RolesRequest,
                        parse: string -> Option<int>, missing: RoError)
    requires req.guildId in rows && rows[req.guildId].kind == Premium
    ensures var once := AddOutcome(rows, cache, req, parse, missing);
      var twice := AddOutcome(once.rows, once.cache, req, parse, missing);
      twice.rows == once.rows && twice.cache == once.cache
  {
    AddedTwice(rows, cache, req, parse);
  }

  /** The step of `AddIsIdempotent` on a Premium guild: the second addition finds nothing new. */
  lemma AddedTwice(rows: map<int, GuildRow>, cache: map<int, seq<int>>, req: RolesRequest, parse: string -> Option<int>)
    requires req.guildId in rows
    ensures var once := Added(rows, cache, req, parse);
      var twice := Added(once.rows, once.cache, req, parse);
      twice.rows == once.rows && twice.cache == once.cache
  {
    var once := Added(rows, cache, req, parse);
    var cached := Cached(cache, req.guildId);
    var added := ToAdd(Requested(req, parse), cached);
    AddingAgainAddsNothing(Requested(req, parse), cached);
    assert Cached(once.cache, req.guildId) == cached + added;
    var again := ToAdd(Requested(req, parse), Cached(once.cache, req.guildId));
    assert again == [];
    var twice := Added(once.rows, once.cache, req, parse);
    assert twice.rows[req.guildId] == once.rows[req.guildId] by {
      assert once.rows[req.guildId].trainerRoles + again == once.rows[req.guildId].trainerRoles;
    }
    assert twice.cache[req.guildId] == once.cache[req.guildId] by {
      assert Cached(once.cache, req.guildId) + again == Cached(once.cache, req.guildId);
    }
  }

  /**
   * `remove` drops every listed id from the cache and keeps the other cached
   * roles in order; it stores the admin roles without the listed ids.
   */
  lemma RemoveDropsListed(rows: map<int, GuildRow>, cache: map<int, seq<int>>, req: RolesRequest,
                          parse: string -> Option<int>, missing: RoError)
    requires req.guildId in rows && rows[req.guildId].kind == Premium
    ensures var o := RemoveOutcome(rows, cache, req, parse, missing);
      var ids := Listed(req, parse);
      o.result == Ok(()) && o.rows.Keys == rows.Keys
      && (forall g :: g in rows && g != req.guildId ==> o.rows[g] == rows[g])
      && Cached(o.cache, req.guildId) == Without(Cached(cache, req.guildId), ids)
      && (forall x :: x in Cached(o.cache, req.guildId) <==> x in Cached(cache, req.guildId) && x !in ids)
      && o.rows[req.guildId].trainerRoles == Without(rows[req.guildId].adminRoles, ids)
  {
  }

  /**
   * The discrepancy: a `remove` that lists nothing still replaces the
   * stored trainer roles by the admin roles, and leaves the cache and the
   * column disagreeing.
   */
  lemma RemoveStoresAdminRoles(parse: string -> Option<int>, missing: RoError)
    ensures var rows := map[7 := GuildRow(7, Premium, [1], [2], [])];
      var cache := map[7 := [2]];
      var o := RemoveOutcome(rows, cache, RolesRequest(7, "", Option.None, {}), parse, missing);
      CacheAgrees(rows, cache, 7) && o.rows[7].trainerRoles == [1] && !CacheAgrees(o.rows, o.cache, 7)
  {
    assert SplitAsciiWhitespace("") == [];
    assert Without([2], []) == [2] by {
      WithoutNothingListed([2], []);
    }
    assert Without([1], []) == [1] by {
      WithoutNothingListed([1], []);
    }
  }

  /**
   * The corrected `remove` drops the listed ids from the stored trainer
   * roles, keeps the others in order, and keeps the cache agreeing with
   * the column.
   */
  lemma CorrectedRemoveKeepsAgreement(rows: map<int, GuildRow>, cache: map<int, seq<int>>, req: RolesRequest,
                                      parse: string -> Option<int>, missing: RoError)
    requires req.guildId in rows && rows[req.guildId].kind == Premium
    ensures var o := CorrectedRemoveOutcome(rows, cache, req, parse, missing);
      var ids := Listed(req, parse);
      (forall x :: x in o.rows[req.guildId].trainerRoles <==> x in rows[req.guildId].trainerRoles && x !in ids)
      && (forall g :: g in rows && g != req.guildId ==> o.rows[g] == rows[g])
      && (CacheAgrees(rows, cache, req.guildId) ==> CacheAgrees(o.rows, o.cache, req.guildId))
  {
  }

  /**
   * `set` makes the column and the cache the same list: the requested
   * roles, each once; repeating it changes nothing more.
   */
  lemma SetAgreesAndIsIdempotent(rows: map<int, GuildRow>, cache: map<int, seq<int>>, req: RolesRequest,
                                 parse: string -> Option<int>, missing: RoError)
    requires req.guildId in rows && rows[req.guildId].kind == Premium
    ensures var once := SetOutcome(rows, cache, req, parse, missing);
      var twice := SetOutcome(once.rows, once.cache, req, parse, missing);
      CacheAgrees(once.rows, once.cache, req.guildId)
      && NoDuplicates(once.rows[req.guildId].trainerRoles)
      && (forall x :: x in once.rows[req.guildId].trainerRoles <==>
            x in Collected(SplitAsciiWhitespace(req.text), req.resolved, parse, InServer(req.serverRoles)))
      && twice.rows == once.rows && twice.cache == once.cache
  {
  }

  /** `trainer_view`. */
  method TrainerView(bot: Bot, guildId: int, missing: RoError) returns (r: Result<(), RoError>)
    modifies bot
    ensures var o := ViewOutcome(old(bot.guildRows), old(bot.trainerRoles), guildId, missing);
      bot.guildRows == o.rows && bot.trainerRoles == o.cache && bot.outputs == old(bot.outputs) + o.sent && r == o.result
    ensures bot.guilds == old(bot.guilds) && bot.binds == old(bot.binds)
    ensures bot.bypassRoles == old(bot.bypassRoles) && bot.ignoreComponents == old(bot.ignoreComponents)
  {
    var stop := CheckPremium(bot, guildId, missing);
    if stop.Some? {
      return stop.value;
    }
    var description := PushMentions("", bot.guildRows[guildId].trainerRoles, "- ", "\n");
    assert description == RoleLines(bot.guildRows[guildId].trainerRoles);
    if description == [] {
      description := "None";
    }
    assert description == Listing(bot.guildRows[guildId].trainerRoles);
    bot.Send(Respond(Embed(Plain, "RoWifi Trainer Roles", INTRO + "\n\n" + description, []), false));
    r := Ok(());
  }

  /** `trainer_add`. */
  method TrainerAdd(bot: Bot, req: RolesRequest, parse: string -> Option<int>, missing: RoError) returns (r: Result<(), RoError>)
    modifies bot
    ensures var o := AddOutcome(old(bot.guildRows), old(bot.trainerRoles), req, parse, missing);
      bot.guildRows == o.rows && bot.trainerRoles == o.cache && bot.outputs == old(bot.outputs) + o.sent && r == o.result
    ensures bot.guilds == old(bot.guilds) && bot.binds == old(bot.binds)
    ensures bot.bypassRoles == old(bot.bypassRoles) && bot.ignoreComponents == old(bot.ignoreComponents)
  {
    var stop := CheckPremium(bot, req.guildId, missing);
    if stop.Some? {
      return stop.value;
    }
    AddRoles(bot, req, parse);
    r := Ok(());
  }

  /** The work of `trainer_add` once the guild is known to be Premium. */
  method AddRoles(bot: Bot, req: RolesRequest, parse: string -> Option<int>)
    requires req.guildId in bot.guildRows
    modifies bot
    ensures var o := Added(old(bot.guildRows), old(bot.trainerRoles), req, parse);
      bot.guildRows == o.rows && bot.trainerRoles == o.cache && bot.outputs == old(bot.outputs) + o.sent
    ensures bot.guilds == old(bot.guilds) && bot.binds == old(bot.binds)
    ensures bot.bypassRoles == old(bot.bypassRoles) && bot.ignoreComponents == old(bot.ignoreComponents)
  {
    var guild := bot.guildRows[req.guildId];
    var cached := if req.guildId in bot.trainerRoles then bot.trainerRoles[req.guildId] else [];
    bot.trainerRoles := bot.trainerRoles[req.guildId := cached];
    var toAdd := ReadToAdd(req, parse, cached);
    bot.guildRows := bot.guildRows[req.guildId := guild.(trainerRoles := guild.trainerRoles + toAdd)];
    bot.trainerRoles := bot.trainerRoles[req.guildId := bot.trainerRoles[req.guildId] + toAdd];
    assert bot.trainerRoles == old(bot.trainerRoles)[req.guildId := Cached(old(bot.trainerRoles), req.guildId) + toAdd];
    var description := PushMentions("Added Trainer Roles:\n", toAdd, "- ", "\n");
    assert description == "Added Trainer Roles:\n" + RoleLines(toAdd);
    bot.Send(Modified(description));
  }

  /** `trainer_remove`, as written. */
  method TrainerRemove(bot: Bot, req: RolesRequest, parse: string -> Option<int>, missing: RoError) returns (r: Result<(), RoError>)
    modifies bot
    ensures var o := RemoveOutcome(old(bot.guildRows), old(bot.trainerRoles), req, parse, missing);
      bot.guildRows == o.rows && bot.trainerRoles == o.cache && bot.outputs == old(bot.outputs) + o.sent && r == o.result
    ensures bot.guilds == old(bot.guilds) && bot.binds == old(bot.binds)
    ensures bot.bypassRoles == old(bot.bypassRoles) && bot.ignoreComponents == old(bot.ignoreComponents)
  {
    var stop := CheckPremium(bot, req.guildId, missing);
    if stop.Some? {
      return stop.value;
    }
    RemoveRoles(bot, req, parse, bot.guildRows[req.guildId].adminRoles);
    r := Ok(());
  }

  /**
   * The work of `trainer_remove` once the guild is known to be Premium: the
   * column becomes `kept` without the listed ids.
   */
  method RemoveRoles(bot: Bot, req: RolesRequest, parse: string -> Option<int>, kept: seq<int>)
    requires req.guildId in bot.guildRows
    modifies bot
    ensures var o := Removed(old(bot.guildRows), old(bot.trainerRoles), req, parse, kept);
      bot.guildRows == o.rows && bot.trainerRoles == o.cache && bot.outputs == old(bot.outputs) + o.sent
    ensures bot.guilds == old(bot.guilds) && bot.binds == old(bot.binds)
    ensures bot.bypassRoles == old(bot.bypassRoles) && bot.ignoreComponents == old(bot.ignoreComponents)
  {
    var guild := bot.guildRows[req.guildId];
    var ids := CollectRoles(SplitAsciiWhitespace(req.text), req.resolved, parse, AnyRole);
    var keep := RetainAbsent(kept, ids);
    bot.guildRows := bot.guildRows[req.guildId := guild.(trainerRoles := keep)];
    var cached := if req.guildId in bot.trainerRoles then bot.trainerRoles[req.guildId] else [];
    cached := RetainAbsent(cached, ids);
    bot.trainerRoles := bot.trainerRoles[req.guildId := cached];
    var description := PushMentions("Removed Trainer Roles:\n", ids, "- ", "\n");
    bot.Send(Modified(description));
  }

  /** `trainer_set`. */
  method TrainerSet(bot: Bot, req: RolesRequest, parse: string -> Option<int>, missing: RoError) returns (r: Result<(), RoError>)
    modifies bot
    ensures var o := SetOutcome(old(bot.guildRows), old(bot.trainerRoles), req, parse, missing);
      bot.guildRows == o.rows && bot.trainerRoles == o.cache && bot.outputs == old(bot.outputs) + o.sent && r == o.result
    ensures bot.guilds == old(bot.guilds) && bot.binds == old(bot.binds)
    ensures bot.bypassRoles == old(bot.bypassRoles) && bot.ignoreComponents == old(bot.ignoreComponents)
  {
    var stop := CheckPremium(bot, req.guildId, missing);
    if stop.Some? {
      return stop.value;
    }
    var guild := bot.guildRows[req.guildId];
    var ids := ReadRequested(req, parse);
    bot.guildRows := bot.guildRows[req.guildId := guild.(trainerRoles := ids)];
    bot.trainerRoles := bot.trainerRoles[req.guildId := ids];
    var description := PushMentions("Set Trainer Roles:\n", ids, "- ", "\n");
    bot.Send(Modified(description));
    r := Ok(());
  }
}

=== FILE: update_settings.dfy ===
/**
 * `update-on-join` and `update-on-verify` (rowifi/src/commands/settings/update.rs):
 * switch one boolean of the guild's settings in its MongoDB document, confirm
 * in the channel and log the change. The two handlers differ only in the
 * setting they write, so one definition takes the setting as a parameter.
 */
module UpdateSettingsCommand {
  import opened Wrappers
  import opened Text
  import opened Errors
  import opened BotState
  import GuildModel

  /** The argument of both commands. */
  datatype ToggleOption = Enable | Disable

  /** Which of the two settings a handler writes. */
  datatype Setting = OnJoin | OnVerify

  /** The value written: Enable is true, Disable is false. */
  function Toggled(option: ToggleOption): (value: bool)
    ensures value <==> option == Enable
  {
    match option
    case Enable => true
    case Disable => false
  }

  /** The setting's name in the log entry. */
  function SettingName(setting: Setting): string {
    match setting
    case OnJoin => "Join"
    case OnVerify => "Verify"
  }

  /** The confirmation, with the source's own spelling of each message. */
  function Confirmation(setting: Setting, option: ToggleOption): string {
    match (setting, option)
    case (OnJoin, Enable) => "Update on Join has succesfully been enabled"
    case (OnJoin, Disable) => "Update on Join has successfully been disabled"
    case (OnVerify, Enable) => "Update on Verify has succesfully been enabled"
    case (OnVerify, Disable) => "Update on Verify has successfully been disabled"
  }

  /** The value a setting holds. */
  function Current(settings: GuildModel.GuildSettings, setting: Setting): bool {
    match setting
    case OnJoin => settings.updateOnJoin
    case OnVerify => settings.updateOnVerify
  }

  /** `$set` of the one setting: `Settings.UpdateOnJoin` or `Settings.UpdateOnVerify`. */
  function WithSetting(settings: GuildModel.GuildSettings, setting: Setting, value: bool): (s: GuildModel.GuildSettings)
    ensures Current(s, setting) == value
    ensures forall other: Setting :: other != setting ==> Current(s, other) == Current(settings, other)
    ensures s.autoDetection == settings.autoDetection && s.guildType == settings.guildType
    ensures s.blacklistAction == settings.blacklistAction
  {
    match setting
    case OnJoin => settings.(updateOnJoin := value)
    case OnVerify => settings.(updateOnVerify := value)
  }

  /** The log entry's description: the setting, then its old value and its new one. */
  function LogLine(setting: Setting, before: bool, after: bool): string {
    "Settings Modification: Update On " + SettingName(setting) + " - " + Change(before, after)
  }

  /** `{old} -> {new}`, each value as `Display` writes a bool. */
  function Change(before: bool, after: bool): string {
    BoolToString(before) + " -> " + BoolToString(after)
  }

  /** A change's text names both values: equal texts are equal changes. */
  lemma ChangeIsInjective(before: bool, after: bool, before': bool, after': bool)
    ensures Change(before, after) == Change(before', after') ==> before == before' && after == after'
  {
    if Change(before, after) == Change(before', after') {
      assert Change(before, after)[0] == BoolToString(before)[0];
      assert Change(before', after')[0] == BoolToString(before')[0];
    }
  }

  /** The guild documents, what was sent, and the result of a handler. */
  datatype Outcome = Outcome(guilds: map<int, GuildModel.RoGuild>, sent: seq<Output>, result: Result<(), RoError>)

  /**
   * `update_on_join` or `update_on_verify`: fail with NoRoGuild when the guild
   * has no document; otherwise write the setting, confirm it, and log the
   * old and the new value.
   */
  function UpdateOutcome(guilds: map<int, GuildModel.RoGuild>, guildId: int, setting: Setting, option: ToggleOption,
                         authorName: string): Outcome
  {
    if guildId !in guilds then Outcome(guilds, [], Err(Command(NoRoGuild)))
    else
      var guild := guilds[guildId];
      var value := Toggled(option);
      Outcome(guilds[guildId := guild.(settings := WithSetting(guild.settings, setting, value))],
              [Post(Embed(DarkGreen, "Settings Modification Successful", Confirmation(setting, option), [])),
               GuildLog(Embed(Plain, "Action by " + authorName, LogLine(setting, Current(guild.settings, setting), value), []))],
              Ok(()))
  }

  /** Without a guild document the handler fails with NoRoGuild, writes nothing and sends nothing. */
  lemma MissingGuildFails(guilds: map<int, GuildModel.RoGuild>, guildId: int, setting: Setting, option: ToggleOption,
                          authorName: string)
    requires guildId !in guilds
    ensures var o := UpdateOutcome(guilds, guildId, setting, option, authorName);
      o.guilds == guilds && o.sent == [] && o.result == Err(Command(NoRoGuild))
  {
  }

  /**
   * With a document, only the chosen setting of that guild changes: it
   * becomes true for Enable and false for Disable; the other setting, the
   * guild's other fields and every other guild stay as they were.
   */
  lemma OnlyTheSettingChanges(guilds: map<int, GuildModel.RoGuild>, guildId: int, setting: Setting, option: ToggleOption,
                              authorName: string)
    requires guildId in guilds
    ensures var o := UpdateOutcome(guilds, guildId, setting, option, authorName);
      var before := guilds[guildId];
      var after := o.guilds[guildId];
      o.result == Ok(()) && o.guilds.Keys == guilds.Keys
      && (forall g :: g in guilds && g != guildId ==> o.guilds[g] == guilds[g])
      && (Current(after.settings, setting) <==> option == Enable)
      && (forall other: Setting :: other != setting ==> Current(after.settings, other) == Current(before.settings, other))
      && after.settings.autoDetection == before.settings.autoDetection
      && after.settings.guildType == before.settings.guildType
      && after.settings.blacklistAction == before.settings.blacklistAction
      && after.(settings := before.settings) == before
  {
  }

  /** Running a handler twice with the same option stores what running it once does. */
  lemma RepeatingStoresTheSame(guilds: map<int, GuildModel.RoGuild>, guildId: int, setting: Setting, option: ToggleOption,
                               authorName: string)
    ensures var once := UpdateOutcome(guilds, guildId, setting, option, authorName);
      UpdateOutcome(once.guilds, guildId, setting, option, authorName).guilds == once.guilds
  {
    if guildId in guilds {
      var once := UpdateOutcome(guilds, guildId, setting, option, authorName);
      var guild := once.guilds[guildId];
      assert WithSetting(guild.settings, setting, Toggled(option)) == guild.settings;
    }
  }

  /** The reply and the log entry: the confirmation first, then the entry by the author. */
  lemma RepliesThenLogs(guilds: map<int, GuildModel.RoGuild>, guildId: int, setting: Setting, option: ToggleOption,
                        authorName: string)
    requires guildId in guilds
    ensures var o := UpdateOutcome(guilds, guildId, setting, option, authorName);
      |o.sent| == 2 && o.sent[0].Post? && o.sent[0].embed.description == Confirmation(setting, option)
      && o.sent[1].GuildLog? && o.sent[1].embed.title == "Action by " + authorName
      && o.sent[1].embed.description == LogLine(setting, Current(guilds[guildId].settings, setting), option == Enable)
  {
  }

  /** The log line names the old and the new value: two equal lines record the same change. */
  lemma LogLineRecordsChange(setting: Setting, before: bool, after: bool, before': bool, after': bool)
    ensures LogLine(setting, before, after) == LogLine(setting, before', after') ==> before == before' && after == after'
  {
    var head := "Settings Modification: Update On " + SettingName(setting) + " - ";
    assert LogLine(setting, before, after)[|head|..] == Change(before, after);
    assert LogLine(setting, before', after')[|head|..] == Change(before', after');
    ChangeIsInjective(before, after, before', after');
  }
}

=== FILE: wrappers.dfy ===
/** Option and Result, the two failure-carrying shapes the Rust code uses. */
module Wrappers {

  datatype Option<+T> = None | Some(value: T) {
    /** `unwrap_or(default)` */
    function GetOr(default: T): T {
      match this
      case Some(v) => v
      case None => default
    }
  }

  datatype Result<+T, +E> = Ok(value: T) | Err(error: E)
}
